=== FILE: README.md ===
# Marble game core logic in Dafny

This project models the discrete logic of a Unity marble-rolling game (a Marble Blast remake) and proves properties about it. The float geometry around that logic is not modelled. The logic covered is:

- **Moving platforms:** the timing tables, segment lookup, triggered and looping time stepping, index guards and reset.
- **Marble controller decisions:** the fixed 5 ms scheduler, the sweep clamp, the penetration tests, the contact filter, mesh-transform change detection, the input clamp, the jump and bounce gates, and the resting-contact velocity cancel.
- **Interior mesh post-processing:** resource validation, welding, tiny-triangle removal, flat shading and chunking.
- **Mission-file value conversion:** paths, the axis swap, colours, polyhedra, object fields, platform markers, smoothing and target positions.
- **Mission-info field defaults and the level-number sort.**
- **HUD:** timer and gem digits, the power-up icon and the centre image.
- **State machines:** surface materials, marble power-ups and power-up pickup/respawn.

How the source's types map to Dafny:

- Floats become `real`. Integers become `int`. C#'s truncating `(int)` cast, `/` and `%` are written out explicitly (`GameUI.TruncToInt`, `CDiv`, `CRem`, `FMod`).
- Exceptions become `Result` values with an `Error` kind.
- A `null` becomes `None`.
- Engine queries, the clock, randomness and float helpers (magnitude, normalisation, the weld key, the area test, the cosine ease) become parameters.

One module per source file:

| file | module | source |
|---|---|---|
| wrappers.dfy | Wrappers | `Option`, `Result`, error kinds |
| vectors.dfy | Vectors | real 3-vectors and scalar helpers (`Mathf.Clamp`, `Mathf.Max`) |
| moving_platform.dfy | MovingPlatform | Assets/MovingPlatform.cs |
| movement.dfy | Movement | Assets/Scripts/Movement.cs |
| dif.dfy | Dif | Assets/Scripts/Dif/Dif.cs |
| mission_importer.dfy | MissionImporter | Assets/Scripts/TS/MissionImporter.cs |
| mission_info.dfy | MissionInfo | Assets/Scripts/UI/MissionInfo.cs |
| game_ui.dfy | GameUI | Assets/GameUIManager.cs |
| friction_manager.dfy | FrictionManager | Assets/Scripts/Game/FrictionManager.cs |
| marble.dfy | Marble | Assets/Scripts/Game/Marble.cs |
| powerups.dfy | Powerups | Assets/Scripts/Game/Items/Powerups.cs |

## Model

| member | source | states |
|---|---|---|
| MovingPlatform.InvDuration | Assets/MovingPlatform.cs:133-134 | a positive duration gets its exact reciprocal (r·dt = 1); a zero or negative one gets 0, so nothing divides by zero |
| MovingPlatform.BuildTiming | Assets/MovingPlatform.cs:129-140 | start times are prefix sums of the durations (start[0] = 0, start[i+1] = start[i] + d[i]); the total is the sum of all durations; the reachable maximum is the sum of all but the last (`TimingOf`) |
| MovingPlatform.ForceLastZero | Assets/MovingPlatform.cs:119-120 | the last marker's duration becomes 0 and every other duration is kept |
| MovingPlatform.ForcedMaxReachableIsTotal | Assets/MovingPlatform.cs:119-140 | with the last duration forced to 0, the furthest reachable time equals the total path time |
| MovingPlatform.GeneratePositions | Assets/MovingPlatform.cs:321-332 | one waypoint per marker, each the marker minus the first marker, so adding the first marker back gives the marker; the first waypoint is the origin |
| MovingPlatform.GeneratePositionsTranslationInvariant | Assets/MovingPlatform.cs:321-332 | waypoints are relative to the first marker, so shifting every marker by the same offset leaves the path unchanged |
| MovingPlatform.FindFrom | Assets/MovingPlatform.cs:305-313 | the scan from i returns a segment in [i, count-2] after every segment it skipped has ended; with a later start beyond t, that segment ends after t; otherwise it is count-2 |
| MovingPlatform.FindSegmentIndex | Assets/MovingPlatform.cs:305-313 | for two or more entries the result is in [0, count-2] and for start[0] ≤ t < last start it satisfies start[r] ≤ t < start[r+1]; when no later start exceeds t (e.g. t at the total time) it is count-2; with fewer than two entries it is count-2 < 0 |
| MovingPlatform.ClampListPos | Assets/MovingPlatform.cs:399-404 | a neighbour index before the list gives the last marker, one past the end gives the first; within one step of the list the result is a valid index |
| MovingPlatform.ClampListPosWraps | Assets/MovingPlatform.cs:376-385 | the predecessor and successor the spline sampler asks for agree with modular indexing; the second successor of the last marker is the first marker, not the second |
| MovingPlatform.Init | Assets/MovingPlatform.cs:69-156 | initialisation fails exactly when there are fewer than two markers. Otherwise the platform satisfies its invariant, time is initialPosition clamped to [0, maxReachable], the target equals the time, the index is the segment of that time, and a marker platform can reach its whole path |
| MovingPlatform.GoToTime | Assets/MovingPlatform.cs:175-181 | a triggered platform's target is clamped to [0, maxReachable], and an in-range request is kept exactly; a constant platform stores the request raw; nothing else changes |
| MovingPlatform.MoveTowards | Assets/MovingPlatform.cs:243-246 | the time moves toward the target by at most one step, never past it, and reaches it exactly when it is within one step |
| MovingPlatform.Tick | Assets/MovingPlatform.cs:186-300 | one fixed update keeps the platform invariant. A triggered platform at its target publishes zero velocity and holds; otherwise it moves by at most dt without overshooting. A constant platform loops to time 0 and segment 0 past the total time. The marker index advances by at most one and only below count-2. The spline index is looked up afresh. Moving ticks publish displacement/dt. The configuration never changes |
| MovingPlatform.TriggeredStaysInRange | Assets/MovingPlatform.cs:175-250 | a triggered platform whose time and target are in [0, maxReachable] keeps both there through any GoToTime followed by a tick |
| MovingPlatform.SplineStep | Assets/MovingPlatform.cs:191-231 | the spline branch keeps the platform invariant and its configuration, so its index guard never fires. The time loops to 0 past the total, the segment is looked up afresh, and the displacement over dt is published as velocity |
| MovingPlatform.MarkerStep | Assets/MovingPlatform.cs:242-276 | the marker branch (advance, loop, single-step segment advance) keeps the platform invariant, including the cached segment end. A loop restarts at segment 0, the index moves forward by at most one and only below the last segment, and the displacement over dt is published as velocity |
| MovingPlatform.PlaceAt | Assets/MovingPlatform.cs:271-299 | the safety guard and interpolation store the given time, index and segment end and keep the invariant; the guard never fires, so the new position is always published with its velocity |
| MovingPlatform.ResetAsWritten | Assets/MovingPlatform.cs:158-170 | as written, a reset puts time and target back to the raw initialPosition, with the initial index and zero velocity |
| MovingPlatform.ResetAsWrittenMissesInitialState | Assets/MovingPlatform.cs:158-170 | a valid platform exists, in exactly the state initialisation produced, that this reset moves to a time beyond its reachable path |
| MovingPlatform.Reset | Assets/MovingPlatform.cs:158-170 | the corrected reset, clamping as initialisation does, keeps the configuration and the platform invariant |
| MovingPlatform.ResetRestoresInitialState | Assets/MovingPlatform.cs:142-170 | after any sequence of ticks and triggers, the corrected reset returns exactly the state initialisation produced |
| Movement.FixedUpdate | Assets/Scripts/Movement.cs:152-166 | the bank of frame time is drained in slices until less than 5 ms remains. What remains is the bank minus the slices consumed. No slice runs iff the bank was under 5 ms, and a non-negative bank stays non-negative |
| Movement.FuelSuffices | Assets/Scripts/Movement.cs:160-165 | a positive bank is exhausted within floor(bank/m)+1 slices of at least m each, so the loop terminates |
| Movement.FuelStep | Assets/Scripts/Movement.cs:160-165 | each slice of at least m lowers the slice bound by one |
| Movement.FullSlicesSum | Assets/Scripts/Movement.cs:160-165 | with every slice a full 5 ms, k slices consume k·5 ms |
| Movement.SweepSlice | Assets/Scripts/Movement.cs:181-187 | the sweep is tried only when speed·dt exceeds the radius. The slice never grows. On a hit it becomes the time of impact (slice·speed = hit distance). A hit at positive distance keeps the slice positive |
| Movement.Penetration | Assets/Scripts/Movement.cs:401-405 | a contact is produced exactly when the distance is below the radius, with penetration radius - dist in (0, radius] |
| Movement.FacePenetration | Assets/Scripts/Movement.cs:246-252 | a face contact needs distance below the radius and the centre on the face's front side, and then has penetration in (0, radius] |
| Movement.Clamp01 | Assets/Scripts/Movement.cs:397 | the edge parameter lies in [0, 1] |
| Movement.EdgeClosest | Assets/Scripts/Movement.cs:396-399 | a non-degenerate edge yields a point of the segment ab; a zero-length edge yields none (the division by zero) |
| Movement.EdgeClosestIsNearest | Assets/Scripts/Movement.cs:396-399 | the clamped projection is no farther from the centre than any other point of the edge |
| Movement.NearestOnSegment | Assets/Scripts/Movement.cs:396-399 | the same nearest-point property in coordinates relative to the edge start |
| Movement.ClampedVertexIsMinimum | Assets/Scripts/Movement.cs:397 | over [0, 1] the squared distance along the edge is smallest at the clamped vertex of its parabola |
| Movement.FirstMax | Assets/Scripts/Movement.cs:273-275 | the returned element has the greatest score and every earlier element scores strictly less (ties go to the first) |
| Movement.FilterContacts | Assets/Scripts/Movement.cs:265-299 | isColliding holds iff there were candidates. The filtered list has at most one contact, exactly one iff there were candidates. It is the first candidate of greatest penetration, and the up-alignment pass leaves it unchanged |
| Movement.UpdateMeshTransform | Assets/Scripts/Movement.cs:320-335 | the stored last-values always equal the current transform; the matrices are re-read only when position, rotation or scale changed, and the cache is untouched otherwise |
| Movement.UpdateMeshTransformIdempotent | Assets/Scripts/Movement.cs:320-335 | refreshing twice against the same transform equals refreshing once |
| Movement.ClampAxis | Assets/Scripts/Movement.cs:583-587 | a positive request is raised to the top-of-sphere speed (max); a negative one is lowered to it (min); zero stays zero |
| Movement.MoveInput | Assets/Scripts/Movement.cs:577-587 | the controller is idle iff both scaled inputs are under 0.001 in magnitude; otherwise each axis is the clamped request |
| Movement.TargetAngularVelocity | Assets/Scripts/Movement.cs:592 | the target spin axis is perpendicular to gravity, and scaled back by the squared gravity length it is gravity × the requested motion |
| Movement.TargetSpinDrivesTop | Assets/Scripts/Movement.cs:592 | for a requested velocity perpendicular to gravity, the target angular velocity makes the sphere's top move at exactly that velocity and is itself perpendicular to gravity |
| Movement.StrongestContact | Assets/Scripts/Movement.cs:740-752 | -1 iff no contact pushes against the acceleration; otherwise the first contact with the strictly greatest positive push |
| Movement.ContactGate | Assets/Scripts/Movement.cs:755-796 | the jump fires iff there is a strongest contact, Jump is held, bounce ≤ 0 and n·up > 0.5. It sets the normal speed to jumpImpulse, keeps the tangential part and skips friction. Otherwise, with bounce > 0, a normal speed below bounce is raised to exactly bounce |
| Movement.JumpAlongNormal | Assets/Scripts/Movement.cs:766-776 | removing any normal components and adding the impulse leaves normal speed equal to the impulse and the tangential part unchanged |
| Movement.CancelPass | Assets/Scripts/Movement.cs:650-690 | a pass changes the velocity iff it approaches the contact and either bounces or the contact is floor-like (n·up > 0.7). A resting lock zeroes the normal speed. A bounce makes the normal speed −(bounceRestitution · contact restitution) × the approach speed. Otherwise nothing changes |
| Movement.CancelPassSettles | Assets/Scripts/Movement.cs:646-720 | with non-negative effective restitution, one pass leaves a velocity the next pass does not change |
| Movement.VelocityCancel | Assets/Scripts/Movement.cs:636-722 | at most six passes and at least one. No contacts leaves the velocity unchanged. With a non-negative restitution the result is a settled pass. Under noBounce a floor contact ends non-approaching and a wall contact is untouched |
| Movement.Integrate | Assets/Scripts/Movement.cs:488-500 | the position always moves by vel·dt; the rotation changes only when the spin exceeds 1e-7 |
| Movement.IntegrateTwice | Assets/Scripts/Movement.cs:488-500 | two steps below the spin guard compose into one step of dt1 + dt2, with the orientation kept |
| Dif.Weld | Assets/Scripts/Dif/Dif.cs:302-337 | triangles keep their length and every index is in range. Each old vertex maps to a new vertex with the same key. No two new vertices share a key. Each new vertex is the first old vertex seen with its key |
| Dif.WeldKeepsFirstSeen | Assets/Scripts/Dif/Dif.cs:311-325 | the vertex an old vertex welds to is the earliest old vertex with the same key |
| Dif.RemoveTinyTriangles | Assets/Scripts/Dif/Dif.cs:274-298 | the output is whole triangles, copied in their original order. A triangle is kept iff it passes the area test |
| Dif.FlatShade | Assets/Scripts/Dif/Dif.cs:340-379 | one new vertex per corner (newVerts[i] = verts[tris[i]]), identity triangles (newTris[i] = i), and the same normal on all three corners of a face |
| Dif.PlatformPhysicsMesh | Assets/Scripts/Dif/Dif.cs:23-92 | an unusable resource gives false. A null sub-mesh list fails with a null reference, and fails exactly then. Otherwise the collider has one vertex per triangle corner and identity triangles, and every corner keeps its original vertex's weld key |
| Dif.ChunksOfAppend | Assets/Scripts/Dif/Dif.cs:159-202 | the chunks of one material in an appended list are those of each part, in order |
| Dif.ChunkSize | Assets/Scripts/Dif/Dif.cs:169-178 | the buffer capacity is maxTrianglesPerChunk·3 in 32-bit wrap-around arithmetic. It fails iff that is negative. Otherwise chunks hold the smallest positive multiple of 3 reaching it |
| Dif.ChunkSizeCases | Assets/Scripts/Dif/Dif.cs:169-178 | a setting from 1 to 715,827,882 gives chunks of 3·setting and 0 gives one triangle per chunk. A negative setting fails, and so does 715,827,883, whose product overflows |
| Dif.SplitMaterial | Assets/Scripts/Dif/Dif.cs:171-199 | one material's triangles are cut into non-empty chunks of at most the limit, every chunk but the last full, concatenating back to the list |
| Dif.SplitIsUnique | Assets/Scripts/Dif/Dif.cs:171-199 | that chunking is the only one with those properties |
| Dif.EmptySplit | Assets/Scripts/Dif/Dif.cs:164-165 | a material produces no chunk iff its list is empty |
| Dif.GenerateMesh | Assets/Scripts/Dif/Dif.cs:125-204 | an unusable resource gives false. A negative buffer capacity fails iff some material has triangles, and then no chunk is built. Otherwise chunk numbers run 0, 1, … and materials appear in order. Each material's chunks are its split, so null or empty materials give none |
| Dif.AppendMaterial | Assets/Scripts/Dif/Dif.cs:161-199 | one material's pass appends its split with consecutive chunk numbers and leaves other materials' chunks alone |
| Dif.ChunksOfSingle | Assets/Scripts/Dif/Dif.cs:161-199 | chunks all tagged with one material yield their parts for that material and nothing for the others |
| MissionImporter.TrimStartSlashes | Assets/Scripts/TS/MissionImporter.cs:920 | the result is a suffix that does not start with '/' and only '/' characters were removed |
| MissionImporter.IndexOf | Assets/Scripts/TS/MissionImporter.cs:931 | the first position of the character, or -1 iff it does not occur |
| MissionImporter.RemoveAll | Assets/Scripts/TS/MissionImporter.cs:937 | no occurrence survives, and a string without the character is unchanged |
| MissionImporter.RemoveAllCounts | Assets/Scripts/TS/MissionImporter.cs:937 | every other character survives as often as it occurred. With RemoveAllAppend this fixes the result |
| MissionImporter.ResolvePath | Assets/Scripts/TS/MissionImporter.cs:914-943 | null and "" come back unchanged. A non-empty all-slash path fails with IndexOutOfRange. Any result has no backslashes. A path not starting with '.' resolves into the "marble/" tree |
| MissionImporter.Rooted | Assets/Scripts/TS/MissionImporter.cs:923-934 | a leading '.' is replaced by the mission directory. Otherwise everything up to and including the first '/' becomes "marble/", and a path without '/' gets "marble/" prepended |
| MissionImporter.Clean | Assets/Scripts/TS/MissionImporter.cs:937-940 | no backslash remains and the "marble/" prefix survives. A path free of backslashes loses exactly one trailing quote, if present |
| MissionImporter.CleanKeepsCharacters | Assets/Scripts/TS/MissionImporter.cs:937-940 | cleaning loses only backslashes and at most one further character |
| MissionImporter.DropTrailingQuote | Assets/Scripts/TS/MissionImporter.cs:939-940 | exactly one trailing quote is removed, the rest is a prefix |
| MissionImporter.RemoveAllAppend | Assets/Scripts/TS/MissionImporter.cs:937 | character removal distributes over concatenation |
| MissionImporter.ResolveCleanPath | Assets/Scripts/TS/MissionImporter.cs:914-943 | a clean "marble/..." path without backslashes or trailing quote resolves to itself |
| MissionImporter.ResolvePathIdempotent | Assets/Scripts/TS/MissionImporter.cs:914-943 | resolving an already resolved (non-'.') path without a trailing quote changes nothing |
| MissionImporter.ResolveUnderMarble | Assets/Scripts/TS/MissionImporter.cs:914-943 | for any first directory and clean remainder, d/rest resolves to "marble/rest", and so does d/rest followed by a quote |
| MissionImporter.ResolveBareName | Assets/Scripts/TS/MissionImporter.cs:914-943 | a clean name without '/' resolves to "marble/" + name |
| MissionImporter.ResolveDotPath | Assets/Scripts/TS/MissionImporter.cs:914-943 | "." + rest resolves to the mission directory + rest when that is clean |
| MissionImporter.ConvertPoint | Assets/Scripts/TS/MissionImporter.cs:862-865 | (x, y, z) becomes (x, z, y); fewer than three values fail |
| MissionImporter.ConvertPointInvolution | Assets/Scripts/TS/MissionImporter.cs:862-865 | swapping the axes twice is the identity |
| MissionImporter.ConvertColor | Assets/Scripts/TS/MissionImporter.cs:802-817 | white for null or fewer than three values. Alpha defaults to 1. With max(r, g, b) > 0 the colour is scaled so its brightest channel is 1 and the channel ratios are kept. Otherwise it is raw |
| MissionImporter.Normalised | Assets/Scripts/TS/MissionImporter.cs:811-816 | dividing by the positive maximum keeps ratios and makes the maximum 1 |
| MissionImporter.ConvertIntensity | Assets/Scripts/TS/MissionImporter.cs:819-832 | max(r, g, b)·scale, or scale when the maximum is ≤ 0; a positive scale gives a positive intensity |
| MissionImporter.ConvertAmbient | Assets/Scripts/TS/MissionImporter.cs:834-845 | black for null or fewer than three values, otherwise the raw channels; alpha is always 1 |
| MissionImporter.AmbientIsUnnormalisedColor | Assets/Scripts/TS/MissionImporter.cs:802-845 | the converted colour scaled back by its largest channel is the ambient colour; without a positive channel they agree |
| MissionImporter.SunIntensityIsConstant | Assets/Scripts/TS/MissionImporter.cs:100-106 | as written the sun's intensity is 0.25 whatever its colour |
| MissionImporter.SunLightReconstructsColor | Assets/Scripts/TS/MissionImporter.cs:100-106 | with the intensity taken from the raw colour, light colour × intensity gives back the mission's colour scaled by 0.25 |
| MissionImporter.PolyhedronEdges | Assets/Scripts/TS/MissionImporter.cs:885-895 | exactly twelve values are required (otherwise an argument error); the three edges are values 3..11 |
| MissionImporter.PolyhedronOriginIgnored | Assets/Scripts/TS/MissionImporter.cs:885-895 | the origin triple does not affect the box size |
| MissionImporter.ToLower | Assets/Scripts/TS/MissionImporter.cs:958 | key lower-casing is character-wise and length-preserving |
| MissionImporter.Fields | Assets/Scripts/TS/MissionImporter.cs:956-971 | no entry is invented: every stored key is some slot's lower-cased key, holding that slot's unquoted value, and there are no more entries than slots |
| MissionImporter.FieldsKeys | Assets/Scripts/TS/MissionImporter.cs:956-971 | the field map's keys are exactly the lower-cased slot keys |
| MissionImporter.FieldsLastWins | Assets/Scripts/TS/MissionImporter.cs:956-971 | with duplicate keys the last slot's value is the one stored |
| MissionImporter.SlotMarkers | Assets/Scripts/TS/MissionImporter.cs:748-772 | a negative sequence number fails with IndexOutOfRange. Otherwise each slot holds the last marker mapped to it (seqNum ≥ count goes to count-1), and its duration·1000 is msToNext |
| MissionImporter.MajoritySmoothing | Assets/Scripts/TS/MissionImporter.cs:774-778 | no markers fails (InvalidOperation); otherwise the most frequent type, ties going to the type seen first |
| MissionImporter.DecodeInitialPosition | Assets/Scripts/TS/MissionImporter.cs:688-692 | empty gives 0, unparsable fails with a format error, otherwise value·1000 is the parsed number |
| MissionImporter.DecodeTargetPosition | Assets/Scripts/TS/MissionImporter.cs:694-711 | empty gives Triggered with target 0. An unparsable value leaves the settings unchanged. A value ≥ 0 gives Triggered with target·1000 = value. A negative value gives Constant with the raw value |
| MissionImporter.TargetSignSelectsMode | Assets/Scripts/TS/MissionImporter.cs:698-704 | for any previous settings, the mode is Triggered iff the parsed value is non-negative, and iff the stored target is non-negative |
| MissionInfo.ParTime | Assets/Scripts/UI/MissionInfo.cs:153-160 | the par time is never 0: a parsed non-zero value, otherwise -1 |
| MissionInfo.ReadMission | Assets/Scripts/UI/MissionInfo.cs:153-185 | text fields are copied; an unparsable level becomes 0, an unparsable gold or ultimate time -1 |
| MissionInfo.SortByLevelNumber | Assets/Scripts/UI/MissionInfo.cs:213-258 | empty input comes back unchanged. The output is a permutation of the input. The first mission claiming level L in 1..count sits at L-1. Every unclaimed slot receives the next unplaced mission in original order |
| MissionInfo.UnparsedLevelNeverPlaced | Assets/Scripts/UI/MissionInfo.cs:153-258 | a mission whose level does not parse is never placed by number and is set aside for the holes |
| MissionInfo.Assign | Assets/Scripts/UI/MissionInfo.cs:222-243 | the first pass fills exactly the claimed slots, each with its first claimant, and sets the others aside in order; no mission is lost |
| MissionInfo.Fill | Assets/Scripts/UI/MissionInfo.cs:245-254 | the second pass keeps filled slots and fills the k-th empty slot with the k-th set-aside mission |
| MissionInfo.FillSlot | Assets/Scripts/UI/MissionInfo.cs:247-251 | filling an empty slot removes one hole and adds that mission to the contents |
| MissionInfo.ClaimedStep | Assets/Scripts/UI/MissionInfo.cs:227-243 | after one more mission, a slot is claimed iff it was claimed before or that mission asks for it |
| MissionInfo.PlacedWhenFree | Assets/Scripts/UI/MissionInfo.cs:235-242 | a mission is placed iff its level is in range and its slot is still empty when its turn comes |
| GameUI.CRem | Assets/GameUIManager.cs:100-113 | C#'s remainder: a = b·q + r, with the sign of a and magnitude below b |
| GameUI.TruncToInt | Assets/GameUIManager.cs:97-98 | the `(int)` cast truncates toward zero |
| GameUI.SplitRemainder | Assets/GameUIManager.cs:99-112 | the digits recompose the remainder; for a remainder in [0, 600000) they are in range (decaseconds < 6) |
| GameUI.SetTimerText | Assets/GameUIManager.cs:95-122 | success yields seven sprite indices in 0..9; an out-of-range digit is an index failure |
| GameUI.TimerDigitsRecompose | Assets/GameUIManager.cs:95-113 | for 0 ≤ ms < 6,000,000 the seven digits weighted 600000, 60000, 10000, 1000, 100, 10, 1 give back the whole milliseconds, with decaseconds < 6 |
| GameUI.TimerRange | Assets/GameUIManager.cs:95-122 | the timer displays iff -1 < ms < 6,000,000; from 100 minutes on, the decaminute digit overflows the sprites |
| GameUI.GemDigits | Assets/GameUIManager.cs:39-49 | two digits exist iff 0 ≤ count < 100, and then count = 10·tens + units |
| GameUI.PowerupIcon | Assets/GameUIManager.cs:51-77 | the icon is 0..5, and 0 exactly for types other than the five usable ones |
| GameUI.PowerupIconInjective | Assets/GameUIManager.cs:51-77 | distinct usable types get distinct icons, and the icon identifies the type |
| GameUI.SetCenterImage | Assets/GameUIManager.cs:124-138 | exactly one image is active for an index in 0..3, none otherwise, and image i is active iff the index is i |
| FrictionManager.Start | Assets/Scripts/Game/FrictionManager.cs:30-45 | no material applied, the default collider material, movement parameters untouched |
| FrictionManager.WithDefaults | Assets/Scripts/Game/FrictionManager.cs:35-38 | the stored defaults: static 1.1, kinetic 0.7, restitution 0.5, bounce 0; gravity is kept |
| FrictionManager.ApplyMaterial | Assets/Scripts/Game/FrictionManager.cs:64-91 | nothing happens for null or the current material. Otherwise the material becomes current. A friction f ≠ -1 sets static 1.2·f and kinetic 0.8·f on the marble and the collider. A restitution or bounce ≠ -1 overrides its parameter. Every -1 field leaves its parameter unchanged |
| FrictionManager.RevertMaterial | Assets/Scripts/Game/FrictionManager.cs:47-62 | a no-op when nothing is applied; otherwise the four defaults and the default collider material return and no material is current |
| FrictionManager.ApplyIdempotent | Assets/Scripts/Game/FrictionManager.cs:66-71 | applying the same material twice is applying it once |
| FrictionManager.ApplyThenRevert | Assets/Scripts/Game/FrictionManager.cs:47-91 | applying any material then reverting leaves the defaults, whatever was applied |
| FrictionManager.RevertIdempotent | Assets/Scripts/Game/FrictionManager.cs:47-62 | reverting twice is reverting once |
| FrictionManager.SearchFriction | Assets/Scripts/Game/FrictionManager.cs:93-110 | null for a null or empty name. Otherwise the first material in array order owning a texture of that name, skipping null entries and texture lists. Null iff none owns it |
| Marble.Override | Assets/Scripts/Game/Marble.cs:169-176 | the restitution is overridden and gravity kept. An applied material gives way to the friction defaults and the default collider material. With none applied, only the restitution changes |
| Marble.UseSuperBounce | Assets/Scripts/Game/Marble.cs:161-177 | super bounce on, shock absorber off, glow on. Restitution becomes 1 only on the inactive→active switch. Gravity and the other flags are unchanged |
| Marble.UseShockAbsorber | Assets/Scripts/Game/Marble.cs:180-196 | the mirror image of super bounce with restitution 0 |
| Marble.RevertPowerMaterial | Assets/Scripts/Game/Marble.cs:136-159 | both flags and the glow end off and restitution is the stored default 0.5; the flag-conditioned branches are dead |
| Marble.ExclusiveKept | Assets/Scripts/Game/Marble.cs:161-196 | super bounce and shock absorber are never both active after either use or the revert, and every other power-up operation preserves that |
| Marble.UseTwice | Assets/Scripts/Game/Marble.cs:161-196 | a second use of the same power-up changes nothing |
| Marble.UseGyrocopter | Assets/Scripts/Game/Marble.cs:198-204 | blades shown, flag on, gravity quartered; no other flag and nothing else of the surface changes |
| Marble.CancelGyrocopter | Assets/Scripts/Game/Marble.cs:206-212 | blades hidden, flag off, gravity quadrupled; no other flag and nothing else of the surface changes |
| Marble.GyrocopterRoundTrip | Assets/Scripts/Game/Marble.cs:198-212 | use then cancel restores gravity and every other field, with the gyrocopter off |
| Marble.ActivateTimeTravel | Assets/Scripts/Game/Marble.cs:214-223 | the start time is taken only if time travel was off; the bonus accumulates additively; the surface and the other flags are kept |
| Marble.InactivateTimeTravel | Assets/Scripts/Game/Marble.cs:225-230 | the bonus is zeroed and the flag cleared; the start time, the other flags and the surface are kept |
| Marble.TimeTravelAccumulates | Assets/Scripts/Game/Marble.cs:214-223 | a run of pickups starting with time travel off is timed from the first pickup, and the bonuses add up |
| Marble.UsePowerup | Assets/Scripts/Game/Marble.cs:73-86 | only SuperJump, SuperSpeed, ShockAbsorber, SuperBounce and Gyrocopter dispatch an effect, each its own |
| Marble.DispatchInverse | Assets/Scripts/Game/Marble.cs:73-86 | every effect is dispatched by exactly its own power-up type |
| Powerups.Activate | Assets/Scripts/Game/Items/Powerups.cs:74-76 | the item is active and shown; nothing else changes |
| Powerups.Deactivate | Assets/Scripts/Game/Items/Powerups.cs:100-113 | the item is inactive, hidden and records the time; every type but TimeTravel sets "You picked up a " + name |
| Powerups.OnTriggerStay | Assets/Scripts/Game/Items/Powerups.cs:47-63 | only a marble touching an active item picks it up. The item is then deactivated, and the power-up is used iff the item is auto-use |
| Powerups.RespawnCheck | Assets/Scripts/Game/Items/Powerups.cs:70-71 | the item is active afterwards iff it was, or respawnTime has elapsed since it was taken |
| Powerups.PickupCycle | Assets/Scripts/Game/Items/Powerups.cs:47-72 | a picked-up item cannot be picked up again before its respawn time, and is available again from then on |

## Left out

- Float rounding, NaN and infinities: all floats are exact reals. `Mathf.Approximately` is modelled as exact equality. `Vector3`/`Quaternion` `!=` is modelled as structural inequality.
- MovingPlatform.Init: a single-sample spline makes the index -1 in the source without an immediate exception; the model treats fewer than two points as failed initialisation for both branches.
- Catmull-Rom sampling, the spline resampling and the cosine ease of `Accelerate` smoothing: float polynomials and trigonometry. The ease is a parameter of `Tick`; spline platforms receive the already resampled points.
- The trigger objects created for triggered platforms, and the `initialTargetPosition` the importer writes: Assets/MovingPlatform.cs has no such field; `Init` starts with the target equal to the time.
- Physics engine calls: `Physics.SphereCast`, `GetPointVelocity` and `MovePosition`. The sweep hit distance, speeds, magnitudes and contact candidates are inputs.
- The float geometry of `Movement`: the closest point on a triangle, the torque clamp, the friction and static-friction vector math, the angular impulse of `VelocityCancel`, and the quaternion integration (the new rotation is a parameter of `Integrate`).
- Movement.VelocityCancel: the angular impulse of a bounce, and the tangential change it makes to the linear velocity (Assets/Scripts/Movement.cs:711-712), are not modelled: they need the friction and spin terms. That change is perpendicular to the contact normal, so the normal component the contract speaks of is the same either way.
- Movement.FixedUpdate: carries a fuel bound, proved sufficient by `FuelSuffices` when every slice is at least `minSlice`. A zero-length slice (a sweep hit at distance 0) drains nothing, so the loop's termination would then depend on later sweeps; the model excludes such slices by that requirement.
- Dif.PlatformPhysicsMesh: requires the present sub-mesh lists to hold whole triangles of valid vertex indices, as the engine's checks in `SetTriangles` are not modelled. A null list is modelled as a null-reference failure.
- Dif.GenerateMesh: a buffer capacity too large to allocate (an out-of-memory failure) is not modelled.
- Dif: the Torque-to-Unity transform of vertices, normals and tangents, material and texture loading, and collider creation. `GenerateMesh` requires each material's list to hold whole triangles, as the source's stride-3 loop reads past the end otherwise.
- Dif.Weld: the quantised key, the area test and the face normal are parameters, because they are float computations.
- Text parsing (ANTLR, `float.Parse`, `int.Parse`, `Enum.Parse`): numbers arrive parsed, `None` for a rejected value; an unknown smoothing name is not modelled. `Path.GetDirectoryName` is a parameter (the mission directory).
- MissionImporter.PolyhedronEdges: returns the three edge vectors; the box size is their magnitudes, a square root.
- MissionImporter.ToLower: lower-cases ASCII letters only; culture-dependent case mapping is not modelled.
- MissionImporter.SlotMarkers: slots no marker maps to stay `None`; the null the platform would then dereference during initialisation is not followed further.
- MissionInfo.SortByLevelNumber: missions are never null in the model. The loader creates every mission before sorting, so the null case of the source's guard is not represented.
- Sounds, particles, UI tweens and text, and the game manager's singleton state: the clock (`Time.time`) is a parameter. `GameManager.ConsumePowerup` is a parameter (the consumed type passed to `UsePowerup`).
- The per-type `UsePowerup` overrides of the power-up items, which are not part of this model: `OnTriggerStay` only reports whether the item's use would run; the base implementation does nothing.
- GameUI: the `numbers` sprite array is assumed to hold exactly ten digit sprites.

## Findings

| source | as written | input that shows it | evidently intended | confidence | as-written member | corrected member |
|---|---|---|---|---|---|---|
| Assets/MovingPlatform.cs:163 | `ResetMP` sets `time` to the raw `initialPosition`, which initialisation clamps to [0, maxReachableTime] | two waypoints 2 s apart, `initialPosition` 5 s: the reset platform's time is 5 s, beyond its path, while the index and segment end are those of time 2 s and the platform stands at its base position | restore the clamped initial time, i.e. the state initialisation produced | not executed | MovingPlatform.ResetAsWritten, MovingPlatform.ResetAsWrittenMissesInitialState | MovingPlatform.Reset, MovingPlatform.ResetRestoresInitialState |
| Assets/Scripts/TS/MissionImporter.cs:106 | the sun's intensity is computed from the already normalised colour, whose brightest channel is 1 (or from white) | any sun colour, e.g. "0.5 0.5 0.5 1" and "1 1 1 1" both give intensity 0.25, so the Torque brightness is lost | take the brightness from the mission's raw colour, so colour × intensity reproduces it | not executed | MissionImporter.SunIntensityAsWritten, MissionImporter.SunIntensityIsConstant | MissionImporter.SunIntensity, MissionImporter.SunLightReconstructsColor |

=== FILE: dif.dfy ===
/** Post-processing of interior (DIF) meshes: resource validation, vertex
    welding by a quantised key, tiny-triangle removal, flat-shading
    re-indexing and the split of each material's triangle list into
    collider chunks. Vertices are of an arbitrary type `V`; the quantised
    weld key, the area test and the face normal are parameters, because they
    are float computations. */
module Dif {
  import opened Wrappers

  /** The decoded interior as the builders see it; an absent array is the
      null the decoder may leave. Tangents and uvs are only checked for
      presence. */
  datatype DifResource<V, T, U> = DifResource(
    vertices: Option<seq<V>>,
    normals: Option<seq<V>>,
    tangents: Option<seq<T>>,
    uvs: Option<seq<U>>,
    triangleIndices: seq<Option<seq<int>>>)

  /** The common guard of `GenerateMovingPlatformMesh` and `GenerateMesh`:
      the decode must have succeeded and all four vertex arrays must be
      present, otherwise the builder returns false. */
  predicate ResourceUsable<V, T, U>(res: Option<DifResource<V, T, U>>) {
    && res.Some?
    && res.value.vertices.Some?
    && res.value.normals.Some?
    && res.value.tangents.Some?
    && res.value.uvs.Some?
  }

  /** Every entry of `tris` indexes into `verts`. */
  predicate IndicesIn<V>(tris: seq<int>, verts: seq<V>) {
    forall i :: 0 <= i < |tris| ==> 0 <= tris[i] < |verts|
  }

  // ---------------------------------------------------------------------
  // Welding
  // ---------------------------------------------------------------------

  /** `WeldPhysicsMesh`: vertices with the same quantised key are merged
      into the first vertex seen with that key, and every triangle index is
      remapped. `origin[m]` is the old index of the kept vertex `m`. */
  method Weld<V, K(==)>(verts: seq<V>, tris: seq<int>, key: V -> K)
    returns (newVerts: seq<V>, newTris: seq<int>, remap: seq<nat>, ghost origin: seq<nat>)
    requires IndicesIn(tris, verts)
    ensures |newTris| == |tris| && |remap| == |verts| && |origin| == |newVerts|
    ensures IndicesIn(newTris, newVerts)
    ensures forall i :: 0 <= i < |tris| ==> newTris[i] == remap[tris[i]]
    ensures forall i :: 0 <= i < |verts| ==> remap[i] < |newVerts| && key(newVerts[remap[i]]) == key(verts[i])
    ensures forall a, b :: 0 <= a < b < |newVerts| ==> key(newVerts[a]) != key(newVerts[b])
    ensures forall m :: 0 <= m < |newVerts| ==> origin[m] < |verts| && newVerts[m] == verts[origin[m]]
    ensures forall j :: 0 <= j < |verts| ==> origin[remap[j]] <= j
    ensures forall i, j :: 0 <= i < |verts| && 0 <= j < origin[remap[i]] ==> key(verts[j]) != key(verts[i])
  {
    newVerts := [];
    remap := [];
    origin := [];
    var dict: map<K, nat> := map[];
    for i := 0 to |verts|
      invariant WeldInv(verts, key, i, newVerts, remap, origin, dict)
    {
      var v := verts[i];
      var k := key(v);
      var idx: nat;
      if k in dict {
        idx := dict[k];
        WeldReuse(verts, key, i, newVerts, remap, origin, dict);
      } else {
        idx := |newVerts|;
        WeldAdd(verts, key, i, newVerts, remap, origin, dict);
        newVerts := newVerts + [v];
        origin := origin + [i];
        dict := dict[k := idx];
      }
      remap := remap + [idx];
    }
    newTris := RemapTriangles(tris, remap);
    forall i | 0 <= i < |verts|
      ensures forall j :: 0 <= j < origin[remap[i]] ==> key(verts[j]) != key(verts[i])
    {
      WeldKeepsFirstSeen(verts, key, newVerts, remap, origin, i);
    }
  }

  /** What welding has built after `i` vertices: `dict` maps each key seen
      to the one kept vertex carrying it, and every vertex seen is remapped
      to a kept vertex that came no later. */
  ghost predicate WeldInv<V, K>(verts: seq<V>, key: V -> K, i: nat, newVerts: seq<V>, remap: seq<nat>,
                                origin: seq<nat>, dict: map<K, nat>)
  {
    && i <= |verts| && |remap| == i && |origin| == |newVerts|
    && (forall k :: k in dict ==> dict[k] < |newVerts| && key(newVerts[dict[k]]) == k)
    && (forall m :: 0 <= m < |newVerts| ==> key(newVerts[m]) in dict && dict[key(newVerts[m])] == m)
    && (forall j :: 0 <= j < i ==> key(verts[j]) in dict)
    && (forall j :: 0 <= j < i ==> remap[j] < |newVerts| && key(newVerts[remap[j]]) == key(verts[j]))
    && (forall m :: 0 <= m < |newVerts| ==> origin[m] < i && newVerts[m] == verts[origin[m]])
    && (forall j :: 0 <= j < i ==> origin[remap[j]] <= j)
  }

  /** A vertex whose key was seen is remapped to that key's kept vertex. */
  lemma WeldReuse<V, K>(verts: seq<V>, key: V -> K, i: nat, newVerts: seq<V>, remap: seq<nat>,
                        origin: seq<nat>, dict: map<K, nat>)
    requires i < |verts| && WeldInv(verts, key, i, newVerts, remap, origin, dict)
    requires key(verts[i]) in dict
    ensures WeldInv(verts, key, i + 1, newVerts, remap + [dict[key(verts[i])]], origin, dict)
  {
    var idx := dict[key(verts[i])];
    var remap' := remap + [idx];
    assert remap'[i] == idx;
    forall j | 0 <= j < i + 1
      ensures remap'[j] < |newVerts| && key(newVerts[remap'[j]]) == key(verts[j]) && origin[remap'[j]] <= j
    {
      if j < i {
        assert remap'[j] == remap[j];
      }
    }
  }

  /** A vertex with a new key is kept and starts its own entry. */
  lemma WeldAdd<V, K>(verts: seq<V>, key: V -> K, i: nat, newVerts: seq<V>, remap: seq<nat>,
                      origin: seq<nat>, dict: map<K, nat>)
    requires i < |verts| && WeldInv(verts, key, i, newVerts, remap, origin, dict)
    requires key(verts[i]) !in dict
    ensures WeldInv(verts, key, i + 1, newVerts + [verts[i]], remap + [|newVerts|], origin + [i],
                    dict[key(verts[i]) := |newVerts|])
  {
    var k := key(verts[i]);
    var newVerts', remap', origin', dict' := newVerts + [verts[i]], remap + [|newVerts|], origin + [i], dict[k := |newVerts|];
    forall k0 | k0 in dict'
      ensures dict'[k0] < |newVerts'| && key(newVerts'[dict'[k0]]) == k0
    {
      if k0 != k {
        assert newVerts'[dict[k0]] == newVerts[dict[k0]];
      }
    }
    forall m | 0 <= m < |newVerts'|
      ensures key(newVerts'[m]) in dict' && dict'[key(newVerts'[m])] == m
      ensures origin'[m] < i + 1 && newVerts'[m] == verts[origin'[m]]
    {
      if m < |newVerts| {
        assert newVerts'[m] == newVerts[m] && origin'[m] == origin[m];
      }
    }
    forall j | 0 <= j < i + 1
      ensures remap'[j] < |newVerts'| && key(newVerts'[remap'[j]]) == key(verts[j]) && origin'[remap'[j]] <= j
    {
      if j < i {
        assert remap'[j] == remap[j];
        assert newVerts'[remap[j]] == newVerts[remap[j]] && origin'[remap[j]] == origin[remap[j]];
      }
    }
  }

  /** The triangle list after welding: each index replaced by its remap. */
  function RemapTriangles(tris: seq<int>, remap: seq<nat>): (r: seq<int>)
    requires forall i :: 0 <= i < |tris| ==> 0 <= tris[i] < |remap|
    ensures |r| == |tris|
    ensures forall i :: 0 <= i < |tris| ==> r[i] == remap[tris[i]]
  {
    seq(|tris|, i requires 0 <= i < |tris| => remap[tris[i]])
  }

  /** From distinct keys and the remap: each vertex is represented by the
      earliest vertex carrying its key. */
  lemma WeldKeepsFirstSeen<V, K>(verts: seq<V>, key: V -> K, newVerts: seq<V>, remap: seq<nat>, origin: seq<nat>, i: nat)
    requires |remap| == |verts| && |origin| == |newVerts| && i < |verts|
    requires forall j :: 0 <= j < |verts| ==> remap[j] < |newVerts| && key(newVerts[remap[j]]) == key(verts[j])
    requires forall a, b :: 0 <= a < b < |newVerts| ==> key(newVerts[a]) != key(newVerts[b])
    requires forall m :: 0 <= m < |newVerts| ==> origin[m] < |verts| && newVerts[m] == verts[origin[m]]
    requires forall j :: 0 <= j < |verts| ==> origin[remap[j]] <= j
    ensures var first := origin[remap[i]];
            && first <= i
            && newVerts[remap[i]] == verts[first]
            && key(verts[first]) == key(verts[i])
            && forall j :: 0 <= j < first ==> key(verts[j]) != key(verts[i])
  {
  }

  // ---------------------------------------------------------------------
  // Tiny-triangle removal
  // ---------------------------------------------------------------------

  /** The `k`-th triangle of an index list. */
  function Corner<V>(verts: seq<V>, tris: seq<int>, k: nat, c: nat): V
    requires IndicesIn(tris, verts) && 3 * k + c < |tris|
  {
    verts[tris[3 * k + c]]
  }

  /** Triangle `k` of `tris` is triangle `j` of `src`, index for index. */
  predicate SameTriangle(tris: seq<int>, k: nat, src: seq<int>, j: nat)
    requires 3 * k + 2 < |tris| && 3 * j + 2 < |src|
  {
    tris[3 * k] == src[3 * j] && tris[3 * k + 1] == src[3 * j + 1] && tris[3 * k + 2] == src[3 * j + 2]
  }

  /** `RemoveTinyTriangles`: whole triangles are kept, in order, exactly
      when `keep` (the area >= minArea test) holds for their corners.
      `kept` lists the surviving triangles' positions in the input. */
  method RemoveTinyTriangles<V>(verts: seq<V>, tris: seq<int>, keep: (V, V, V) -> bool)
    returns (newTris: seq<int>, ghost kept: seq<nat>)
    requires |tris| % 3 == 0 && IndicesIn(tris, verts)
    ensures |newTris| == 3 * |kept|
    ensures IndicesIn(newTris, verts)
    ensures forall k :: 0 <= k < |kept| ==> 3 * kept[k] + 2 < |tris| && SameTriangle(newTris, k, tris, kept[k])
    ensures forall a, b :: 0 <= a < b < |kept| ==> kept[a] < kept[b]
    ensures forall k :: 0 <= k < |kept| ==> KeepAt(verts, newTris, keep, k)
    ensures forall j :: 0 <= j < |tris| / 3 ==> (KeepAt(verts, tris, keep, j) <==> j in kept)
  {
    newTris := [];
    kept := [];
    var i := 0;
    while i < |tris|
      invariant 0 <= i <= |tris| && i % 3 == 0
      invariant Sifted(verts, tris, keep, i / 3, newTris, kept)
    {
      var a := verts[tris[i]];
      var b := verts[tris[i + 1]];
      var c := verts[tris[i + 2]];
      ghost var j := i / 3;
      assert 3 * j == i;
      if keep(a, b, c) {
        SiftKeep(verts, tris, keep, j, newTris, kept);
        newTris := newTris + [tris[i], tris[i + 1], tris[i + 2]];
        kept := kept + [j];
      } else {
        SiftDrop(verts, tris, keep, j, newTris, kept);
      }
      i := i + 3;
      assert i / 3 == j + 1;
    }
  }

  /** The triangle test at triangle `j` of `tris`. */
  predicate KeepAt<V>(verts: seq<V>, tris: seq<int>, keep: (V, V, V) -> bool, j: nat)
    requires IndicesIn(tris, verts) && 3 * j + 2 < |tris|
  {
    keep(Corner(verts, tris, j, 0), Corner(verts, tris, j, 1), Corner(verts, tris, j, 2))
  }

  /** What the removal has built after the first `n` triangles. */
  ghost predicate Sifted<V>(verts: seq<V>, tris: seq<int>, keep: (V, V, V) -> bool, n: nat,
                            newTris: seq<int>, kept: seq<nat>)
  {
    && IndicesIn(tris, verts) && 3 * n <= |tris|
    && |newTris| == 3 * |kept|
    && IndicesIn(newTris, verts)
    && (forall k :: 0 <= k < |kept| ==> kept[k] < n && SameTriangle(newTris, k, tris, kept[k]))
    && (forall a, b :: 0 <= a < b < |kept| ==> kept[a] < kept[b])
    && (forall k :: 0 <= k < |kept| ==> KeepAt(verts, newTris, keep, k))
    && (forall j :: 0 <= j < n ==> (KeepAt(verts, tris, keep, j) <==> j in kept))
  }

  /** A triangle that passes the test is appended. */
  lemma SiftKeep<V>(verts: seq<V>, tris: seq<int>, keep: (V, V, V) -> bool, j: nat,
                    newTris: seq<int>, kept: seq<nat>)
    requires 3 * j + 2 < |tris| && Sifted(verts, tris, keep, j, newTris, kept)
    requires KeepAt(verts, tris, keep, j)
    ensures Sifted(verts, tris, keep, j + 1, newTris + [tris[3 * j], tris[3 * j + 1], tris[3 * j + 2]], kept + [j])
  {
    var newTris' := newTris + [tris[3 * j], tris[3 * j + 1], tris[3 * j + 2]];
    var kept' := kept + [j];
    forall k | 0 <= k < |kept'|
      ensures kept'[k] < j + 1 && SameTriangle(newTris', k, tris, kept'[k])
      ensures KeepAt(verts, newTris', keep, k)
    {
      if k < |kept| {
        assert newTris'[3 * k] == newTris[3 * k] && newTris'[3 * k + 1] == newTris[3 * k + 1]
               && newTris'[3 * k + 2] == newTris[3 * k + 2];
        assert KeepAt(verts, newTris, keep, k);
      }
    }
    forall i | 0 <= i < j + 1
      ensures KeepAt(verts, tris, keep, i) <==> i in kept'
    {
      assert i in kept' <==> i in kept || i == j;
      if i == j {
        assert j !in kept;
      }
    }
  }

  /** A triangle that fails the test is dropped. */
  lemma SiftDrop<V>(verts: seq<V>, tris: seq<int>, keep: (V, V, V) -> bool, j: nat,
                    newTris: seq<int>, kept: seq<nat>)
    requires 3 * j + 2 < |tris| && Sifted(verts, tris, keep, j, newTris, kept)
    requires !KeepAt(verts, tris, keep, j)
    ensures Sifted(verts, tris, keep, j + 1, newTris, kept)
  {
  }

  // ---------------------------------------------------------------------
  // Flat shading
  // ---------------------------------------------------------------------

  /** `FlatShadePhysicsMesh`: every triangle gets three added vertices that
      share one face normal; the triangle list becomes 0, 1, 2, ... */
  method FlatShade<V, N>(verts: seq<V>, tris: seq<int>, faceNormal: (V, V, V) -> N)
    returns (newVerts: seq<V>, newNormals: seq<N>, newTris: seq<int>)
    requires |tris| % 3 == 0 && IndicesIn(tris, verts)
    ensures |newVerts| == |tris| && |newNormals| == |tris| && |newTris| == |tris|
    ensures forall i :: 0 <= i < |tris| ==> newTris[i] == i && newVerts[i] == verts[tris[i]]
    ensures forall k :: 0 <= k < |tris| / 3 ==>
              && newNormals[3 * k] == newNormals[3 * k + 1] == newNormals[3 * k + 2]
              && newNormals[3 * k] == faceNormal(Corner(verts, tris, k, 0), Corner(verts, tris, k, 1), Corner(verts, tris, k, 2))
  {
    newVerts := [];
    newNormals := [];
    newTris := [];
    var i := 0;
    while i < |tris|
      invariant 0 <= i <= |tris| && i % 3 == 0
      invariant |newVerts| == i && |newNormals| == i && |newTris| == i
      invariant forall j :: 0 <= j < i ==> newTris[j] == j && newVerts[j] == verts[tris[j]]
      invariant forall k :: 0 <= k < i / 3 ==>
                  && newNormals[3 * k] == newNormals[3 * k + 1] == newNormals[3 * k + 2]
                  && newNormals[3 * k] == faceNormal(Corner(verts, tris, k, 0), Corner(verts, tris, k, 1), Corner(verts, tris, k, 2))
    {
      var v0 := verts[tris[i]];
      var v1 := verts[tris[i + 1]];
      var v2 := verts[tris[i + 2]];
      var n := faceNormal(v0, v1, v2);
      var base := |newVerts|;
      newVerts := newVerts + [v0, v1, v2];
      newNormals := newNormals + [n, n, n];
      newTris := newTris + [base, base + 1, base + 2];
      i := i + 3;
    }
  }

  /** Every sub-mesh list is present. */
  predicate AllPresent(ls: seq<Option<seq<int>>>) {
    forall m :: 0 <= m < |ls| ==> ls[m].Some?
  }

  /** `GenerateMovingPlatformMesh`: an unusable resource gives `false`
      (`Success(None)`); a null sub-mesh list is rejected by the engine's
      `SetTriangles` with an exception. Otherwise the collider is the render
      triangles welded by key and then flat shaded: every corner of the
      result has the key of the corner it came from, so welding never moves
      a corner to a vertex of another key. */
  method PlatformPhysicsMesh<V, T, U, K(==), N>(res: Option<DifResource<V, T, U>>, key: V -> K, faceNormal: (V, V, V) -> N)
    returns (r: Result<Option<(seq<V>, seq<N>, seq<int>)>>)
    requires ResourceUsable(res) && AllPresent(res.value.triangleIndices) ==>
               var tris := ConcatLists(res.value.triangleIndices);
               |tris| % 3 == 0 && IndicesIn(tris, res.value.vertices.value)
    ensures r == Success(None) <==> !ResourceUsable(res)
    ensures r.Failure? <==> ResourceUsable(res) && !AllPresent(res.value.triangleIndices)
    ensures r.Failure? ==> r.error == NullReference
    ensures r.Success? && r.value.Some? ==>
              var tris := ConcatLists(res.value.triangleIndices);
              var verts := res.value.vertices.value;
              && |r.value.value.0| == |tris| && r.value.value.2 == seq(|tris|, i => i)
              && forall i :: 0 <= i < |tris| ==> key(r.value.value.0[i]) == key(verts[tris[i]])
  {
    if !ResourceUsable(res) {
      return Success(None);
    }
    if !AllPresent(res.value.triangleIndices) {
      return Failure(NullReference);
    }
    var verts := res.value.vertices.value;
    var tris := ConcatLists(res.value.triangleIndices);
    var wv, wt, remap, origin := Weld(verts, tris, key);
    assert |wt| % 3 == 0;
    var fv, fn, ft := FlatShade(wv, wt, faceNormal);
    assert ft == seq(|tris|, i => i);
    return Success(Some((fv, fn, ft)));
  }

  // ---------------------------------------------------------------------
  // Chunking
  // ---------------------------------------------------------------------

  /** Concatenation of the sub-mesh lists, absent ones contributing nothing
      (the engine's combined `triangles` view). */
  function ConcatLists(ls: seq<Option<seq<int>>>): seq<int> {
    if |ls| == 0 then [] else ConcatLists(ls[..|ls| - 1]) + ls[|ls| - 1].GetOr([])
  }

  /** Concatenation of chunk contents. */
  function Concat(ps: seq<seq<int>>): seq<int> {
    if |ps| == 0 then [] else Concat(ps[..|ps| - 1]) + ps[|ps| - 1]
  }

  lemma ConcatSnoc(ps: seq<seq<int>>, p: seq<int>)
    ensures Concat(ps + [p]) == Concat(ps) + p
  {
    assert (ps + [p])[..|ps|] == ps;
  }

  /** A collider chunk: its running number, the material slot it belongs to
      and its triangle indices. */
  datatype Chunk = Chunk(index: nat, material: nat, tris: seq<int>)

  /** The chunks belonging to material `m`, in order. */
  function ChunksOf(cs: seq<Chunk>, m: nat): (r: seq<seq<int>>)
    ensures |r| <= |cs|
  {
    if |cs| == 0 then []
    else ChunksOf(cs[..|cs| - 1], m) + (if cs[|cs| - 1].material == m then [cs[|cs| - 1].tris] else [])
  }

  lemma ChunksOfAppend(a: seq<Chunk>, b: seq<Chunk>, m: nat)
    ensures ChunksOf(a + b, m) == ChunksOf(a, m) + ChunksOf(b, m)
    decreases |b|
  {
    if |b| > 0 {
      var last := b[|b| - 1];
      var tail := if last.material == m then [last.tris] else [];
      assert (a + b)[..|a + b| - 1] == a + b[..|b| - 1];
      assert (a + b)[|a + b| - 1] == last;
      assert ChunksOf(a + b, m) == ChunksOf(a + b[..|b| - 1], m) + tail;
      assert ChunksOf(b, m) == ChunksOf(b[..|b| - 1], m) + tail;
      ChunksOfAppend(a, b[..|b| - 1], m);
    } else {
      assert a + b == a;
    }
  }

  /** A C# `int`. */
  type Int32 = x: int | -0x8000_0000 <= x < 0x8000_0000

  /** Two's-complement wrap-around of an unchecked `int` product. */
  function Wrap32(x: int): (r: Int32)
    ensures (r - x) % 0x1_0000_0000 == 0
    ensures -0x8000_0000 <= x < 0x8000_0000 ==> r == x
  {
    var m := x % 0x1_0000_0000;
    if m >= 0x8000_0000 then m - 0x1_0000_0000 else m
  }

  /** `maxTrianglesPerChunk * 3` as the source evaluates it: the capacity
      of the triangle buffer and the count at which it is flushed. */
  function ChunkLimit(maxTrianglesPerChunk: Int32): Int32 {
    Wrap32(maxTrianglesPerChunk as int * 3)
  }

  /** The chunk size in indices. `new List<int>(capacity)` throws for a
      negative capacity, so a negative limit fails (`None`). Otherwise the
      buffer, which grows by whole triangles, is flushed at the first count
      reaching the limit: the smallest positive multiple of 3 at or above
      it, so 0 flushes after every triangle. */
  function ChunkSize(maxTrianglesPerChunk: Int32): (r: Option<nat>)
    ensures r.None? <==> ChunkLimit(maxTrianglesPerChunk) < 0
    ensures r.Some? ==> r.value > 0 && r.value % 3 == 0
    ensures r.Some? ==> ChunkLimit(maxTrianglesPerChunk) <= r.value
    ensures r.Some? ==> r.value == 3 || r.value - 3 < ChunkLimit(maxTrianglesPerChunk)
  {
    var limit: int := ChunkLimit(maxTrianglesPerChunk);
    if limit < 0 then None
    else if limit <= 3 then Some(3)
    else Some(3 * ((limit + 2) / 3))
  }

  /** Without overflow the chunk size is 3·maxTrianglesPerChunk (3 for 0);
      a negative setting that does not overflow fails; one large enough to
      overflow fails too. */
  lemma ChunkSizeCases(maxTrianglesPerChunk: Int32)
    ensures 1 <= maxTrianglesPerChunk <= 0x2aaa_aaaa ==> ChunkSize(maxTrianglesPerChunk) == Some(3 * maxTrianglesPerChunk)
    ensures maxTrianglesPerChunk == 0 ==> ChunkSize(maxTrianglesPerChunk) == Some(3)
    ensures -0x2aaa_aaaa <= maxTrianglesPerChunk < 0 ==> ChunkSize(maxTrianglesPerChunk).None?
    ensures maxTrianglesPerChunk == 0x2aaa_aaab ==> ChunkSize(maxTrianglesPerChunk).None?
  {
    var m: int := maxTrianglesPerChunk;
    if 1 <= m <= 0x2aaa_aaaa {
      assert ChunkLimit(m) == 3 * m;
      assert (3 * m + 2) / 3 == m;
    } else if -0x2aaa_aaaa <= m <= 0 {
      assert ChunkLimit(m) == 3 * m;
    } else if m == 0x2aaa_aaab {
      assert m * 3 == 0x8000_0001;
      assert ChunkLimit(m) == 0x8000_0001 - 0x1_0000_0000;
    }
  }

  /** A correct split of `tris` into parts of `size` indices: the parts
      concatenate back to the list, none is empty, all hold whole triangles,
      and all but the last are full. */
  ghost predicate IsSplit(parts: seq<seq<int>>, tris: seq<int>, size: nat) {
    && Concat(parts) == tris
    && (forall k :: 0 <= k < |parts| ==> 0 < |parts[k]| <= size && |parts[k]| % 3 == 0)
    && (forall k :: 0 <= k < |parts| - 1 ==> |parts[k]| == size)
  }

  /** The inner loop of `GenerateMesh` for one material: triangles are
      appended to a buffer that is flushed when full, and a non-empty
      remainder is flushed at the end. */
  method SplitMaterial(tris: seq<int>, size: nat) returns (parts: seq<seq<int>>)
    requires |tris| % 3 == 0 && size > 0 && size % 3 == 0
    ensures IsSplit(parts, tris, size)
  {
    parts := [];
    var buffer: seq<int> := [];
    var i := 0;
    while i < |tris|
      invariant 0 <= i <= |tris| && i % 3 == 0
      invariant Concat(parts) + buffer == tris[..i]
      invariant |buffer| % 3 == 0 && |buffer| < size
      invariant AllFull(parts, size)
    {
      TakeTriangle(tris, i, Concat(parts), buffer);
      buffer := buffer + tris[i..i + 3];
      if |buffer| >= size {
        FlushFull(parts, buffer, tris[..i + 3], size);
        parts := parts + [buffer];
        buffer := [];
      }
      i := i + 3;
    }
    assert tris[..i] == tris;
    FinishSplit(parts, buffer, tris, size);
    if |buffer| > 0 {
      parts := parts + [buffer];
    }
  }

  /** Every part holds exactly `size` indices. */
  ghost predicate AllFull(parts: seq<seq<int>>, size: nat) {
    forall k :: 0 <= k < |parts| ==> |parts[k]| == size
  }

  /** Appending the triangle at `i` to the buffer extends the covered
      prefix by that triangle. */
  lemma TakeTriangle(tris: seq<int>, i: nat, done: seq<int>, buffer: seq<int>)
    requires |tris| % 3 == 0 && i % 3 == 0 && i < |tris|
    requires |buffer| % 3 == 0
    requires done + buffer == tris[..i]
    ensures i + 3 <= |tris| && (i + 3) % 3 == 0
    ensures |buffer + tris[i..i + 3]| == |buffer| + 3
    ensures |buffer + tris[i..i + 3]| % 3 == 0
    ensures done + (buffer + tris[i..i + 3]) == tris[..i + 3]
  {
    assert tris[..i + 3] == tris[..i] + tris[i..i + 3];
  }

  /** A buffer that was short of `size` before taking one triangle and
      reaches it now holds exactly `size` indices; flushing it keeps the
      covered prefix. */
  lemma FlushFull(parts: seq<seq<int>>, buffer: seq<int>, prefix: seq<int>, size: nat)
    requires size % 3 == 0 && |buffer| % 3 == 0 && size <= |buffer| < size + 3
    requires Concat(parts) + buffer == prefix
    requires AllFull(parts, size)
    ensures |buffer| == size
    ensures AllFull(parts + [buffer], size)
    ensures Concat(parts + [buffer]) + [] == prefix
  {
    ConcatSnoc(parts, buffer);
    assert (parts + [buffer])[|parts|] == buffer;
  }

  /** Full parts followed by the non-empty remainder, if any, split the
      list. */
  lemma FinishSplit(parts: seq<seq<int>>, buffer: seq<int>, tris: seq<int>, size: nat)
    requires size > 0 && size % 3 == 0 && |buffer| % 3 == 0 && |buffer| < size
    requires Concat(parts) + buffer == tris
    requires AllFull(parts, size)
    ensures |buffer| > 0 ==> IsSplit(parts + [buffer], tris, size)
    ensures |buffer| == 0 ==> IsSplit(parts, tris, size)
  {
    if |buffer| > 0 {
      ConcatSnoc(parts, buffer);
      var ps := parts + [buffer];
      forall k | 0 <= k < |ps|
        ensures 0 < |ps[k]| <= size && |ps[k]| % 3 == 0
      {
        if k < |parts| {
          assert ps[k] == parts[k];
        }
      }
      forall k | 0 <= k < |ps| - 1
        ensures |ps[k]| == size
      {
        assert ps[k] == parts[k];
      }
    } else {
      assert Concat(parts) + buffer == Concat(parts);
    }
  }

  /** A split is unique: the sizes of its parts are determined by the list
      length, so two splits of the same list agree. */
  lemma {:induction false} SplitIsUnique(p: seq<seq<int>>, q: seq<seq<int>>, tris: seq<int>, size: nat)
    requires size > 0
    requires IsSplit(p, tris, size) && IsSplit(q, tris, size)
    ensures p == q
    decreases |tris|
  {
    if |p| == 0 || |q| == 0 {
      EmptySplit(p, tris, size);
      EmptySplit(q, tris, size);
    } else {
      var lp := p[|p| - 1];
      var lq := q[|q| - 1];
      var ip := p[..|p| - 1];
      var iq := q[..|q| - 1];
      assert Concat(p) == Concat(ip) + lp;
      assert Concat(q) == Concat(iq) + lq;
      FullPartsLength(ip, size);
      FullPartsLength(iq, size);
      // |tris| = |ip| * size + |lp| with 0 < |lp| <= size fixes |ip| and |lp|
      LastPartLength(|ip|, |lp|, |iq|, |lq|, size);
      assert lp == tris[|tris| - |lp|..];
      assert lq == tris[|tris| - |lq|..];
      var rest := tris[..|tris| - |lp|];
      assert Concat(ip) == rest;
      assert Concat(iq) == rest;
      if |ip| > 0 {
        SplitOfFullPrefix(ip, rest, size);
        SplitOfFullPrefix(iq, rest, size);
        SplitIsUnique(ip, iq, rest, size);
      } else {
        assert |iq| == 0;
      }
      assert p == ip + [lp];
      assert q == iq + [lq];
    }
  }

  lemma EmptySplit(p: seq<seq<int>>, tris: seq<int>, size: nat)
    requires size > 0 && IsSplit(p, tris, size)
    ensures |p| == 0 <==> |tris| == 0
  {
    if |p| > 0 {
      assert Concat(p) == Concat(p[..|p| - 1]) + p[|p| - 1];
    }
  }

  /** Parts that are all full concatenate to `count * size` indices. */
  lemma {:induction false} FullPartsLength(ps: seq<seq<int>>, size: nat)
    requires forall k :: 0 <= k < |ps| ==> |ps[k]| == size
    ensures |Concat(ps)| == |ps| * size
  {
    if |ps| > 0 {
      FullPartsLength(ps[..|ps| - 1], size);
    }
  }

  lemma LastPartLength(a: nat, la: nat, b: nat, lb: nat, size: nat)
    requires 0 < la <= size && 0 < lb <= size
    requires a * size + la == b * size + lb
    ensures a == b && la == lb
  {
    var d := b - a;
    assert d * size == la - lb by {
      assert d * size == b * size - a * size;
    }
    if d >= 1 {
      MulAtLeast(d, size);
      assert false;
    } else if d <= -1 {
      MulAtLeast(-d, size);
      assert false;
    }
  }

  lemma MulAtLeast(d: int, size: nat)
    requires d >= 1
    ensures d * size >= size
  {
    assert d * size == (d - 1) * size + size;
  }

  /** The full parts before the last one split their own concatenation. */
  lemma SplitOfFullPrefix(ip: seq<seq<int>>, rest: seq<int>, size: nat)
    requires Concat(ip) == rest
    requires forall k :: 0 <= k < |ip| ==> |ip[k]| == size && size % 3 == 0
    requires size > 0
    ensures IsSplit(ip, rest, size)
  {
  }

  /** Whether every sub-mesh list holds whole triangles. */
  predicate WholeTriangles(ls: seq<Option<seq<int>>>) {
    forall m :: 0 <= m < |ls| ==> ls[m].Some? ==> |ls[m].value| % 3 == 0
  }

  /** Some sub-mesh list holds at least one index. */
  predicate HasTriangles(ls: seq<Option<seq<int>>>) {
    exists m :: 0 <= m < |ls| && ls[m].GetOr([]) != []
  }

  /** The chunking loop of `GenerateMesh`. An unusable resource gives
      `false`. Absent or empty material lists are skipped; the first other
      list allocates the triangle buffer, which throws for a negative
      capacity before any chunk exists. Otherwise chunk numbers run from 0
      without gaps and each material's chunks split its list. */
  method GenerateMesh<V, T, U>(res: Option<DifResource<V, T, U>>, maxTrianglesPerChunk: Int32)
    returns (r: Result<bool>, chunks: seq<Chunk>)
    requires res.Some? ==> WholeTriangles(res.value.triangleIndices)
    ensures r == Success(false) <==> !ResourceUsable(res)
    ensures r.Failure? <==>
              && ResourceUsable(res) && HasTriangles(res.value.triangleIndices)
              && ChunkSize(maxTrianglesPerChunk).None?
    ensures r.Failure? ==> r.error == Argument("capacity")
    ensures r != Success(true) ==> chunks == []
    ensures forall i :: 0 <= i < |chunks| ==> chunks[i].index == i
    ensures r == Success(true) ==> forall i :: 0 <= i < |chunks| ==> chunks[i].material < |res.value.triangleIndices|
    ensures forall i, j :: 0 <= i < j < |chunks| ==> chunks[i].material <= chunks[j].material
    ensures r == Success(true) && !HasTriangles(res.value.triangleIndices) ==> chunks == []
    ensures r == Success(true) && HasTriangles(res.value.triangleIndices) ==>
              && ChunkSize(maxTrianglesPerChunk).Some?
              && forall m: nat :: m < |res.value.triangleIndices| ==>
                   IsSplit(ChunksOf(chunks, m), res.value.triangleIndices[m].GetOr([]), ChunkSize(maxTrianglesPerChunk).value)
  {
    chunks := [];
    if !ResourceUsable(res) {
      return Success(false), chunks;
    }
    var lists := res.value.triangleIndices;
    var limit := ChunkSize(maxTrianglesPerChunk);
    var size := limit.GetOr(3);
    for mat := 0 to |lists|
      invariant forall i :: 0 <= i < |chunks| ==> chunks[i].index == i && chunks[i].material < mat
      invariant forall i, j :: 0 <= i < j < |chunks| ==> chunks[i].material <= chunks[j].material
      invariant forall m: nat :: m < mat ==> IsSplit(ChunksOf(chunks, m), lists[m].GetOr([]), size)
      invariant forall m: nat :: m >= mat ==> ChunksOf(chunks, m) == []
      invariant limit.None? ==> forall m :: 0 <= m < mat ==> lists[m].GetOr([]) == []
      invariant (forall m :: 0 <= m < mat ==> lists[m].GetOr([]) == []) ==> chunks == []
    {
      var tris := lists[mat].GetOr([]);
      if tris != [] && limit.None? {
        return Failure(Argument("capacity")), chunks;
      }
      assert |tris| % 3 == 0;
      var next := AppendMaterial(chunks, mat, tris, size);
      SplitsCarryOver(chunks, next, lists, size, mat);
      chunks := next;
    }
    return Success(true), chunks;
  }

  /** The loop invariant of `GenerateMesh` survives one material. */
  lemma SplitsCarryOver(chunks: seq<Chunk>, next: seq<Chunk>, lists: seq<Option<seq<int>>>, size: nat, mat: nat)
    requires mat < |lists|
    requires forall m: nat :: m < mat ==> IsSplit(ChunksOf(chunks, m), lists[m].GetOr([]), size)
    requires forall m: nat :: m >= mat ==> ChunksOf(chunks, m) == []
    requires IsSplit(ChunksOf(next, mat), lists[mat].GetOr([]), size)
    requires forall m: nat :: m != mat ==> ChunksOf(next, m) == ChunksOf(chunks, m)
    ensures forall m: nat :: m < mat + 1 ==> IsSplit(ChunksOf(next, m), lists[m].GetOr([]), size)
    ensures forall m: nat :: m >= mat + 1 ==> ChunksOf(next, m) == []
  {
  }

  /** One iteration of the material loop: the material's split is appended
      as chunks numbered on from the existing ones; an empty list adds
      nothing. */
  method AppendMaterial(chunks: seq<Chunk>, mat: nat, tris: seq<int>, size: nat) returns (r: seq<Chunk>)
    requires |tris| % 3 == 0 && size > 0 && size % 3 == 0
    requires forall i :: 0 <= i < |chunks| ==> chunks[i].index == i && chunks[i].material < mat
    requires ChunksOf(chunks, mat) == []
    ensures |r| >= |chunks|
    ensures |tris| == 0 ==> r == chunks
    ensures forall i :: 0 <= i < |r| ==> r[i].index == i && r[i].material <= mat
    ensures forall i :: 0 <= i < |chunks| ==> r[i] == chunks[i]
    ensures forall i :: |chunks| <= i < |r| ==> r[i].material == mat
    ensures IsSplit(ChunksOf(r, mat), tris, size)
    ensures forall m: nat :: m != mat ==> ChunksOf(r, m) == ChunksOf(chunks, m)
  {
    if |tris| == 0 {
      assert IsSplit([], tris, size);
      return chunks;
    }
    var parts := SplitMaterial(tris, size);
    var added := NumberParts(parts, |chunks|, mat);
    ChunksOfSingle(added, parts, mat);
    r := chunks + added;
    ChunksOfAppend(chunks, added, mat);
    assert ChunksOf(r, mat) == [] + parts == parts;
    forall m: nat | m != mat
      ensures ChunksOf(r, m) == ChunksOf(chunks, m)
    {
      ChunksOfAppend(chunks, added, m);
      assert ChunksOf(chunks, m) + [] == ChunksOf(chunks, m);
    }
    forall i | |chunks| <= i < |r|
      ensures r[i].index == i && r[i].material == mat
    {
      assert r[i] == added[i - |chunks|];
    }
  }

  /** The parts of one material as chunks numbered from `first`. */
  function NumberParts(parts: seq<seq<int>>, first: nat, mat: nat): (cs: seq<Chunk>)
    ensures |cs| == |parts|
    ensures forall k :: 0 <= k < |cs| ==> cs[k] == Chunk(first + k, mat, parts[k])
  {
    if |parts| == 0 then []
    else NumberParts(parts[..|parts| - 1], first, mat) + [Chunk(first + |parts| - 1, mat, parts[|parts| - 1])]
  }

  /** Chunks all of material `mat` contribute their parts to `mat` and
      nothing to any other material. */
  lemma {:induction false} ChunksOfSingle(added: seq<Chunk>, parts: seq<seq<int>>, mat: nat)
    requires |added| == |parts|
    requires forall k :: 0 <= k < |added| ==> added[k].material == mat && added[k].tris == parts[k]
    ensures ChunksOf(added, mat) == parts
    ensures forall m: nat :: m != mat ==> ChunksOf(added, m) == []
  {
    if |added| > 0 {
      ChunksOfSingle(added[..|added| - 1], parts[..|parts| - 1], mat);
      assert parts == parts[..|parts| - 1] + [parts[|parts| - 1]];
    }
  }
}

=== FILE: friction_manager.dfy ===
/** Surface materials: a material asset overrides the marble's friction,
    restitution and bounce while the marble rolls on it, and reverting
    restores the marble's stored defaults. Material assets are compared by
    identity in the game; `id` stands for that identity here. */
module FrictionManager {
  import opened Wrappers
  import opened Movement

  /** A surface-material asset; -1 in a field means "leave it alone". A
      missing texture list or a missing texture is `None`. */
  datatype FrictionSO = FrictionSO(
    id: nat,
    friction: real,
    restitution: real,
    bounce: real,
    textures: Option<seq<Option<string>>>)

  /** The engine's collider material. */
  datatype PhysicMaterial = PhysicMaterial(staticFriction: real, dynamicFriction: real, bounciness: real)

  /** The marble's stored defaults. */
  const DefaultStaticFriction: real := 1.1
  const DefaultKineticFriction: real := 0.7
  const DefaultRestitution: real := 0.5
  const DefaultBounce: real := 0.0

  /** The collider material as `Start` and `RevertMaterial` leave it. */
  const DefaultPhysic := PhysicMaterial(0.7, 1.1, 1.0)

  /** The sentinel of a field that is not overridden. */
  const Unset: real := -1.0

  datatype FrictionState = FrictionState(
    movement: Tunables,
    physic: PhysicMaterial,
    current: Option<FrictionSO>)

  /** `Start`: no material applied, the collider material reset; the
      movement parameters are not touched. */
  function Start(movement: Tunables): (st: FrictionState)
    ensures st.current.None? && st.physic == DefaultPhysic && st.movement == movement
  {
    FrictionState(movement, DefaultPhysic, Option.None)
  }

  /** The movement parameters with the four stored defaults restored. */
  function WithDefaults(m: Tunables): (r: Tunables)
    ensures r.gravity == m.gravity
    ensures r.staticFriction == DefaultStaticFriction && r.kineticFriction == DefaultKineticFriction
    ensures r.bounceRestitution == DefaultRestitution && r.bounce == DefaultBounce
  {
    m.(staticFriction := DefaultStaticFriction, kineticFriction := DefaultKineticFriction,
       bounceRestitution := DefaultRestitution, bounce := DefaultBounce)
  }

  /** `ApplyMaterial`: nothing happens for no material or for the one
      already applied; otherwise each field that is not -1 overrides its
      parameter, friction scaled to 1.2x static and 0.8x kinetic. */
  function ApplyMaterial(st: FrictionState, so: Option<FrictionSO>): (r: FrictionState)
    ensures so.None? || st.current == so ==> r == st
    ensures so.Some? && st.current != so ==>
              && r.current == so
              && r.movement.gravity == st.movement.gravity
              && r.physic.bounciness == st.physic.bounciness
              && (so.value.friction != Unset ==>
                    && r.movement.staticFriction == so.value.friction * 1.2
                    && r.movement.kineticFriction == so.value.friction * 0.8
                    && r.physic == PhysicMaterial(so.value.friction * 1.2, so.value.friction * 0.8, st.physic.bounciness))
              && (so.value.friction == Unset ==>
                    && r.movement.staticFriction == st.movement.staticFriction
                    && r.movement.kineticFriction == st.movement.kineticFriction
                    && r.physic == st.physic)
              && r.movement.bounceRestitution == (if so.value.restitution != Unset then so.value.restitution else st.movement.bounceRestitution)
              && r.movement.bounce == (if so.value.bounce != Unset then so.value.bounce else st.movement.bounce)
  {
    if so.None? || st.current == so then st
    else
      var f := so.value;
      var m := st.movement;
      var p := st.physic;
      var m1 := if f.friction != Unset then m.(staticFriction := f.friction * 1.2, kineticFriction := f.friction * 0.8) else m;
      var p1 := if f.friction != Unset then p.(staticFriction := f.friction * 1.2, dynamicFriction := f.friction * 0.8) else p;
      var m2 := if f.restitution != Unset then m1.(bounceRestitution := f.restitution) else m1;
      var m3 := if f.bounce != Unset then m2.(bounce := f.bounce) else m2;
      FrictionState(m3, p1, so)
  }

  /** `RevertMaterial`: only when a material is applied, the four defaults
      and the collider material come back and nothing is applied any more. */
  function RevertMaterial(st: FrictionState): (r: FrictionState)
    ensures st.current.None? ==> r == st
    ensures st.current.Some? ==>
              r.current.None? && r.movement == WithDefaults(st.movement) && r.physic == DefaultPhysic
  {
    if st.current.None? then st
    else FrictionState(WithDefaults(st.movement), DefaultPhysic, Option.None)
  }

  /** Applying the same material twice is applying it once. */
  lemma ApplyIdempotent(st: FrictionState, so: Option<FrictionSO>)
    ensures ApplyMaterial(ApplyMaterial(st, so), so) == ApplyMaterial(st, so)
  {
  }

  /** Whatever material was applied, reverting afterwards leaves the stored
      defaults, the default collider material and no material applied; only
      gravity is kept from before. */
  lemma ApplyThenRevert(st: FrictionState, so: FrictionSO)
    ensures var r := RevertMaterial(ApplyMaterial(st, Some(so)));
            && r.current.None?
            && r.physic == DefaultPhysic
            && r.movement == WithDefaults(st.movement)
  {
  }

  /** Reverting twice is reverting once. */
  lemma RevertIdempotent(st: FrictionState)
    ensures RevertMaterial(RevertMaterial(st)) == RevertMaterial(st)
  {
  }

  /** The material owns a texture called `name`. */
  predicate Owns(f: FrictionSO, name: string) {
    f.textures.Some? && exists t :: 0 <= t < |f.textures.value| && f.textures.value[t] == Some(name)
  }

  /** The material entry is present and owns a texture called `name`. */
  predicate Matches(entry: Option<FrictionSO>, name: string) {
    entry.Some? && Owns(entry.value, name)
  }

  /** `SearchFriction`: the first material in array order owning a texture
      of that name, skipping missing materials and texture lists; nothing
      for a missing or empty name. */
  method SearchFriction(frictions: seq<Option<FrictionSO>>, name: Option<string>) returns (r: Option<FrictionSO>)
    ensures name.None? || name == Some("") ==> r.None?
    ensures r.Some? ==> name.Some? && (exists i :: && 0 <= i < |frictions| && frictions[i] == r && Matches(r, name.value)
                                                  && forall j :: 0 <= j < i ==> !Matches(frictions[j], name.value))
    ensures r.None? && name.Some? && name.value != "" ==> forall i :: 0 <= i < |frictions| ==> !Matches(frictions[i], name.value)
  {
    if name.None? || name.value == "" {
      return Option.None;
    }
    var n := name.value;
    for i := 0 to |frictions|
      invariant forall j :: 0 <= j < i ==> !Matches(frictions[j], n)
    {
      var entry := frictions[i];
      if entry.None? || entry.value.textures.None? {
        continue;
      }
      var textures := entry.value.textures.value;
      for t := 0 to |textures|
        invariant forall u :: 0 <= u < t ==> textures[u] != Some(n)
      {
        if textures[t].Some? && textures[t].value == n {
          return entry;
        }
      }
    }
    return Option.None;
  }
}

=== FILE: game_ui.dfy ===
/** The HUD's discrete logic: the seven-digit race timer, the two-digit gem
    counters, the power-up icon and the exclusive centre image. Sprites are
    identified by their index in the `numbers` array, which holds the ten
    digit sprites 0..9; an index outside it is the array access failing. */
module GameUI {
  import opened Wrappers
  import opened Powerups

  /** The number of digit sprites. */
  const DigitSprites: int := 10

  /** C#'s `(int)` cast of a float: truncation toward zero. */
  function TruncToInt(x: real): (r: int)
    ensures x >= 0.0 ==> r == x.Floor
    ensures x < 0.0 ==> r == -((-x).Floor) && r <= 0 && x <= r as real
  {
    if x >= 0.0 then x.Floor else -((-x).Floor)
  }

  /** C#'s integer `/`: truncation toward zero. */
  function CDiv(a: int, b: int): int
    requires b > 0
  {
    if a >= 0 then a / b else -((-a) / b)
  }

  /** C#'s integer `%`: the remainder takes the dividend's sign. */
  function CRem(a: int, b: int): (r: int)
    requires b > 0
    ensures a == b * CDiv(a, b) + r
    ensures a >= 0 ==> 0 <= r < b
    ensures a < 0 ==> -b < r <= 0
  {
    a - b * CDiv(a, b)
  }

  /** C#'s float `%`: `x - y * trunc(x / y)`. */
  function FMod(x: real, y: real): real
    requires y > 0.0
  {
    x - y * (TruncToInt(x / y) as real)
  }

  const MsPerDecaminute: int := 600000

  /** The seven timer digits, most significant first. */
  datatype TimerDigits = TimerDigits(
    decaminutes: int, minutes: int, decaseconds: int, seconds: int,
    deciseconds: int, centiseconds: int, milliseconds: int)

  /** The digits of the whole milliseconds below ten minutes. */
  function SplitRemainder(dm: int, rem: int): (d: TimerDigits)
    ensures d.decaminutes == dm
    ensures rem == 60000 * d.minutes + 10000 * d.decaseconds + 1000 * d.seconds
                   + 100 * d.deciseconds + 10 * d.centiseconds + d.milliseconds
    ensures 0 <= rem < MsPerDecaminute ==>
              && 0 <= d.minutes < 10 && 0 <= d.decaseconds < 6 && 0 <= d.seconds < 10
              && 0 <= d.deciseconds < 10 && 0 <= d.centiseconds < 10 && 0 <= d.milliseconds < 10
    ensures rem < 0 ==>
              && d.minutes <= 0 && d.decaseconds <= 0 && d.seconds <= 0
              && d.deciseconds <= 0 && d.centiseconds <= 0 && d.milliseconds <= 0
  {
    var minutes := CDiv(rem, 60000);
    var r1 := CRem(rem, 60000);
    var decaseconds := CDiv(r1, 10000);
    var r2 := CRem(r1, 10000);
    var seconds := CDiv(r2, 1000);
    var r3 := CRem(r2, 1000);
    var deciseconds := CDiv(r3, 100);
    var r4 := CRem(r3, 100);
    TimerDigits(dm, minutes, decaseconds, seconds, deciseconds, CDiv(r4, 10), CRem(r4, 10))
  }

  /** The digit split of `SetTimerText`, before the sprites are looked up. */
  function SplitTime(timeMs: real): TimerDigits {
    var dm := TruncToInt(timeMs / (MsPerDecaminute as real));
    var rem := TruncToInt(FMod(timeMs, MsPerDecaminute as real));
    SplitRemainder(dm, rem)
  }

  function DigitList(d: TimerDigits): seq<int> {
    [d.decaminutes, d.minutes, d.decaseconds, d.seconds, d.deciseconds, d.centiseconds, d.milliseconds]
  }

  predicate IsDigit(k: int) {
    0 <= k < DigitSprites
  }

  /** The sprite indices of the timer, or the failed lookup. */
  function SetTimerText(timeMs: real): (r: Result<seq<int>>)
    ensures r.Success? ==> |r.value| == 7 && forall i :: 0 <= i < 7 ==> IsDigit(r.value[i])
    ensures r.Failure? ==> r.error == IndexOutOfRange
  {
    var ds := DigitList(SplitTime(timeMs));
    if forall i :: 0 <= i < 7 ==> IsDigit(ds[i]) then Success(ds) else Failure(IndexOutOfRange)
  }

  /** The weight of each timer digit in milliseconds. */
  function Weighted(ds: seq<int>): int
    requires |ds| == 7
  {
    600000 * ds[0] + 60000 * ds[1] + 10000 * ds[2] + 1000 * ds[3] + 100 * ds[4] + 10 * ds[5] + ds[6]
  }

  /** Below 100 minutes the timer shows the whole milliseconds exactly, with
      the decaseconds digit below 6. */
  lemma TimerDigitsRecompose(timeMs: real)
    requires 0.0 <= timeMs < 6000000.0
    ensures SetTimerText(timeMs).Success?
    ensures var ds := SetTimerText(timeMs).value;
            Weighted(ds) == timeMs.Floor && ds[2] < 6
  {
    var dm := TruncToInt(timeMs / 600000.0);
    PositiveSplit(timeMs);
    var d := SplitTime(timeMs);
    assert 0 <= d.decaminutes < 10;
  }

  /** For a non-negative time, the decaminutes and the remainder below ten
      minutes recompose the whole milliseconds. */
  lemma PositiveSplit(t: real)
    requires t >= 0.0
    ensures var dm := TruncToInt(t / 600000.0);
            var rem := TruncToInt(FMod(t, 600000.0));
            && dm >= 0 && 0 <= rem < 600000 && 600000 * dm + rem == t.Floor
            && (t < 6000000.0 ==> dm < 10)
            && (t >= 6000000.0 ==> dm >= 10)
  {
    var q := t / 600000.0;
    var dm := q.Floor;
    assert dm as real <= q < dm as real + 1.0;
    var f := t - 600000.0 * (dm as real);
    assert 0.0 <= f < 600000.0;
    assert FMod(t, 600000.0) == f;
    var rem := f.Floor;
    assert (600000 * dm + rem) as real <= t < (600000 * dm + rem) as real + 1.0;
  }

  /** For a time between -10 minutes and 0, the decaminutes are 0 and the
      remainder is the truncated time. */
  lemma NegativeSplit(t: real)
    requires -600000.0 < t < 0.0
    ensures TruncToInt(t / 600000.0) == 0
    ensures TruncToInt(FMod(t, 600000.0)) == TruncToInt(t)
  {
    var q := t / 600000.0;
    assert -1.0 < q < 0.0;
    assert (-q).Floor == 0;
  }

  /** The timer shows digits exactly for times in (-1, 6000000): at or
      beyond 100 minutes the decaminutes digit exceeds 9, and at or below
      -1 ms some digit is negative. */
  lemma TimerRange(timeMs: real)
    ensures SetTimerText(timeMs).Success? <==> -1.0 < timeMs < 6000000.0
  {
    if 0.0 <= timeMs < 6000000.0 {
      TimerDigitsRecompose(timeMs);
    } else if timeMs >= 6000000.0 {
      TimerTooLate(timeMs);
    } else if timeMs > -1.0 {
      TimerJustBelowZero(timeMs);
    } else if timeMs > -600000.0 {
      TimerNegative(timeMs);
    } else {
      TimerFarNegative(timeMs);
    }
  }

  lemma TimerTooLate(timeMs: real)
    requires timeMs >= 6000000.0
    ensures SetTimerText(timeMs).Failure?
  {
    PositiveSplit(timeMs);
    assert !IsDigit(DigitList(SplitTime(timeMs))[0]);
  }

  lemma TimerJustBelowZero(timeMs: real)
    requires -1.0 < timeMs < 0.0
    ensures SetTimerText(timeMs).Success?
  {
    NegativeSplit(timeMs);
    assert TruncToInt(timeMs) == 0;
    var d := SplitRemainder(0, 0);
    assert SplitTime(timeMs) == d;
    assert forall i :: 0 <= i < 7 ==> IsDigit(DigitList(d)[i]);
  }

  lemma TimerNegative(timeMs: real)
    requires -600000.0 < timeMs <= -1.0
    ensures SetTimerText(timeMs).Failure?
  {
    NegativeSplit(timeMs);
    var rem := TruncToInt(timeMs);
    assert rem < 0;
    assert SplitTime(timeMs) == SplitRemainder(0, rem);
    NegativeHasNegativeDigit(SplitRemainder(0, rem), rem);
  }

  lemma TimerFarNegative(timeMs: real)
    requires timeMs <= -600000.0
    ensures SetTimerText(timeMs).Failure?
  {
    var q := timeMs / 600000.0;
    assert q <= -1.0;
    assert TruncToInt(q) < 0;
    assert !IsDigit(DigitList(SplitTime(timeMs))[0]);
  }

  lemma NegativeHasNegativeDigit(d: TimerDigits, rem: int)
    requires rem < 0
    requires rem == 60000 * d.minutes + 10000 * d.decaseconds + 1000 * d.seconds
                    + 100 * d.deciseconds + 10 * d.centiseconds + d.milliseconds
    requires d.minutes <= 0 && d.decaseconds <= 0 && d.seconds <= 0
    requires d.deciseconds <= 0 && d.centiseconds <= 0 && d.milliseconds <= 0
    ensures exists i :: 0 <= i < 7 && !IsDigit(DigitList(d)[i])
  {
    var ds := DigitList(d);
    if d.minutes < 0 {
      assert !IsDigit(ds[1]);
    } else if d.decaseconds < 0 {
      assert !IsDigit(ds[2]);
    } else if d.seconds < 0 {
      assert !IsDigit(ds[3]);
    } else if d.deciseconds < 0 {
      assert !IsDigit(ds[4]);
    } else if d.centiseconds < 0 {
      assert !IsDigit(ds[5]);
    } else {
      assert !IsDigit(ds[6]);
    }
  }

  /** `SetTargetGem` / `SetCurrentGem`: the tens and units sprites of a gem
      count; only 0..99 have two digit sprites. */
  function GemDigits(count: int): (r: Result<(int, int)>)
    ensures r.Success? <==> 0 <= count < 100
    ensures r.Success? ==> IsDigit(r.value.0) && IsDigit(r.value.1) && count == 10 * r.value.0 + r.value.1
    ensures r.Failure? ==> r.error == IndexOutOfRange
  {
    var tens := CDiv(count, 10);
    var units := CRem(count, 10);
    if IsDigit(tens) && IsDigit(units) then Success((tens, units)) else Failure(IndexOutOfRange)
  }

  /** `SetPowerupIcon`: the HUD icon of a power-up type; the types without
      their own icon share the empty icon 0. */
  function PowerupIcon(p: PowerupType): (k: int)
    ensures 0 <= k <= 5
    ensures k == 0 <==> p !in {SuperJump, SuperSpeed, SuperBounce, ShockAbsorber, Gyrocopter}
  {
    match p
    case SuperJump => 1
    case SuperSpeed => 2
    case SuperBounce => 3
    case ShockAbsorber => 4
    case Gyrocopter => 5
    case _ => 0
  }

  /** The type a non-empty icon stands for. */
  function IconType(k: int): PowerupType {
    if k == 1 then SuperJump
    else if k == 2 then SuperSpeed
    else if k == 3 then SuperBounce
    else if k == 4 then ShockAbsorber
    else if k == 5 then Gyrocopter
    else PowerupType.None
  }

  /** Each non-empty icon identifies its power-up type. */
  lemma PowerupIconInjective(p: PowerupType)
    ensures PowerupIcon(p) != 0 ==> IconType(PowerupIcon(p)) == p
    ensures PowerupIcon(IconType(PowerupIcon(p))) == PowerupIcon(p)
  {
  }

  /** Which of the four centre images are shown. */
  datatype CenterImages = CenterImages(ready: bool, setImage: bool, go: bool, outOfBounds: bool)

  function ActiveCount(c: CenterImages): nat {
    (if c.ready then 1 else 0) + (if c.setImage then 1 else 0) + (if c.go then 1 else 0) + (if c.outOfBounds then 1 else 0)
  }

  /** `SetCenterImage`: all four images are hidden, then the one at `index`
      is shown. */
  function SetCenterImage(index: int): (c: CenterImages)
    ensures ActiveCount(c) == (if 0 <= index <= 3 then 1 else 0)
    ensures c.ready <==> index == 0
    ensures c.setImage <==> index == 1
    ensures c.go <==> index == 2
    ensures c.outOfBounds <==> index == 3
  {
    var hidden := CenterImages(false, false, false, false);
    if index == 0 then hidden.(ready := true)
    else if index == 1 then hidden.(setImage := true)
    else if index == 2 then hidden.(go := true)
    else if index == 3 then hidden.(outOfBounds := true)
    else hidden
  }
}

=== FILE: marble.dfy ===
/** The marble's power-up effects: super bounce and shock absorber
    (mutually exclusive restitution overrides), the gyrocopter's gravity
    scaling, time travel, and the dispatch of a consumed power-up. Sounds,
    particles and the flags' home in the game manager are outside the
    model: the flags live in `Powers`, the clock is a parameter. */
module Marble {
  import opened Wrappers
  import opened Movement
  import opened Powerups
  import opened FrictionManager

  datatype Powers = Powers(
    superBounce: bool,
    shockAbsorber: bool,
    gyrocopter: bool,
    timeTravelActive: bool,
    timeTravelStartTime: real,
    timeTravelBonus: real,
    glowBounce: bool,
    gyrocopterBlades: bool)

  /** The marble's power-up flags and its surface-material state, which
      holds the movement parameters both sides write. */
  datatype MarbleState = MarbleState(powers: Powers, surface: FrictionState)

  function Restitution(st: MarbleState): real {
    st.surface.movement.bounceRestitution
  }

  function Gravity(st: MarbleState): real {
    st.surface.movement.gravity
  }

  /** Super bounce and shock absorber are never both active. */
  predicate Exclusive(p: Powers) {
    !(p.superBounce && p.shockAbsorber)
  }

  /** The surface material reverted, then the restitution overridden. */
  function Override(surface: FrictionState, restitution: real): (r: FrictionState)
    ensures r.movement.bounceRestitution == restitution
    ensures r.movement.gravity == surface.movement.gravity
    ensures r.current.None?
    // an applied material gives way to the defaults and the default collider material
    ensures surface.current.Some? ==>
              && r.movement == WithDefaults(surface.movement).(bounceRestitution := restitution)
              && r.physic == DefaultPhysic
    // with none applied only the restitution changes
    ensures surface.current.None? ==> r == surface.(movement := surface.movement.(bounceRestitution := restitution))
  {
    var reverted := RevertMaterial(surface);
    reverted.(movement := reverted.movement.(bounceRestitution := restitution))
  }

  /** `UseSuperBounce`: shock absorber is cancelled and the glow shown; only
      the switch from inactive to active reverts the surface material and
      sets restitution 1. */
  function UseSuperBounce(st: MarbleState): (r: MarbleState)
    ensures r.powers.superBounce && !r.powers.shockAbsorber && r.powers.glowBounce
    ensures !st.powers.superBounce ==> r.surface == Override(st.surface, 1.0) && Restitution(r) == 1.0
    ensures st.powers.superBounce ==> r.surface == st.surface
    ensures Gravity(r) == Gravity(st)
    ensures r.powers.(superBounce := st.powers.superBounce, shockAbsorber := st.powers.shockAbsorber, glowBounce := st.powers.glowBounce) == st.powers
  {
    var p := st.powers.(shockAbsorber := false, glowBounce := true);
    if !p.superBounce then MarbleState(p.(superBounce := true), Override(st.surface, 1.0))
    else MarbleState(p, st.surface)
  }

  /** `UseShockAbsorber`: the mirror image of super bounce, with
      restitution 0. */
  function UseShockAbsorber(st: MarbleState): (r: MarbleState)
    ensures r.powers.shockAbsorber && !r.powers.superBounce && r.powers.glowBounce
    ensures !st.powers.shockAbsorber ==> r.surface == Override(st.surface, 0.0) && Restitution(r) == 0.0
    ensures st.powers.shockAbsorber ==> r.surface == st.surface
    ensures Gravity(r) == Gravity(st)
    ensures r.powers.(superBounce := st.powers.superBounce, shockAbsorber := st.powers.shockAbsorber, glowBounce := st.powers.glowBounce) == st.powers
  {
    var p := st.powers.(superBounce := false, glowBounce := true);
    if !p.shockAbsorber then MarbleState(p.(shockAbsorber := true), Override(st.surface, 0.0))
    else MarbleState(p, st.surface)
  }

  /** `RevertMaterial` of the marble: glow off, both flags cleared, and
      restitution back to the surface manager's stored default. The flags
      are tested after they are cleared, so the 0 and 1 branches cannot be
      taken. */
  function RevertPowerMaterial(st: MarbleState): (r: MarbleState)
    ensures !r.powers.superBounce && !r.powers.shockAbsorber && !r.powers.glowBounce
    ensures Restitution(r) == DefaultRestitution
    ensures r.surface == st.surface.(movement := st.surface.movement.(bounceRestitution := DefaultRestitution))
  {
    var p := st.powers.(glowBounce := false, superBounce := false, shockAbsorber := false);
    var restitution :=
      if p.shockAbsorber then 0.0
      else if p.superBounce then 1.0
      else DefaultRestitution;
    MarbleState(p, st.surface.(movement := st.surface.movement.(bounceRestitution := restitution)))
  }

  /** Every power-up operation keeps super bounce and shock absorber
      exclusive, and the two uses establish it from any state. */
  lemma ExclusiveKept(st: MarbleState, bonus: real, now: real)
    ensures Exclusive(UseSuperBounce(st).powers) && Exclusive(UseShockAbsorber(st).powers)
    ensures Exclusive(RevertPowerMaterial(st).powers)
    ensures Exclusive(st.powers) ==>
              && Exclusive(UseGyrocopter(st).powers) && Exclusive(CancelGyrocopter(st).powers)
              && Exclusive(ActivateTimeTravel(st, bonus, now).powers) && Exclusive(InactivateTimeTravel(st).powers)
  {
  }

  /** A second use of the same power-up changes neither the surface nor
      the flags. */
  lemma UseTwice(st: MarbleState)
    ensures UseSuperBounce(UseSuperBounce(st)) == UseSuperBounce(st)
    ensures UseShockAbsorber(UseShockAbsorber(st)) == UseShockAbsorber(st)
  {
  }

  /** `UseGyrocopter`: blades shown, the flag set, gravity quartered. */
  function UseGyrocopter(st: MarbleState): (r: MarbleState)
    ensures r.powers.gyrocopter && r.powers.gyrocopterBlades
    ensures Gravity(r) * 4.0 == Gravity(st)
    // no other flag and nothing of the surface but gravity changes
    ensures r.powers.(gyrocopter := st.powers.gyrocopter, gyrocopterBlades := st.powers.gyrocopterBlades) == st.powers
    ensures r.surface.(movement := r.surface.movement.(gravity := Gravity(st))) == st.surface
  {
    MarbleState(st.powers.(gyrocopterBlades := true, gyrocopter := true),
                st.surface.(movement := st.surface.movement.(gravity := Gravity(st) * 0.25)))
  }

  /** `CancelGyrocopter`: blades hidden, the flag cleared, gravity
      quadrupled. */
  function CancelGyrocopter(st: MarbleState): (r: MarbleState)
    ensures !r.powers.gyrocopter && !r.powers.gyrocopterBlades
    ensures Gravity(r) == Gravity(st) * 4.0
    // no other flag and nothing of the surface but gravity changes
    ensures r.powers.(gyrocopter := st.powers.gyrocopter, gyrocopterBlades := st.powers.gyrocopterBlades) == st.powers
    ensures r.surface.(movement := r.surface.movement.(gravity := Gravity(st))) == st.surface
  {
    MarbleState(st.powers.(gyrocopterBlades := false, gyrocopter := false),
                st.surface.(movement := st.surface.movement.(gravity := Gravity(st) * 4.0)))
  }

  /** Using and then cancelling the gyrocopter gives the state back, with
      the gyrocopter off. */
  lemma GyrocopterRoundTrip(st: MarbleState)
    ensures CancelGyrocopter(UseGyrocopter(st)) == st.(powers := st.powers.(gyrocopter := false, gyrocopterBlades := false))
  {
    assert Gravity(st) * 0.25 * 4.0 == Gravity(st);
    assert st.surface.movement.(gravity := Gravity(st)) == st.surface.movement;
  }

  /** `ActivateTimeTravel`: the start time is taken only when time travel
      was off; the bonus always accumulates. */
  function ActivateTimeTravel(st: MarbleState, bonus: real, now: real): (r: MarbleState)
    ensures r.powers.timeTravelActive
    ensures r.powers.timeTravelStartTime == (if st.powers.timeTravelActive then st.powers.timeTravelStartTime else now)
    ensures r.powers.timeTravelBonus == st.powers.timeTravelBonus + bonus
    ensures r.surface == st.surface
    // the other flags are kept
    ensures r.powers.(timeTravelActive := st.powers.timeTravelActive,
                      timeTravelStartTime := st.powers.timeTravelStartTime,
                      timeTravelBonus := st.powers.timeTravelBonus) == st.powers
  {
    var p := if !st.powers.timeTravelActive then st.powers.(timeTravelStartTime := now, timeTravelActive := true) else st.powers;
    MarbleState(p.(timeTravelBonus := p.timeTravelBonus + bonus), st.surface)
  }

  /** `InactivateTimeTravel`: the bonus is dropped and the flag cleared. */
  function InactivateTimeTravel(st: MarbleState): (r: MarbleState)
    ensures !r.powers.timeTravelActive && r.powers.timeTravelBonus == 0.0
    ensures r.surface == st.surface
    // the start time and the other flags are kept
    ensures r.powers.(timeTravelActive := st.powers.timeTravelActive,
                      timeTravelBonus := st.powers.timeTravelBonus) == st.powers
  {
    MarbleState(st.powers.(timeTravelBonus := 0.0, timeTravelActive := false), st.surface)
  }

  /** A time-travel pickup: its bonus and the time it was taken. */
  datatype TimeTravelPickup = TimeTravelPickup(bonus: real, time: real)

  function BonusSum(ps: seq<TimeTravelPickup>): real {
    if |ps| == 0 then 0.0 else BonusSum(ps[..|ps| - 1]) + ps[|ps| - 1].bonus
  }

  /** Several time-travel pickups in a row. */
  function ActivateAll(st: MarbleState, ps: seq<TimeTravelPickup>): MarbleState {
    if |ps| == 0 then st
    else ActivateTimeTravel(ActivateAll(st, ps[..|ps| - 1]), ps[|ps| - 1].bonus, ps[|ps| - 1].time)
  }

  /** Starting with time travel off, a run of pickups is timed from the
      first one and its bonuses add up. */
  lemma {:induction false} TimeTravelAccumulates(st: MarbleState, ps: seq<TimeTravelPickup>)
    requires !st.powers.timeTravelActive && |ps| > 0
    ensures var r := ActivateAll(st, ps);
            && r.powers.timeTravelActive
            && r.powers.timeTravelStartTime == ps[0].time
            && r.powers.timeTravelBonus == st.powers.timeTravelBonus + BonusSum(ps)
  {
    if |ps| > 1 {
      var init := ps[..|ps| - 1];
      TimeTravelAccumulates(st, init);
      assert init[0] == ps[0];
    }
  }

  /** The effect a consumed power-up triggers. */
  datatype UseEvent = UseSuperJump | UseSuperSpeed | UseShock | UseBounce | UseGyro

  /** The power-up type behind each use event. */
  function EventType(e: UseEvent): PowerupType {
    match e
    case UseSuperJump => SuperJump
    case UseSuperSpeed => SuperSpeed
    case UseShock => ShockAbsorber
    case UseBounce => SuperBounce
    case UseGyro => Gyrocopter
  }

  /** `UsePowerup`: the consumed power-up's use event, if it has one; other
      types have no effect. */
  function UsePowerup(consumed: PowerupType): (r: Option<UseEvent>)
    ensures r.Some? <==> consumed in {SuperJump, SuperSpeed, ShockAbsorber, SuperBounce, Gyrocopter}
    ensures r.Some? ==> EventType(r.value) == consumed
  {
    match consumed
    case SuperJump => Some(UseSuperJump)
    case SuperSpeed => Some(UseSuperSpeed)
    case ShockAbsorber => Some(UseShock)
    case SuperBounce => Some(UseBounce)
    case Gyrocopter => Some(UseGyro)
    case _ => Option.None
  }

  /** Every use event is dispatched by exactly its own power-up type. */
  lemma DispatchInverse(e: UseEvent)
    ensures UsePowerup(EventType(e)) == Some(e)
  {
  }
}

=== FILE: mission_importer.dfy ===
/** Value conversions of the mission importer: asset path rewriting, the
    Torque-to-Unity axis swap, colour and intensity conversion, the
    polyhedron length check, the object field map, and the decoding of
    moving-platform markers, smoothing and target positions. The text
    parsing itself is left out: numeric fields arrive already parsed, with
    `None` standing for a value `int.Parse` or `int.TryParse` rejects. */
module MissionImporter {
  import opened Wrappers
  import opened Vectors
  import MovingPlatform

  // ---------------------------------------------------------------------
  // Asset paths
  // ---------------------------------------------------------------------

  /** `string.TrimStart('/')`. */
  function TrimStartSlashes(s: string): (r: string)
    ensures |r| <= |s| && r == s[|s| - |r|..]
    ensures |r| > 0 ==> r[0] != '/'
    ensures forall i :: 0 <= i < |s| - |r| ==> s[i] == '/'
  {
    if |s| > 0 && s[0] == '/' then TrimStartSlashes(s[1..]) else s
  }

  /** `string.IndexOf(c)`: the first position of `c`, or -1. */
  function IndexOf(s: string, c: char): (r: int)
    ensures -1 <= r < |s|
    ensures r >= 0 ==> s[r] == c && forall i :: 0 <= i < r ==> s[i] != c
    ensures r == -1 <==> forall i :: 0 <= i < |s| ==> s[i] != c
  {
    if |s| == 0 then -1
    else if s[0] == c then 0
    else
      var k := IndexOf(s[1..], c);
      if k < 0 then -1 else k + 1
  }

  /** `string.Replace(c, "")`: every occurrence of `c` removed, the rest in
      order. */
  function RemoveAll(s: string, c: char): (r: string)
    ensures |r| <= |s|
    ensures forall i :: 0 <= i < |r| ==> r[i] != c
    ensures (forall i :: 0 <= i < |s| ==> s[i] != c) ==> r == s
  {
    if |s| == 0 then s
    else
      (if s[0] == c then [] else [s[0]]) + RemoveAll(s[1..], c)
  }

  /** Every character other than `c` survives removal, as often as it
      occurred; with `RemoveAllAppend` this fixes their order too. */
  lemma {:induction false} RemoveAllCounts(s: string, c: char)
    ensures multiset(RemoveAll(s, c)) == multiset(s)[c := 0]
  {
    if |s| > 0 {
      RemoveAllCounts(s[1..], c);
      RemoveHeadCount(s, c);
    }
  }

  /** Counting without `c` splits at the head of the string. */
  lemma RemoveHeadCount(s: string, c: char)
    requires |s| > 0
    ensures multiset(s)[c := 0] == multiset(if s[0] == c then [] else [s[0]]) + multiset(s[1..])[c := 0]
  {
    assert s == [s[0]] + s[1..];
    var lhs := multiset(s)[c := 0];
    var rhs := multiset(if s[0] == c then [] else [s[0]]) + multiset(s[1..])[c := 0];
    forall x
      ensures lhs[x] == rhs[x]
    {
    }
  }

  const MarblePrefix: string := "marble/"

  /** `ResolvePath`: absent or empty paths are returned as they are; a path
      of slashes only fails on `assetPath[0]`. Otherwise leading slashes go,
      a "./" path is re-rooted at the mission's directory `missionDir`, any
      other path has its first directory replaced by "marble" (or "marble/"
      prepended), all backslashes are dropped and one trailing quote is
      removed. */
  function ResolvePath(assetPath: Option<string>, missionDir: string): (r: Result<Option<string>>)
    ensures assetPath.None? ==> r == Success(None)
    ensures assetPath == Some("") ==> r == Success(Some(""))
    ensures r.Failure? <==>
              assetPath.Some? && |assetPath.value| > 0 && forall i :: 0 <= i < |assetPath.value| ==> assetPath.value[i] == '/'
    ensures r.Failure? ==> r.error == IndexOutOfRange
    ensures r.Success? && assetPath.Some? && |assetPath.value| > 0 ==>
              && r.value.Some?
              && forall i :: 0 <= i < |r.value.value| ==> r.value.value[i] != '\\'
    ensures r.Success? && assetPath.Some? && |assetPath.value| > 0 && TrimStartSlashes(assetPath.value)[0] != '.' ==>
              HasMarblePrefix(r.value.value)
  {
    if assetPath.None? || |assetPath.value| == 0 then Success(assetPath)
    else
      var p := TrimStartSlashes(assetPath.value);
      if |p| == 0 then Failure(IndexOutOfRange)
      else Success(Some(Clean(Rooted(p, missionDir))))
  }

  /** The path re-rooted: "./" paths at the mission's directory, others
      under "marble". */
  function Rooted(p: string, missionDir: string): (r: string)
    requires |p| > 0
    ensures p[0] != '.' ==> HasMarblePrefix(r)
    // a '.' is replaced by the mission's directory
    ensures p[0] == '.' ==> r == missionDir + p[1..]
    // a path without '/' is placed under "marble/"
    ensures p[0] != '.' && (forall i :: 0 <= i < |p| ==> p[i] != '/') ==> r == MarblePrefix + p
    // otherwise everything up to the first '/' becomes "marble/"
    ensures forall k :: 0 <= k < |p| && p[0] != '.' && p[k] == '/' && (forall i :: 0 <= i < k ==> p[i] != '/') ==>
              r == MarblePrefix + p[k + 1..]
  {
    if p[0] == '.' then missionDir + p[1..]
    else
      var slash := IndexOf(p, '/');
      if slash >= 0 then "marble" + p[slash..] else MarblePrefix + p
  }

  /** Backslashes dropped, then one trailing quote. */
  function Clean(rooted: string): (r: string)
    ensures forall i :: 0 <= i < |r| ==> r[i] != '\\'
    ensures HasMarblePrefix(rooted) ==> HasMarblePrefix(r)
    // a path free of backslashes loses exactly a trailing quote
    ensures (forall i :: 0 <= i < |rooted| ==> rooted[i] != '\\') ==>
              r == (if |rooted| > 0 && rooted[|rooted| - 1] == '"' then rooted[..|rooted| - 1] else rooted)
  {
    PrefixSurvivesRemoval(rooted, '\\');
    DropTrailingQuote(RemoveAll(rooted, '\\'))
  }

  /** Cleaning loses nothing but backslashes and at most one quote: every
      other character is kept, and at most one character beyond the
      backslashes goes. */
  lemma CleanKeepsCharacters(rooted: string)
    ensures multiset(Clean(rooted)) <= multiset(rooted)
    ensures var others := multiset(rooted)['\\' := 0];
            |others| - 1 <= |Clean(rooted)| <= |others|
  {
    var kept := RemoveAll(rooted, '\\');
    var r := Clean(rooted);
    assert r == DropTrailingQuote(kept);
    assert |kept| - 1 <= |r| && r == kept[..|r|];
    RemoveAllCounts(rooted, '\\');
    PrefixMultiset(kept, |r|);
    ZeroedIsSmaller(multiset(rooted), '\\');
  }

  /** Zeroing one element's count gives a sub-multiset. */
  lemma ZeroedIsSmaller(m: multiset<char>, c: char)
    ensures m[c := 0] <= m
  {
  }

  /** A prefix holds no more of any character than the whole. */
  lemma PrefixMultiset(s: string, n: nat)
    requires n <= |s|
    ensures multiset(s[..n]) <= multiset(s)
  {
    assert s == s[..n] + s[n..];
  }

  /** One trailing '"' removed, if present. */
  function DropTrailingQuote(s: string): (r: string)
    ensures |s| > 0 && s[|s| - 1] == '"' ==> r == s[..|s| - 1]
    ensures !(|s| > 0 && s[|s| - 1] == '"') ==> r == s
    ensures |r| <= |s| && forall i :: 0 <= i < |r| ==> r[i] == s[i]
  {
    if |s| > 0 && s[|s| - 1] == '"' then s[..|s| - 1] else s
  }

  /** Removing backslashes keeps a "marble/" prefix in place, and so does
      dropping a trailing quote. */
  lemma PrefixSurvivesRemoval(s: string, c: char)
    requires c == '\\'
    ensures HasMarblePrefix(s) ==> HasMarblePrefix(DropTrailingQuote(RemoveAll(s, c)))
  {
    if HasMarblePrefix(s) {
      var n := |MarblePrefix|;
      var t := s[n..];
      assert s == MarblePrefix + t;
      RemoveAllAppend(MarblePrefix, t, c);
      CleanPrefix(c);
      var r := RemoveAll(s, c);
      assert r == MarblePrefix + RemoveAll(t, c);
      assert r[..n] == MarblePrefix;
      QuoteKeepsPrefix(r);
    }
  }

  predicate HasMarblePrefix(s: string) {
    |s| >= |MarblePrefix| && s[..|MarblePrefix|] == MarblePrefix
  }

  lemma CleanPrefix(c: char)
    requires c == '\\'
    ensures RemoveAll(MarblePrefix, c) == MarblePrefix
  {
    assert MarblePrefix == ['m', 'a', 'r', 'b', 'l', 'e', '/'];
    assert forall i :: 0 <= i < |MarblePrefix| ==> MarblePrefix[i] != c;
  }

  lemma QuoteKeepsPrefix(r: string)
    requires HasMarblePrefix(r)
    ensures HasMarblePrefix(DropTrailingQuote(r))
  {
    var n := |MarblePrefix|;
    if |r| > 0 && r[|r| - 1] == '"' {
      assert DropTrailingQuote(r)[..n] == r[..n];
    }
  }

  lemma {:induction false} RemoveAllAppend(a: string, b: string, c: char)
    ensures RemoveAll(a + b, c) == RemoveAll(a, c) + RemoveAll(b, c)
  {
    if |a| == 0 {
      assert a + b == b;
    } else {
      assert (a + b)[1..] == a[1..] + b;
      RemoveAllAppend(a[1..], b, c);
    }
  }

  /** A clean "marble/" path, without backslashes or a trailing quote, is
      left as it is by `ResolvePath`. */
  lemma ResolveCleanPath(p: string, missionDir: string)
    requires HasMarblePrefix(p)
    requires forall i :: 0 <= i < |p| ==> p[i] != '\\'
    requires p[|p| - 1] != '"'
    ensures ResolvePath(Some(p), missionDir) == Success(Some(p))
  {
    assert p[0] == MarblePrefix[0];
    assert TrimStartSlashes(p) == p;
    RootedMarble(p, missionDir);
    CleanIsNoOp(p);
  }

  /** A "marble/" path is already rooted. */
  lemma RootedMarble(p: string, missionDir: string)
    requires HasMarblePrefix(p)
    ensures Rooted(p, missionDir) == p
  {
    assert p[0] == MarblePrefix[0];
    assert p[6] == MarblePrefix[6];
    assert IndexOf(p, '/') == 6 by {
      forall i | 0 <= i < 6
        ensures p[i] != '/'
      {
        assert p[i] == MarblePrefix[i];
      }
    }
    assert "marble" + p[6..] == p;
  }

  /** A path without backslashes or a trailing quote is already clean. */
  lemma CleanIsNoOp(p: string)
    requires |p| > 0 && p[|p| - 1] != '"'
    requires forall i :: 0 <= i < |p| ==> p[i] != '\\'
    ensures Clean(p) == p
  {
    assert RemoveAll(p, '\\') == p;
  }

  /** Whatever names the first directory is replaced by "marble": for a
      first directory `d` and a clean remainder, the resolved path is
      "marble/" + remainder, and a trailing quote after it is dropped. */
  lemma ResolveUnderMarble(d: string, rest: string, missionDir: string)
    requires |d| > 0 && d[0] != '.'
    requires forall i :: 0 <= i < |d| ==> d[i] != '/'
    requires forall i :: 0 <= i < |rest| ==> rest[i] != '\\'
    requires |rest| == 0 || rest[|rest| - 1] != '"'
    ensures ResolvePath(Some(d + "/" + rest), missionDir) == Success(Some(MarblePrefix + rest))
    ensures ResolvePath(Some(d + "/" + rest + "\""), missionDir) == Success(Some(MarblePrefix + rest))
  {
    ResolvePlain(d, rest, missionDir);
    ResolveQuoted(d, rest, missionDir);
  }

  /** `ResolveUnderMarble` without a trailing quote. */
  lemma ResolvePlain(d: string, rest: string, missionDir: string)
    requires |d| > 0 && d[0] != '.'
    requires forall i :: 0 <= i < |d| ==> d[i] != '/'
    requires forall i :: 0 <= i < |rest| ==> rest[i] != '\\'
    requires |rest| == 0 || rest[|rest| - 1] != '"'
    ensures ResolvePath(Some(d + "/" + rest), missionDir) == Success(Some(MarblePrefix + rest))
  {
    MarbleLastChar(rest);
    ResolveFirstDir(d, rest, missionDir);
  }

  /** "marble/" + rest ends in rest's last character, or in '/'. */
  lemma MarbleLastChar(rest: string)
    requires |rest| == 0 || rest[|rest| - 1] != '"'
    ensures (MarblePrefix + rest)[|MarblePrefix + rest| - 1] != '"'
  {
    if |rest| == 0 {
      assert MarblePrefix + rest == MarblePrefix;
    }
  }

  /** `ResolveUnderMarble` with a trailing quote, which is dropped. */
  lemma ResolveQuoted(d: string, rest: string, missionDir: string)
    requires |d| > 0 && d[0] != '.'
    requires forall i :: 0 <= i < |d| ==> d[i] != '/'
    requires forall i :: 0 <= i < |rest| ==> rest[i] != '\\'
    ensures ResolvePath(Some(d + "/" + rest + "\""), missionDir) == Success(Some(MarblePrefix + rest))
  {
    var quoted := rest + "\"";
    assert d + "/" + rest + "\"" == d + "/" + quoted;
    ResolveFirstDir(d, quoted, missionDir);
    var q := MarblePrefix + quoted;
    assert q[|q| - 1] == '"';
    assert q[..|q| - 1] == MarblePrefix + rest;
  }

  /** The step of `ResolveUnderMarble` for one remainder, which may end in a
      quote. */
  lemma ResolveFirstDir(d: string, rest: string, missionDir: string)
    requires |d| > 0 && d[0] != '.'
    requires forall i :: 0 <= i < |d| ==> d[i] != '/'
    requires forall i :: 0 <= i < |rest| ==> rest[i] != '\\'
    ensures (MarblePrefix + rest)[|MarblePrefix + rest| - 1] != '"' ==>
              ResolvePath(Some(d + "/" + rest), missionDir) == Success(Some(MarblePrefix + rest))
    ensures (MarblePrefix + rest)[|MarblePrefix + rest| - 1] == '"' ==>
              ResolvePath(Some(d + "/" + rest), missionDir) == Success(Some((MarblePrefix + rest)[..|MarblePrefix + rest| - 1]))
  {
    var p := d + "/" + rest;
    FirstDirKept(d, rest);
    FirstDirRooted(d, rest, missionDir);
    NoBackslashUnderMarble(rest);
    var q := MarblePrefix + rest;
    assert Clean(q) == if q[|q| - 1] == '"' then q[..|q| - 1] else q;
  }

  /** A path starting with a name loses no leading slash. */
  lemma FirstDirKept(d: string, rest: string)
    requires |d| > 0 && d[0] != '/'
    ensures TrimStartSlashes(d + "/" + rest) == d + "/" + rest
  {
    assert (d + "/" + rest)[0] == d[0];
  }

  /** The first directory is replaced by "marble". */
  lemma FirstDirRooted(d: string, rest: string, missionDir: string)
    requires |d| > 0 && d[0] != '.'
    requires forall i :: 0 <= i < |d| ==> d[i] != '/'
    ensures Rooted(d + "/" + rest, missionDir) == MarblePrefix + rest
  {
    var p := d + "/" + rest;
    assert p[0] == d[0];
    assert p[|d|] == '/';
    assert forall i :: 0 <= i < |d| ==> p[i] == d[i];
    assert p[|d| + 1..] == rest;
  }

  /** "marble/" adds no backslash. */
  lemma NoBackslashUnderMarble(rest: string)
    requires forall i :: 0 <= i < |rest| ==> rest[i] != '\\'
    ensures forall i :: 0 <= i < |MarblePrefix + rest| ==> (MarblePrefix + rest)[i] != '\\'
  {
    assert MarblePrefix == ['m', 'a', 'r', 'b', 'l', 'e', '/'];
  }

  /** A single name without '/' is placed under "marble/". */
  lemma ResolveBareName(d: string, missionDir: string)
    requires |d| > 0 && d[0] != '.' && d[|d| - 1] != '"'
    requires forall i :: 0 <= i < |d| ==> d[i] != '/' && d[i] != '\\'
    ensures ResolvePath(Some(d), missionDir) == Success(Some(MarblePrefix + d))
  {
    BareNameRooted(d, missionDir);
    NoBackslashUnderMarble(d);
    MarbleLastChar(d);
    ResolveToClean(d, missionDir, MarblePrefix + d);
  }

  /** A path without a leading slash whose re-rooted form is already clean
      resolves to that form. */
  lemma ResolveToClean(p: string, missionDir: string, q: string)
    requires |p| > 0 && p[0] != '/'
    requires Rooted(p, missionDir) == q
    requires |q| > 0 && q[|q| - 1] != '"'
    requires forall i :: 0 <= i < |q| ==> q[i] != '\\'
    ensures ResolvePath(Some(p), missionDir) == Success(Some(q))
  {
    assert TrimStartSlashes(p) == p;
    CleanIsNoOp(q);
  }

  /** A name without '/' gets "marble/" prepended. */
  lemma BareNameRooted(d: string, missionDir: string)
    requires |d| > 0 && d[0] != '.'
    requires forall i :: 0 <= i < |d| ==> d[i] != '/'
    ensures Rooted(d, missionDir) == MarblePrefix + d
  {
  }

  /** A '.' path is re-rooted at the mission's directory. */
  lemma ResolveDotPath(rest: string, missionDir: string)
    requires forall i :: 0 <= i < |missionDir + rest| ==> (missionDir + rest)[i] != '\\'
    requires |missionDir + rest| == 0 || (missionDir + rest)[|missionDir + rest| - 1] != '"'
    ensures ResolvePath(Some("." + rest), missionDir) == Success(Some(missionDir + rest))
  {
    var p := "." + rest;
    assert TrimStartSlashes(p) == p;
    assert p[1..] == rest;
  }

  /** A resolved "marble/" path without a trailing quote resolves to
      itself: resolving is idempotent on the importer's own output. */
  lemma ResolvePathIdempotent(assetPath: string, missionDir: string)
    requires |assetPath| > 0
    requires ResolvePath(Some(assetPath), missionDir).Success?
    requires TrimStartSlashes(assetPath)[0] != '.'
    ensures var p := ResolvePath(Some(assetPath), missionDir).value.value;
            p[|p| - 1] != '"' ==> ResolvePath(Some(p), missionDir) == Success(Some(p))
  {
    var p := ResolvePath(Some(assetPath), missionDir).value.value;
    if p[|p| - 1] != '"' {
      ResolveCleanPath(p, missionDir);
    }
  }

  // ---------------------------------------------------------------------
  // Points, colours and polyhedra
  // ---------------------------------------------------------------------

  /** `ConvertPoint`: Torque's z-up (x, y, z) becomes Unity's (x, z, y); fewer
      than three numbers fail on the index. */
  function ConvertPoint(p: seq<real>): (r: Result<Vec3>)
    ensures r.Failure? <==> |p| < 3
    ensures r.Success? ==> r.value.x == p[0] && r.value.y == p[2] && r.value.z == p[1]
  {
    if |p| < 3 then Failure(IndexOutOfRange) else Success(Vec3(p[0], p[2], p[1]))
  }

  /** Swapping the axes twice gives back the original point. */
  lemma ConvertPointInvolution(p: seq<real>)
    requires |p| >= 3
    ensures var v := ConvertPoint(p).value;
            ConvertPoint([v.x, v.y, v.z]).value == Vec3(p[0], p[1], p[2])
  {
  }

  datatype Color = Color(r: real, g: real, b: real, a: real)

  const White := Color(1.0, 1.0, 1.0, 1.0)
  const Black := Color(0.0, 0.0, 0.0, 1.0)

  /** `ConvertColor`: white for a missing or short array; otherwise the RGB
      part divided by its largest component (when positive), alpha
      defaulting to 1. */
  function ConvertColor(rgba: Option<seq<real>>): (c: Color)
    ensures rgba.None? || |rgba.value| < 3 ==> c == White
    ensures rgba.Some? && |rgba.value| >= 3 ==> c.a == (if |rgba.value| > 3 then rgba.value[3] else 1.0)
    ensures rgba.Some? && |rgba.value| >= 3 && Max3(rgba.value[0], rgba.value[1], rgba.value[2]) > 0.0 ==>
              NormalisedFrom(c, rgba.value[0], rgba.value[1], rgba.value[2])
    ensures rgba.Some? && |rgba.value| >= 3 && Max3(rgba.value[0], rgba.value[1], rgba.value[2]) <= 0.0 ==>
              c.r == rgba.value[0] && c.g == rgba.value[1] && c.b == rgba.value[2]
  {
    if rgba.None? || |rgba.value| < 3 then White
    else
      var v := rgba.value;
      var a := if |v| > 3 then v[3] else 1.0;
      var intensity := Max3(v[0], v[1], v[2]);
      if intensity <= 0.0 then Color(v[0], v[1], v[2], a)
      else Normalised(v[0], v[1], v[2], a)
  }

  /** `c` is (x, y, z) scaled so that its largest component is 1. */
  predicate NormalisedFrom(c: Color, x: real, y: real, z: real) {
    var m := Max3(x, y, z);
    && Max3(c.r, c.g, c.b) == 1.0
    && c.r * m == x && c.g * m == y && c.b * m == z
  }

  /** The colour divided by its positive largest component. */
  function Normalised(x: real, y: real, z: real, a: real): (c: Color)
    requires Max3(x, y, z) > 0.0
    ensures NormalisedFrom(c, x, y, z) && c.a == a
  {
    NormalisedMax(x, y, z);
    var m := Max3(x, y, z);
    Color(x / m, y / m, z / m, a)
  }

  /** Dividing three numbers by their positive maximum makes the maximum 1. */
  lemma NormalisedMax(x: real, y: real, z: real)
    requires Max3(x, y, z) > 0.0
    ensures var m := Max3(x, y, z);
            && Max3(x / m, y / m, z / m) == 1.0
            && (x / m) * m == x && (y / m) * m == y && (z / m) * m == z
  {
    var m := Max3(x, y, z);
    DivMonotone(x, m);
    DivMonotone(y, m);
    DivMonotone(z, m);
  }

  lemma DivMonotone(x: real, m: real)
    requires m > 0.0 && x <= m
    ensures x / m <= 1.0 && (x == m ==> x / m == 1.0) && (x / m) * m == x
  {
  }

  /** `ConvertIntensity`: the largest RGB component (1 when not positive)
      times the scale; never zero for a positive scale. */
  function ConvertIntensity(c: Color, scale: real): (r: real)
    ensures Max3(c.r, c.g, c.b) > 0.0 ==> r == Max3(c.r, c.g, c.b) * scale
    ensures Max3(c.r, c.g, c.b) <= 0.0 ==> r == scale
    ensures scale > 0.0 ==> r > 0.0
  {
    var intensity := Max3(c.r, c.g, c.b);
    if intensity <= 0.0 then scale else intensity * scale
  }

  /** `ConvertAmbient`: black for a missing or short array, otherwise the
      RGB part as it is with alpha 1. */
  function ConvertAmbient(rgba: Option<seq<real>>): (c: Color)
    ensures rgba.None? || |rgba.value| < 3 ==> c == Black
    ensures rgba.Some? && |rgba.value| >= 3 ==>
              c == Color(rgba.value[0], rgba.value[1], rgba.value[2], 1.0)
    ensures c.a == 1.0
  {
    if rgba.None? || |rgba.value| < 3 then Black
    else Color(rgba.value[0], rgba.value[1], rgba.value[2], 1.0)
  }

  /** Ambient light keeps what `ConvertColor` divides out: scaling the
      converted colour back by the largest channel gives the ambient RGB,
      and without a positive channel the two agree. A missing or short
      array is white as a colour and black as ambient. */
  lemma AmbientIsUnnormalisedColor(rgba: Option<seq<real>>)
    ensures rgba.None? || |rgba.value| < 3 ==> ConvertColor(rgba) == White && ConvertAmbient(rgba) == Black
    ensures rgba.Some? && |rgba.value| >= 3 ==>
              var m := Max3(rgba.value[0], rgba.value[1], rgba.value[2]);
              var c := ConvertColor(rgba);
              var amb := ConvertAmbient(rgba);
              && (m > 0.0 ==> c.r * m == amb.r && c.g * m == amb.g && c.b * m == amb.b)
              && (m <= 0.0 ==> c.r == amb.r && c.g == amb.g && c.b == amb.b)
  {
    if rgba.Some? && |rgba.value| >= 3 {
      var v := rgba.value;
      var c := ConvertColor(rgba);
      var amb := ConvertAmbient(rgba);
      assert amb.r == v[0] && amb.g == v[1] && amb.b == v[2];
      if Max3(v[0], v[1], v[2]) > 0.0 {
        assert NormalisedFrom(c, v[0], v[1], v[2]);
      }
    }
  }

  /** The sun intensity scale of the importer. */
  const SunScale: real := 0.25

  /** The sun's intensity as the importer computes it: from the colour that
      `ConvertColor` has already normalised. */
  function SunIntensityAsWritten(rgba: Option<seq<real>>): real {
    ConvertIntensity(ConvertColor(rgba), SunScale)
  }

  /** Whatever the mission says, the sun gets intensity 0.25: normalisation
      has already divided the brightness out of the colour. */
  lemma SunIntensityIsConstant(rgba: Option<seq<real>>)
    ensures SunIntensityAsWritten(rgba) == SunScale
  {
    var c := ConvertColor(rgba);
    if rgba.Some? && |rgba.value| >= 3 && Max3(rgba.value[0], rgba.value[1], rgba.value[2]) > 0.0 {
      assert Max3(c.r, c.g, c.b) == 1.0;
    }
  }

  /** The evidently intended sun intensity: the brightness taken from the
      mission's colour before normalisation. */
  function SunIntensity(rgba: Option<seq<real>>): real {
    if rgba.None? || |rgba.value| < 3 then ConvertIntensity(White, SunScale)
    else ConvertIntensity(Color(rgba.value[0], rgba.value[1], rgba.value[2], 1.0), SunScale)
  }

  /** With the intended intensity, colour times intensity gives back the
      mission's RGB (scaled by 0.25): no brightness is lost. */
  lemma SunLightReconstructsColor(rgba: seq<real>)
    requires |rgba| >= 3 && Max3(rgba[0], rgba[1], rgba[2]) > 0.0
    ensures var c := ConvertColor(Some(rgba));
            var k := SunIntensity(Some(rgba));
            c.r * k == rgba[0] * SunScale && c.g * k == rgba[1] * SunScale && c.b * k == rgba[2] * SunScale
  {
    var m := Max3(rgba[0], rgba[1], rgba[2]);
    var c := ConvertColor(Some(rgba));
    var k := SunIntensity(Some(rgba));
    assert k == m * SunScale;
    assert c.r * k == (c.r * m) * SunScale;
    assert c.g * k == (c.g * m) * SunScale;
    assert c.b * k == (c.b * m) * SunScale;
  }

  /** The three edge vectors of a trigger polyhedron (origin, then three
      edges); anything but exactly twelve numbers throws. The box size is
      the edges' lengths, not modelled. */
  function PolyhedronEdges(p: Option<seq<real>>): (r: Result<(Vec3, Vec3, Vec3)>)
    ensures r.Failure? <==> p.None? || |p.value| != 12
    ensures r.Failure? ==> r.error.Argument?
    ensures r.Success? ==> r.value.0 == Vec3(p.value[3], p.value[4], p.value[5])
    ensures r.Success? ==> r.value.1 == Vec3(p.value[6], p.value[7], p.value[8])
    ensures r.Success? ==> r.value.2 == Vec3(p.value[9], p.value[10], p.value[11])
  {
    if p.None? || |p.value| != 12 then
      Failure(Argument("Polyhedron must be 12 floats: origin + 3 edge vectors"))
    else
      var v := p.value;
      Success((Vec3(v[3], v[4], v[5]), Vec3(v[6], v[7], v[8]), Vec3(v[9], v[10], v[11])))
  }

  /** The polyhedron's origin does not influence the box size. */
  lemma PolyhedronOriginIgnored(p: seq<real>, q: seq<real>)
    requires |p| == 12 && |q| == 12 && p[3..] == q[3..]
    ensures PolyhedronEdges(Some(p)) == PolyhedronEdges(Some(q))
  {
    assert forall i :: 3 <= i < 12 ==> p[i] == p[3..][i - 3] == q[3..][i - 3] == q[i];
  }

  // ---------------------------------------------------------------------
  // Object fields
  // ---------------------------------------------------------------------

  /** An ASCII lower-casing of one character. */
  function LowerChar(c: char): char {
    if 'A' <= c <= 'Z' then (c as int + 32) as char else c
  }

  function ToLower(s: string): (r: string)
    ensures |r| == |s| && forall i :: 0 <= i < |s| ==> r[i] == LowerChar(s[i])
  {
    seq(|s|, i requires 0 <= i < |s| => LowerChar(s[i]))
  }

  /** One `key = value;` slot of an object declaration; `isString` marks a
      quoted string atom, whose quotes are stripped. */
  datatype FieldSlot = FieldSlot(key: string, text: string, isString: bool)

  predicate WellQuoted(s: FieldSlot) {
    s.isString ==> |s.text| >= 2
  }

  function SlotValue(s: FieldSlot): string
    requires WellQuoted(s)
  {
    if s.isString then s.text[1..|s.text| - 1] else s.text
  }

  /** The (lower-cased key, unquoted value) pair of every slot. */
  ghost function SlotEntries(slots: seq<FieldSlot>): set<(string, string)>
    requires forall i :: 0 <= i < |slots| ==> WellQuoted(slots[i])
  {
    set i | 0 <= i < |slots| :: (ToLower(slots[i].key), SlotValue(slots[i]))
  }

  /** The field map `ProcessObject` builds: each slot stored under its
      lower-cased key, in order. No entry is invented: every one is some
      slot's lower-cased key with that slot's unquoted value, and there
      are at most as many entries as slots. */
  function Fields(slots: seq<FieldSlot>): (r: map<string, string>)
    requires forall i :: 0 <= i < |slots| ==> WellQuoted(slots[i])
    ensures |r| <= |slots|
    ensures forall k :: k in r ==> (k, r[k]) in SlotEntries(slots)
  {
    if |slots| == 0 then map[]
    else
      var last := slots[|slots| - 1];
      var init := slots[..|slots| - 1];
      assert forall i :: 0 <= i < |init| ==> init[i] == slots[i];
      SlotEntriesGrow(slots);
      Fields(init)[ToLower(last.key) := SlotValue(last)]
  }

  /** The entries of a prefix, plus the last slot's, are the slots'. */
  lemma SlotEntriesGrow(slots: seq<FieldSlot>)
    requires forall i :: 0 <= i < |slots| ==> WellQuoted(slots[i])
    requires |slots| > 0
    ensures var last := slots[|slots| - 1];
            SlotEntries(slots[..|slots| - 1]) + {(ToLower(last.key), SlotValue(last))} <= SlotEntries(slots)
  {
    var init := slots[..|slots| - 1];
    forall e | e in SlotEntries(init)
      ensures e in SlotEntries(slots)
    {
      var i :| 0 <= i < |init| && e == (ToLower(init[i].key), SlotValue(init[i]));
      assert init[i] == slots[i];
    }
    var n := |slots| - 1;
    assert (ToLower(slots[n].key), SlotValue(slots[n])) in SlotEntries(slots);
  }

  /** The map holds exactly the lower-cased keys of the slots. */
  lemma FieldsKeys(slots: seq<FieldSlot>)
    requires forall i :: 0 <= i < |slots| ==> WellQuoted(slots[i])
    ensures forall k :: k in Fields(slots) <==> exists i :: 0 <= i < |slots| && ToLower(slots[i].key) == k
  {
    var fields := Fields(slots);
    forall i | 0 <= i < |slots|
      ensures ToLower(slots[i].key) in fields
    {
      SlotKeyStored(slots, i);
    }
    forall k | k in fields
      ensures exists i :: 0 <= i < |slots| && ToLower(slots[i].key) == k
    {
      assert (k, fields[k]) in SlotEntries(slots);
      var i :| 0 <= i < |slots| && (k, fields[k]) == (ToLower(slots[i].key), SlotValue(slots[i]));
      assert ToLower(slots[i].key) == k;
    }
  }

  /** Every slot's lower-cased key is stored, whatever follows it. */
  lemma {:induction false} SlotKeyStored(slots: seq<FieldSlot>, i: nat)
    requires forall j :: 0 <= j < |slots| ==> WellQuoted(slots[j])
    requires i < |slots|
    ensures ToLower(slots[i].key) in Fields(slots)
    decreases |slots|
  {
    if i < |slots| - 1 {
      var init := slots[..|slots| - 1];
      assert init[i] == slots[i];
      SlotKeyStored(init, i);
    }
  }

  /** A repeated key keeps the value of its last slot: the slot with no
      later slot of the same key decides the value. */
  lemma {:induction false} FieldsLastWins(slots: seq<FieldSlot>, i: nat)
    requires forall j :: 0 <= j < |slots| ==> WellQuoted(slots[j])
    requires i < |slots|
    requires forall j :: i < j < |slots| ==> ToLower(slots[j].key) != ToLower(slots[i].key)
    ensures ToLower(slots[i].key) in Fields(slots)
    ensures Fields(slots)[ToLower(slots[i].key)] == SlotValue(slots[i])
  {
    var init := slots[..|slots| - 1];
    var key := ToLower(slots[i].key);
    if i == |slots| - 1 {
      FieldsLast(slots);
    } else {
      assert init[i] == slots[i];
      LaterKeysDifferInPrefix(slots, i);
      FieldsLastWins(init, i);
      FieldsKeepsEarlier(slots, key);
    }
  }

  /** The last slot's pair is stored. */
  lemma FieldsLast(slots: seq<FieldSlot>)
    requires forall j :: 0 <= j < |slots| ==> WellQuoted(slots[j])
    requires |slots| > 0
    ensures var last := slots[|slots| - 1];
            ToLower(last.key) in Fields(slots) && Fields(slots)[ToLower(last.key)] == SlotValue(last)
  {
  }

  /** A key other than the last slot's keeps its earlier value. */
  lemma FieldsKeepsEarlier(slots: seq<FieldSlot>, key: string)
    requires forall j :: 0 <= j < |slots| ==> WellQuoted(slots[j])
    requires |slots| > 0 && key != ToLower(slots[|slots| - 1].key)
    requires key in Fields(slots[..|slots| - 1])
    ensures key in Fields(slots) && Fields(slots)[key] == Fields(slots[..|slots| - 1])[key]
  {
  }

  /** Dropping the last slot keeps "no later slot has this key". */
  lemma LaterKeysDifferInPrefix(slots: seq<FieldSlot>, i: nat)
    requires i < |slots| - 1
    requires forall j :: i < j < |slots| ==> ToLower(slots[j].key) != ToLower(slots[i].key)
    ensures var init := slots[..|slots| - 1];
            && ToLower(slots[|slots| - 1].key) != ToLower(slots[i].key)
            && forall j :: i < j < |init| ==> ToLower(init[j].key) != ToLower(init[i].key)
  {
    var init := slots[..|slots| - 1];
    forall j | i < j < |init|
      ensures ToLower(init[j].key) != ToLower(init[i].key)
    {
      assert init[j] == slots[j];
    }
  }

  // ---------------------------------------------------------------------
  // Moving-platform decoding
  // ---------------------------------------------------------------------

  /** A path marker as read from the mission. */
  datatype Marker = Marker(seqNum: int, msToNext: int, smoothing: MovingPlatform.Smoothing)

  /** A filled sequence slot: which marker landed there and its duration. */
  datatype Entry = Entry(marker: nat, secondsToNext: real)

  /** The slot a marker is stored at: sequence numbers past the end go to
      the last slot. */
  function SlotOf(seqNum: int, count: nat): int {
    if seqNum >= count then count - 1 else seqNum
  }

  /** The marker loop of the importer: every marker is stored at its
      (clamped) sequence slot, later markers overwriting earlier ones; a
      negative sequence number fails the array store. */
  method SlotMarkers(markers: seq<Marker>) returns (r: Result<seq<Option<Entry>>>)
    ensures r.Failure? <==> exists i :: 0 <= i < |markers| && markers[i].seqNum < 0
    ensures r.Failure? ==> r.error == IndexOutOfRange
    ensures r.Success? ==> |r.value| == |markers|
    ensures r.Success? ==> forall s :: 0 <= s < |markers| ==>
              (r.value[s].None? <==> forall i :: 0 <= i < |markers| ==> SlotOf(markers[i].seqNum, |markers|) != s)
    ensures r.Success? ==> forall s :: 0 <= s < |markers| && r.value[s].Some? ==>
              var e := r.value[s].value;
              && e.marker < |markers|
              && SlotOf(markers[e.marker].seqNum, |markers|) == s
              && e.secondsToNext * 1000.0 == markers[e.marker].msToNext as real
              && forall j :: e.marker < j < |markers| ==> SlotOf(markers[j].seqNum, |markers|) != s
  {
    var count := |markers|;
    var slots: seq<Option<Entry>> := seq(count, _ => None);
    for i := 0 to count
      invariant |slots| == count
      invariant forall j :: 0 <= j < i ==> markers[j].seqNum >= 0
      invariant forall s :: 0 <= s < count ==>
                  (slots[s].None? <==> forall j :: 0 <= j < i ==> SlotOf(markers[j].seqNum, count) != s)
      invariant forall s :: 0 <= s < count && slots[s].Some? ==>
                  && slots[s].value.marker < i
                  && SlotOf(markers[slots[s].value.marker].seqNum, count) == s
                  && slots[s].value.secondsToNext * 1000.0 == markers[slots[s].value.marker].msToNext as real
                  && forall j :: slots[s].value.marker < j < i ==> SlotOf(markers[j].seqNum, count) != s
    {
      var m := markers[i];
      var slot := SlotOf(m.seqNum, count);
      if slot < 0 {
        return Failure(IndexOutOfRange);
      }
      slots := slots[slot := Some(Entry(i, m.msToNext as real / 1000.0))];
    }
    return Success(slots);
  }

  /** `GroupBy` / `OrderByDescending(Count)` / `First` on the markers'
      smoothing types: the most frequent type, ties going to the type seen
      first; no markers make `First` throw. */
  method MajoritySmoothing(types: seq<MovingPlatform.Smoothing>) returns (r: Result<MovingPlatform.Smoothing>)
    ensures r.Failure? <==> |types| == 0
    ensures r.Failure? ==> r.error == InvalidOperation
    ensures r.Success? ==> r.value in types
    ensures r.Success? ==> forall t :: multiset(types)[t] <= multiset(types)[r.value]
    ensures r.Success? ==> forall j :: 0 <= j < |types| && multiset(types)[types[j]] == multiset(types)[r.value] ==>
              exists i :: 0 <= i <= j && types[i] == r.value
  {
    if |types| == 0 {
      return Failure(InvalidOperation);
    }
    var counts := multiset(types);
    var best := types[0];
    ghost var first := 0;
    for i := 1 to |types|
      invariant first < i && types[first] == best
      invariant forall j :: 0 <= j < i ==> counts[types[j]] <= counts[best]
      invariant forall j :: 0 <= j < i && counts[types[j]] == counts[best] ==> first <= j
    {
      if counts[types[i]] > counts[best] {
        best := types[i];
        first := i;
      }
    }
    forall t
      ensures counts[t] <= counts[best]
    {
      if counts[t] > 0 {
        assert t in types;
        var j :| 0 <= j < |types| && types[j] == t;
      }
    }
    return Success(best);
  }

  /** `initialPosition`: milliseconds in the mission, seconds in the
      platform; an empty field means 0 and an unparsable one throws. */
  function DecodeInitialPosition(field: string, parsed: Option<int>): (r: Result<real>)
    ensures field == "" ==> r == Success(0.0)
    ensures field != "" && parsed.None? ==> r == Failure(Format)
    ensures field != "" && parsed.Some? ==> r.Success? && r.value * 1000.0 == parsed.value as real
  {
    if field == "" then Success(0.0)
    else if parsed.None? then Failure(Format)
    else Success(parsed.value as real / 1000.0)
  }

  /** What the importer writes for `initialTargetPosition` and the
      movement mode. */
  datatype TargetSetting = TargetSetting(initialTargetPosition: real, mode: MovingPlatform.Mode)

  /** Decoding of `initialTargetPosition`: empty means a triggered platform
      at 0; a non-negative value is a triggered target in milliseconds; a
      negative value selects a looping platform and is stored raw; an
      unparsable value changes nothing. */
  function DecodeTargetPosition(field: string, parsed: Option<int>, current: TargetSetting): (r: TargetSetting)
    ensures field == "" ==> r == TargetSetting(0.0, MovingPlatform.Triggered)
    ensures field != "" && parsed.None? ==> r == current
    ensures field != "" && parsed.Some? ==> (r.mode == MovingPlatform.Triggered <==> parsed.value >= 0)
    ensures field != "" && parsed.Some? && parsed.value >= 0 ==> r.initialTargetPosition * 1000.0 == parsed.value as real
    ensures field != "" && parsed.Some? && parsed.value < 0 ==> r.initialTargetPosition == parsed.value as real
  {
    if field == "" then TargetSetting(0.0, MovingPlatform.Triggered)
    else if parsed.None? then current
    else if parsed.value >= 0 then TargetSetting(parsed.value as real / 1000.0, MovingPlatform.Triggered)
    else TargetSetting(parsed.value as real, MovingPlatform.Constant)
  }

  /** Whatever the previous settings, a parsed field selects the mode by
      its sign alone, and the stored target carries that sign: a triggered
      target is never negative and a looping one always is. */
  lemma TargetSignSelectsMode(field: string, parsed: Option<int>, current: TargetSetting)
    requires field != "" && parsed.Some?
    ensures var r := DecodeTargetPosition(field, parsed, current);
            && (r.mode == MovingPlatform.Triggered <==> parsed.value >= 0)
            && (r.mode == MovingPlatform.Triggered <==> r.initialTargetPosition >= 0.0)
  {
  }
}

=== FILE: mission_info.dfy ===
/** The mission list: the fields read from a mission's `MissionInfo`
    object and the ordering of a difficulty's missions by level number. */
module MissionInfo {
  import opened Wrappers

  datatype Mission = Mission(
    missionName: string,
    levelName: string,
    description: string,
    startHelpText: string,
    levelNumber: int,
    artist: string,
    time: int,
    goldTime: int,
    ultimateTime: int)

  // ---------------------------------------------------------------------
  // Field decoding
  // ---------------------------------------------------------------------

  /** The par time: an unparsable or zero time both mean "no par time",
      stored as -1. */
  function ParTime(parsed: Option<int>): (t: int)
    ensures t != 0
    ensures parsed.Some? && parsed.value != 0 ==> t == parsed.value
    ensures parsed.None? || parsed.value == 0 ==> t == -1
  {
    if parsed.Some? && parsed.value != 0 then parsed.value else -1
  }

  /** The record built from a `MissionInfo` object; numeric fields arrive
      as `int.TryParse` results. The level number defaults to 0 and the
      gold and ultimate times to -1. */
  function ReadMission(missionName: string, name: string, desc: string, startHelpText: string, artist: string,
                       time: Option<int>, level: Option<int>, goldTime: Option<int>, ultimateTime: Option<int>): (m: Mission)
    ensures m.missionName == missionName && m.levelName == name && m.description == desc
    ensures m.startHelpText == startHelpText && m.artist == artist
    ensures m.time == ParTime(time)
    ensures m.levelNumber == level.GetOr(0)
    ensures m.goldTime == goldTime.GetOr(-1) && m.ultimateTime == ultimateTime.GetOr(-1)
  {
    Mission(missionName, name, desc, startHelpText, level.GetOr(0), artist, ParTime(time),
            goldTime.GetOr(-1), ultimateTime.GetOr(-1))
  }

  // ---------------------------------------------------------------------
  // Ordering by level number
  // ---------------------------------------------------------------------

  /** Mission `i` takes slot `levelNumber - 1`: its level number is within
      1..count and no earlier mission has claimed that slot. */
  predicate Placed(ms: seq<Mission>, i: int)
    requires 0 <= i < |ms|
  {
    && 1 <= ms[i].levelNumber <= |ms|
    && forall j :: 0 <= j < i ==> ms[j].levelNumber != ms[i].levelNumber
  }

  /** The missions among the first `n` that are not placed, in order. */
  function Unplaced(ms: seq<Mission>, n: nat): seq<Mission>
    requires n <= |ms|
  {
    if n == 0 then []
    else Unplaced(ms, n - 1) + (if Placed(ms, n - 1) then [] else [ms[n - 1]])
  }

  /** A mission whose level number does not parse reads as level 0, which
      asks for no slot: the sort never places it and it joins the
      missions set aside for the holes. */
  lemma UnparsedLevelNeverPlaced(ms: seq<Mission>, i: nat, missionName: string, name: string, desc: string,
                                 startHelpText: string, artist: string, time: Option<int>,
                                 goldTime: Option<int>, ultimateTime: Option<int>)
    requires i < |ms|
    requires ms[i] == ReadMission(missionName, name, desc, startHelpText, artist, time, None, goldTime, ultimateTime)
    ensures !Placed(ms, i)
    ensures ms[i] in Unplaced(ms, |ms|)
  {
    UnplacedContains(ms, i, |ms|);
  }

  /** A mission that is not placed is among the set-aside ones. */
  lemma {:induction false} UnplacedContains(ms: seq<Mission>, i: nat, n: nat)
    requires i < n <= |ms|
    requires !Placed(ms, i)
    ensures ms[i] in Unplaced(ms, n)
    decreases n
  {
    var u := Unplaced(ms, n - 1);
    if i == n - 1 {
      assert Unplaced(ms, n) == u + [ms[i]];
    } else {
      UnplacedContains(ms, i, n - 1);
      assert Unplaced(ms, n)[..|u|] == u;
    }
  }

  /** One of the first `n` missions asks for slot `s`. */
  predicate ClaimedBy(ms: seq<Mission>, s: int, n: int)
    requires n <= |ms|
  {
    exists j :: 0 <= j < n && ms[j].levelNumber == s + 1
  }

  /** The number of slots below `s` that no mission asks for. */
  function HoleRank(ms: seq<Mission>, s: nat): nat
    requires s <= |ms|
  {
    if s == 0 then 0 else HoleRank(ms, s - 1) + (if ClaimedBy(ms, s - 1, |ms|) then 0 else 1)
  }

  /** Empty slots in a partially filled array. */
  function NoneCount(xs: seq<Option<Mission>>): nat {
    if |xs| == 0 then 0 else (if xs[0].None? then 1 else 0) + NoneCount(xs[1..])
  }

  /** The missions in a partially filled array. */
  function Present(xs: seq<Option<Mission>>): multiset<Mission> {
    if |xs| == 0 then multiset{}
    else (if xs[0].Some? then multiset{xs[0].value} else multiset{}) + Present(xs[1..])
  }

  /** Filling an empty slot removes one hole and adds one mission. */
  lemma {:induction false} FillSlot(xs: seq<Option<Mission>>, s: nat, m: Mission)
    requires s < |xs| && xs[s].None?
    ensures NoneCount(xs[s := Some(m)]) + 1 == NoneCount(xs)
    ensures Present(xs[s := Some(m)]) == Present(xs) + multiset{m}
  {
    if s > 0 {
      FillSlot(xs[1..], s - 1, m);
      assert xs[s := Some(m)][1..] == xs[1..][s - 1 := Some(m)];
    }
  }

  /** Without holes, the present missions are the array's values. */
  lemma {:induction false} PresentOfFull(xs: seq<Option<Mission>>)
    requires forall s :: 0 <= s < |xs| ==> xs[s].Some?
    ensures Present(xs) == multiset(seq(|xs|, s requires 0 <= s < |xs| => xs[s].value))
  {
    var vs := seq(|xs|, s requires 0 <= s < |xs| => xs[s].value);
    if |xs| > 0 {
      PresentOfFull(xs[1..]);
      var rest := seq(|xs| - 1, s requires 0 <= s < |xs| - 1 => xs[1..][s].value);
      assert vs == [xs[0].value] + rest;
    }
  }

  lemma NoneCountSplit(xs: seq<Option<Mission>>, i: nat)
    requires i < |xs|
    ensures NoneCount(xs[i..]) == (if xs[i].None? then 1 else 0) + NoneCount(xs[i + 1..])
  {
    assert xs[i..][1..] == xs[i + 1..];
  }

  /** A slot-indexed array with no missions in it. */
  lemma EmptySlots(count: nat)
    ensures var xs := seq(count, _ => None);
            NoneCount(xs) == count && Present(xs) == multiset{}
  {
    var xs: seq<Option<Mission>> := seq(count, _ => None);
    if count > 0 {
      EmptySlots(count - 1);
      assert xs[1..] == seq(count - 1, _ => None);
    }
  }

  /** `SortMissionsByLevelNumber`: every mission whose level number is in
      1..count and not taken by an earlier mission goes to slot
      `levelNumber - 1`; the others fill the remaining slots from the front,
      in their original order. The result is a rearrangement of the input. */
  method SortByLevelNumber(ms: seq<Mission>) returns (sorted: seq<Mission>)
    ensures |ms| == 0 ==> sorted == ms
    ensures |sorted| == |ms|
    ensures multiset(sorted) == multiset(ms)
    ensures forall i :: 0 <= i < |ms| && Placed(ms, i) ==> sorted[ms[i].levelNumber - 1] == ms[i]
    ensures forall s :: 0 <= s < |ms| && !ClaimedBy(ms, s, |ms|) ==>
              HoleRank(ms, s) < |Unplaced(ms, |ms|)| && sorted[s] == Unplaced(ms, |ms|)[HoleRank(ms, s)]
  {
    if |ms| == 0 {
      return ms;
    }
    var slots, unsorted := Assign(ms);
    sorted := Fill(ms, slots, unsorted);
  }

  /** What the first pass has built after `i` missions. */
  ghost predicate Assigned(ms: seq<Mission>, i: nat, slots: seq<Option<Mission>>, unsorted: seq<Mission>)
    requires i <= |ms|
  {
    && |slots| == |ms|
    && unsorted == Unplaced(ms, i)
    && (forall s :: 0 <= s < |ms| ==> (slots[s].Some? <==> ClaimedBy(ms, s, i)))
    && (forall j :: 0 <= j < i && Placed(ms, j) ==> slots[ms[j].levelNumber - 1] == Some(ms[j]))
    && NoneCount(slots) + i == |ms| + |unsorted|
    && Present(slots) + multiset(unsorted) == multiset(ms[..i])
  }

  /** Mission `i` asks for slot `s` exactly when `s` was free or it is the
      first to ask. */
  lemma ClaimedStep(ms: seq<Mission>, i: nat)
    requires i < |ms|
    ensures forall s :: ClaimedBy(ms, s, i + 1) <==> ClaimedBy(ms, s, i) || ms[i].levelNumber == s + 1
  {
    forall s
      ensures ClaimedBy(ms, s, i + 1) <==> ClaimedBy(ms, s, i) || ms[i].levelNumber == s + 1
    {
      if ClaimedBy(ms, s, i + 1) && !ClaimedBy(ms, s, i) {
        var j :| 0 <= j < i + 1 && ms[j].levelNumber == s + 1;
        assert j == i;
      }
      if ms[i].levelNumber == s + 1 {
        assert 0 <= i < i + 1 && ms[i].levelNumber == s + 1;
      }
    }
  }

  /** With the slots as the first pass keeps them, mission `i` is placed
      exactly when its slot exists and is still free. */
  lemma PlacedWhenFree(ms: seq<Mission>, i: nat, slots: seq<Option<Mission>>)
    requires i < |ms| && |slots| == |ms|
    requires forall s :: 0 <= s < |ms| ==> (slots[s].Some? <==> ClaimedBy(ms, s, i))
    ensures Placed(ms, i) <==> 1 <= ms[i].levelNumber <= |ms| && slots[ms[i].levelNumber - 1].None?
  {
    var level := ms[i].levelNumber;
    if 1 <= level <= |ms| && slots[level - 1].Some? {
      assert ClaimedBy(ms, level - 1, i);
      var j :| 0 <= j < i && ms[j].levelNumber == level;
    }
  }

  /** Before the first pass, every slot is free. */
  lemma AssignStart(ms: seq<Mission>)
    ensures Assigned(ms, 0, seq(|ms|, _ => None), [])
  {
    EmptySlots(|ms|);
    assert ms[..0] == [];
  }

  /** A mission whose slot is out of range or taken leaves the filled
      slots exactly the claimed ones. */
  lemma SkipKeepsClaims(ms: seq<Mission>, i: nat, slots: seq<Option<Mission>>)
    requires i < |ms| && |slots| == |ms|
    requires var level := ms[i].levelNumber; level < 1 || level > |ms| || slots[level - 1].Some?
    requires forall s :: 0 <= s < |ms| ==> (slots[s].Some? <==> ClaimedBy(ms, s, i))
    ensures forall s :: 0 <= s < |ms| ==> (slots[s].Some? <==> ClaimedBy(ms, s, i + 1))
  {
    ClaimedStep(ms, i);
    forall s | 0 <= s < |ms|
      ensures slots[s].Some? <==> ClaimedBy(ms, s, i + 1)
    {
      if ms[i].levelNumber == s + 1 {
        assert slots[s].Some?;
      }
    }
  }

  /** A skipped mission joins the missions present or unsorted. */
  lemma SkipKeepsCounts(ms: seq<Mission>, i: nat, slots: seq<Option<Mission>>, unsorted: seq<Mission>)
    requires i < |ms|
    requires NoneCount(slots) + i == |ms| + |unsorted|
    requires Present(slots) + multiset(unsorted) == multiset(ms[..i])
    ensures NoneCount(slots) + (i + 1) == |ms| + |unsorted + [ms[i]]|
    ensures Present(slots) + multiset(unsorted + [ms[i]]) == multiset(ms[..i + 1])
  {
    assert ms[..i + 1] == ms[..i] + [ms[i]];
  }

  /** A mission whose slot is out of range or taken joins the unsorted
      list. */
  lemma AssignSkip(ms: seq<Mission>, i: nat, slots: seq<Option<Mission>>, unsorted: seq<Mission>)
    requires i < |ms| && Assigned(ms, i, slots, unsorted)
    requires var level := ms[i].levelNumber; level < 1 || level > |ms| || slots[level - 1].Some?
    ensures Assigned(ms, i + 1, slots, unsorted + [ms[i]])
  {
    PlacedWhenFree(ms, i, slots);
    assert Unplaced(ms, i + 1) == unsorted + [ms[i]];
    SkipKeepsClaims(ms, i, slots);
    SkipKeepsCounts(ms, i, slots, unsorted);
  }

  /** Filling mission `i`'s free slot keeps the filled slots exactly the
      claimed ones. */
  lemma PlaceKeepsClaims(ms: seq<Mission>, i: nat, slots: seq<Option<Mission>>)
    requires i < |ms| && |slots| == |ms| && 1 <= ms[i].levelNumber <= |ms|
    requires forall s :: 0 <= s < |ms| ==> (slots[s].Some? <==> ClaimedBy(ms, s, i))
    ensures var next := slots[ms[i].levelNumber - 1 := Some(ms[i])];
            forall s :: 0 <= s < |ms| ==> (next[s].Some? <==> ClaimedBy(ms, s, i + 1))
  {
    ClaimedStep(ms, i);
  }

  /** Filling mission `i`'s free slot keeps every earlier placed mission
      in its slot and puts mission `i` in its own. */
  lemma PlaceKeepsPlaced(ms: seq<Mission>, i: nat, slots: seq<Option<Mission>>)
    requires i < |ms| && |slots| == |ms| && 1 <= ms[i].levelNumber <= |ms|
    requires slots[ms[i].levelNumber - 1].None?
    requires forall j :: 0 <= j < i && Placed(ms, j) ==> slots[ms[j].levelNumber - 1] == Some(ms[j])
    ensures var next := slots[ms[i].levelNumber - 1 := Some(ms[i])];
            forall j :: 0 <= j < i + 1 && Placed(ms, j) ==> next[ms[j].levelNumber - 1] == Some(ms[j])
  {
    var level := ms[i].levelNumber;
    var next := slots[level - 1 := Some(ms[i])];
    forall j | 0 <= j < i + 1 && Placed(ms, j)
      ensures next[ms[j].levelNumber - 1] == Some(ms[j])
    {
      if j < i {
        assert ms[j].levelNumber != level;
      }
    }
  }

  /** Filling mission `i`'s free slot keeps the hole count and the
      missions present in step with the missions seen. */
  lemma PlaceKeepsCounts(ms: seq<Mission>, i: nat, slots: seq<Option<Mission>>, unsorted: seq<Mission>)
    requires i < |ms| && |slots| == |ms| && 1 <= ms[i].levelNumber <= |ms|
    requires slots[ms[i].levelNumber - 1].None?
    requires NoneCount(slots) + i == |ms| + |unsorted|
    requires Present(slots) + multiset(unsorted) == multiset(ms[..i])
    ensures var next := slots[ms[i].levelNumber - 1 := Some(ms[i])];
            && NoneCount(next) + (i + 1) == |ms| + |unsorted|
            && Present(next) + multiset(unsorted) == multiset(ms[..i + 1])
  {
    FillSlot(slots, ms[i].levelNumber - 1, ms[i]);
    assert ms[..i + 1] == ms[..i] + [ms[i]];
  }

  /** A placed mission fills its free slot. */
  lemma AssignPlace(ms: seq<Mission>, i: nat, slots: seq<Option<Mission>>, unsorted: seq<Mission>)
    requires i < |ms| && Assigned(ms, i, slots, unsorted)
    requires var level := ms[i].levelNumber; 1 <= level <= |ms| && slots[level - 1].None?
    ensures Assigned(ms, i + 1, slots[ms[i].levelNumber - 1 := Some(ms[i])], unsorted)
  {
    PlacedWhenFree(ms, i, slots);
    assert Unplaced(ms, i + 1) == unsorted;
    PlaceKeepsClaims(ms, i, slots);
    PlaceKeepsPlaced(ms, i, slots);
    PlaceKeepsCounts(ms, i, slots, unsorted);
  }

  /** The first pass: placed missions go to their slots, the rest to the
      unsorted list. */
  method Assign(ms: seq<Mission>) returns (slots: seq<Option<Mission>>, unsorted: seq<Mission>)
    ensures |slots| == |ms|
    ensures unsorted == Unplaced(ms, |ms|)
    ensures forall s :: 0 <= s < |ms| ==> (slots[s].Some? <==> ClaimedBy(ms, s, |ms|))
    ensures forall j :: 0 <= j < |ms| && Placed(ms, j) ==> slots[ms[j].levelNumber - 1] == Some(ms[j])
    ensures NoneCount(slots) == |unsorted|
    ensures Present(slots) + multiset(unsorted) == multiset(ms)
  {
    var count := |ms|;
    slots := seq(count, _ => None);
    unsorted := [];
    AssignStart(ms);
    for i := 0 to count
      invariant Assigned(ms, i, slots, unsorted)
    {
      slots, unsorted := AssignStep(ms, i, slots, unsorted);
    }
    AssignEnd(ms, slots, unsorted);
  }

  /** One mission of the first pass: placed in its free slot, or set aside. */
  method AssignStep(ms: seq<Mission>, i: nat, slots: seq<Option<Mission>>, unsorted: seq<Mission>)
    returns (slots': seq<Option<Mission>>, unsorted': seq<Mission>)
    requires i < |ms| && Assigned(ms, i, slots, unsorted)
    ensures Assigned(ms, i + 1, slots', unsorted')
  {
    var level := ms[i].levelNumber;
    if level < 1 || level > |ms| || slots[level - 1].Some? {
      AssignSkip(ms, i, slots, unsorted);
      slots', unsorted' := slots, unsorted + [ms[i]];
    } else {
      AssignPlace(ms, i, slots, unsorted);
      slots', unsorted' := slots[level - 1 := Some(ms[i])], unsorted;
    }
  }

  /** After all missions, the first pass's state is what `Assign` promises. */
  lemma AssignEnd(ms: seq<Mission>, slots: seq<Option<Mission>>, unsorted: seq<Mission>)
    requires Assigned(ms, |ms|, slots, unsorted)
    ensures |slots| == |ms|
    ensures unsorted == Unplaced(ms, |ms|)
    ensures forall s :: 0 <= s < |ms| ==> (slots[s].Some? <==> ClaimedBy(ms, s, |ms|))
    ensures forall j :: 0 <= j < |ms| && Placed(ms, j) ==> slots[ms[j].levelNumber - 1] == Some(ms[j])
    ensures NoneCount(slots) == |unsorted|
    ensures Present(slots) + multiset(unsorted) == multiset(ms)
  {
    assert ms[..|ms|] == ms;
  }

  /** What the second pass has built after `i` slots, `k` holes filled. */
  ghost predicate Filled(ms: seq<Mission>, slots: seq<Option<Mission>>, unsorted: seq<Mission>,
                         i: nat, k: nat, cur: seq<Option<Mission>>)
    requires |slots| == |ms| && i <= |ms|
  {
    && |cur| == |ms|
    && k == HoleRank(ms, i) && k <= |unsorted|
    && (forall s :: i <= s < |ms| ==> cur[s] == slots[s])
    && (forall s :: 0 <= s < i ==> cur[s].Some?)
    && (forall s :: 0 <= s < i && slots[s].Some? ==> cur[s] == slots[s])
    && (forall s :: 0 <= s < i && slots[s].None? ==>
          HoleRank(ms, s) < |unsorted| && cur[s] == Some(unsorted[HoleRank(ms, s)]))
    && NoneCount(cur[i..]) == |unsorted| - k
    && Present(cur) + multiset(unsorted[k..]) == Present(slots) + multiset(unsorted)
  }

  /** A claimed slot is passed over. */
  lemma FillKeep(ms: seq<Mission>, slots: seq<Option<Mission>>, unsorted: seq<Mission>,
                 i: nat, k: nat, cur: seq<Option<Mission>>)
    requires |slots| == |ms| && i < |ms|
    requires forall s :: 0 <= s < |ms| ==> (slots[s].Some? <==> ClaimedBy(ms, s, |ms|))
    requires Filled(ms, slots, unsorted, i, k, cur) && cur[i].Some?
    ensures Filled(ms, slots, unsorted, i + 1, k, cur)
  {
    NoneCountSplit(cur, i);
    assert slots[i].Some?;
    assert HoleRank(ms, i + 1) == k;
  }

  /** A hole takes the next unsorted mission. */
  lemma FillHole(ms: seq<Mission>, slots: seq<Option<Mission>>, unsorted: seq<Mission>,
                 i: nat, k: nat, cur: seq<Option<Mission>>)
    requires |slots| == |ms| && i < |ms|
    requires forall s :: 0 <= s < |ms| ==> (slots[s].Some? <==> ClaimedBy(ms, s, |ms|))
    requires Filled(ms, slots, unsorted, i, k, cur) && cur[i].None?
    ensures k < |unsorted| && Filled(ms, slots, unsorted, i + 1, k + 1, cur[i := Some(unsorted[k])])
  {
    NoneCountSplit(cur, i);
    assert slots[i].None?;
    assert HoleRank(ms, i + 1) == k + 1;
    var next := cur[i := Some(unsorted[k])];
    assert unsorted[k..] == [unsorted[k]] + unsorted[k + 1..];
    FillSlot(cur, i, unsorted[k]);
    assert next[i + 1..] == cur[i + 1..];
    assert Present(next) + multiset(unsorted[k + 1..]) == Present(cur) + multiset(unsorted[k..]);
    forall s | 0 <= s < i + 1 && slots[s].None?
      ensures HoleRank(ms, s) < |unsorted| && next[s] == Some(unsorted[HoleRank(ms, s)])
    {
      if s == i {
        assert HoleRank(ms, s) == k;
      } else {
        assert next[s] == cur[s];
      }
    }
    forall s | 0 <= s < i + 1 && slots[s].Some?
      ensures next[s] == slots[s]
    {
      assert s != i;
    }
  }

  /** The second pass: the holes, from the front, take the unsorted
      missions in order. */
  method Fill(ms: seq<Mission>, slots: seq<Option<Mission>>, unsorted: seq<Mission>) returns (sorted: seq<Mission>)
    requires |slots| == |ms|
    requires forall s :: 0 <= s < |ms| ==> (slots[s].Some? <==> ClaimedBy(ms, s, |ms|))
    requires NoneCount(slots) == |unsorted|
    ensures |sorted| == |ms|
    ensures multiset(sorted) == Present(slots) + multiset(unsorted)
    ensures forall s :: 0 <= s < |ms| && slots[s].Some? ==> sorted[s] == slots[s].value
    ensures forall s :: 0 <= s < |ms| && slots[s].None? ==>
              HoleRank(ms, s) < |unsorted| && sorted[s] == unsorted[HoleRank(ms, s)]
  {
    var count := |ms|;
    var cur := slots;
    var k := 0;
    assert slots[0..] == slots;
    for i := 0 to count
      invariant Filled(ms, slots, unsorted, i, k, cur)
    {
      if cur[i].None? {
        FillHole(ms, slots, unsorted, i, k, cur);
        cur := cur[i := Some(unsorted[k])];
        k := k + 1;
      } else {
        FillKeep(ms, slots, unsorted, i, k, cur);
      }
    }
    assert unsorted[k..] == [];
    PresentOfFull(cur);
    sorted := seq(count, s requires 0 <= s < count => cur[s].value);
  }
}

=== FILE: movement.dfy ===
/** The discrete decision logic of the marble controller (`Movement`): the
    fixed-step scheduler, the sweep clamp, the proximity tests' penetration
    rule, the single-contact filter, the cached mesh transform, the input
    clamp, the jump and bounce-floor gates, the resting-contact cancel and the
    integration guard. Vector lengths are supplied by the caller together with
    the fact that they square to the squared length. */
module Movement {
  import opened Wrappers
  import opened Vectors

  /** The fixed physics slice: 5 ms. */
  const StepSize: real := 0.005

  /** The tunable physical parameters that surface materials and power-ups
      overwrite. */
  datatype Tunables = Tunables(
    gravity: real,
    staticFriction: real,
    kineticFriction: real,
    bounceRestitution: real,
    bounce: real)

  /** The inspector defaults of `Movement`. */
  const DefaultTunables := Tunables(20.0, 1.1, 0.7, 0.5, 0.0)

  // ---------------------------------------------------------------------
  // Fixed-step scheduler
  // ---------------------------------------------------------------------

  /** Total time consumed by the first `k` slices. */
  function SliceSum(slice: nat -> real, k: nat): real {
    if k == 0 then 0.0 else SliceSum(slice, k - 1) + slice(k - 1)
  }

  /** `FixedUpdate`: the frame time is added to the bank and drained in
      slices of at most 5 ms; `slice(k)` is the time the k-th
      `AdvancePhysics` call actually consumed (the sweep clamp may shorten
      it, never lengthen it). Termination needs a positive lower bound on the
      consumed slices. */
  method FixedUpdate(remaining: real, frameDt: real, slice: nat -> real, minSlice: real)
    returns (left: real, steps: nat)
    requires 0.0 < minSlice
    requires forall k :: minSlice <= slice(k) <= StepSize
    ensures left < StepSize
    ensures left == remaining + frameDt - SliceSum(slice, steps)
    ensures steps == 0 <==> remaining + frameDt < StepSize
    ensures remaining + frameDt >= 0.0 ==> left >= 0.0
  {
    var bank := remaining + frameDt;
    left := bank;
    steps := 0;
    ghost var fuel: nat := if bank <= 0.0 then 0 else (bank / minSlice).Floor + 1;
    if bank > 0.0 {
      FuelSuffices(bank, minSlice);
    }
    while left >= StepSize
      invariant left == bank - SliceSum(slice, steps)
      invariant steps == 0 ==> left == bank
      invariant steps > 0 ==> left >= 0.0 && bank >= StepSize
      invariant left > 0.0 ==> left < fuel as real * minSlice
      decreases fuel
    {
      var consumed := slice(steps);
      FuelStep(left, consumed, fuel, minSlice);
      left := left - consumed;
      steps := steps + 1;
      fuel := fuel - 1;
    }
  }

  /** The bank is less than (bank / m).Floor + 1 slices of length m. */
  lemma FuelSuffices(bank: real, m: real)
    requires bank > 0.0 && m > 0.0
    ensures bank < ((bank / m).Floor + 1) as real * m
  {
    var q := bank / m;
    var f := (q.Floor + 1) as real;
    assert f > q;
    assert (f - q) * m > 0.0;
    assert q * m == bank;
  }

  /** Consuming at least `m` from a positive amount below `fuel` slices of
      length `m` leaves less than `fuel - 1` slices. */
  lemma FuelStep(left: real, consumed: real, fuel: nat, m: real)
    requires m > 0.0 && consumed >= m
    requires left > 0.0 && left < fuel as real * m
    ensures fuel >= 1
    ensures left - consumed < (fuel - 1) as real * m
  {
    assert (fuel - 1) as real * m == fuel as real * m - m;
  }

  /** Without sweep hits every slice is exactly 5 ms: the bank is drained to
      below one slice and `steps` full slices are consumed. */
  lemma {:induction false} FullSlicesSum(slice: nat -> real, k: nat)
    requires forall j :: slice(j) == StepSize
    ensures SliceSum(slice, k) == k as real * StepSize
  {
    if k > 0 {
      FullSlicesSum(slice, k - 1);
    }
  }

  // ---------------------------------------------------------------------
  // Sweep clamp
  // ---------------------------------------------------------------------

  /** The early sweep of `AdvancePhysics`: attempted only when the distance
      travelled this slice exceeds the radius; a hit at distance `hit` (as
      the engine's sphere cast reports it, at most the travel distance)
      shortens the slice to the time of impact. */
  function SweepSlice(dt: real, speed: real, radius: real, hit: Option<real>): (r: real)
    requires dt > 0.0 && speed >= 0.0 && radius > 0.0
    requires hit.Some? ==> 0.0 <= hit.value <= speed * dt
    ensures 0.0 <= r <= dt
    ensures speed * dt <= radius || hit.None? ==> r == dt
    ensures speed * dt > radius && hit.Some? ==> r * speed == hit.value
    ensures hit.Some? && hit.value > 0.0 ==> r > 0.0
  {
    var travel := speed * dt;
    if travel > radius && hit.Some? then
      var travelTime := hit.value / speed;
      Min(dt, travelTime)
    else
      dt
  }

  // ---------------------------------------------------------------------
  // Proximity tests
  // ---------------------------------------------------------------------

  /** The penetration rule shared by the face, edge and vertex tests:
      `diff` runs from the closest surface point to the centre, `dist` is
      its length. A contact is added iff the squared distance is within the
      radius and `radius - dist` is positive. */
  function Penetration(diff: Vec3, dist: real, radius: real): (r: Option<real>)
    requires dist >= 0.0 && dist * dist == SqrMagnitude(diff)
    requires radius > 0.0
    ensures r.Some? <==> dist < radius
    ensures r.Some? ==> 0.0 < r.value <= radius && r.value + dist == radius
  {
    if SqrMagnitude(diff) <= radius * radius && radius - dist > 0.0 then Some(radius - dist) else None
  }

  /** The face test additionally requires the centre to lie on the front
      side of the triangle. */
  function FacePenetration(diff: Vec3, dist: real, radius: real, faceNormal: Vec3): (r: Option<real>)
    requires dist >= 0.0 && dist * dist == SqrMagnitude(diff)
    requires radius > 0.0
    ensures r.Some? <==> dist < radius && Dot(diff, faceNormal) >= 0.0
    ensures r.Some? ==> 0.0 < r.value <= radius
  {
    assert dist < radius ==> dist * dist <= radius * radius by {
      if dist < radius {
        assert dist * dist <= dist * radius <= radius * radius;
      }
    }
    if SqrMagnitude(diff) <= radius * radius && Dot(diff, faceNormal) >= 0.0 then
      Penetration(diff, dist, radius)
    else
      None
  }

  /** `Mathf.Clamp01`. */
  function Clamp01(t: real): (r: real)
    ensures 0.0 <= r <= 1.0
  {
    Clamp(t, 0.0, 1.0)
  }

  /** The closest point of `TestEdge`: the projection of the centre onto the
      edge, clamped to its end points. A zero-length edge makes the float
      division NaN, and a NaN distance never passes the radius test, so no
      contact is produced. */
  function EdgeClosest(center: Vec3, a: Vec3, b: Vec3): (r: Option<Vec3>)
    ensures r.None? <==> SqrMagnitude(Sub(b, a)) == 0.0
    ensures r.Some? ==> exists t :: 0.0 <= t <= 1.0 && r.value == Add(a, Scale(Sub(b, a), t))
  {
    var ab := Sub(b, a);
    if SqrMagnitude(ab) == 0.0 then None
    else
      var t := Clamp01(Dot(Sub(center, a), ab) / SqrMagnitude(ab));
      assert 0.0 <= t <= 1.0 && Add(a, Scale(ab, t)) == Add(a, Scale(Sub(b, a), t));
      Some(Add(a, Scale(ab, t)))
  }

  /** The edge's clamped projection is the point of the segment nearest to
      the centre. */
  lemma EdgeClosestIsNearest(center: Vec3, a: Vec3, b: Vec3, s: real)
    requires SqrMagnitude(Sub(b, a)) != 0.0
    requires 0.0 <= s <= 1.0
    ensures var c := EdgeClosest(center, a, b).value;
            SqrMagnitude(Sub(center, c)) <= SqrMagnitude(Sub(center, Add(a, Scale(Sub(b, a), s))))
  {
    var ab := Sub(b, a);
    var w := Sub(center, a);
    var t := Clamp01(Dot(w, ab) / SqrMagnitude(ab));
    assert Sub(center, Add(a, Scale(ab, t))) == Sub(w, Scale(ab, t));
    assert Sub(center, Add(a, Scale(ab, s))) == Sub(w, Scale(ab, s));
    NearestOnSegment(w, ab, s);
  }

  /** The same in coordinates relative to the edge's start `a`. */
  lemma NearestOnSegment(w: Vec3, ab: Vec3, s: real)
    requires SqrMagnitude(ab) != 0.0
    requires 0.0 <= s <= 1.0
    ensures SqrMagnitude(Sub(w, Scale(ab, Clamp01(Dot(w, ab) / SqrMagnitude(ab)))))
            <= SqrMagnitude(Sub(w, Scale(ab, s)))
  {
    SqrMagnitudeNonNegative(ab);
    SegmentDistance(w, ab, Clamp01(Dot(w, ab) / SqrMagnitude(ab)));
    SegmentDistance(w, ab, s);
    ClampedVertexIsMinimum(SqrMagnitude(ab), Dot(w, ab), s);
  }

  /** |w - ab*u|^2 expands to |w|^2 - 2u (w.ab) + u^2 |ab|^2. */
  lemma SegmentDistance(w: Vec3, ab: Vec3, u: real)
    ensures SqrMagnitude(Sub(w, Scale(ab, u))) == SqrMagnitude(w) + (u * u * SqrMagnitude(ab) - 2.0 * u * Dot(w, ab))
  {
    assert (w.x - ab.x * u) * (w.x - ab.x * u) == w.x * w.x - 2.0 * u * (w.x * ab.x) + u * u * (ab.x * ab.x);
    assert (w.y - ab.y * u) * (w.y - ab.y * u) == w.y * w.y - 2.0 * u * (w.y * ab.y) + u * u * (ab.y * ab.y);
    assert (w.z - ab.z * u) * (w.z - ab.z * u) == w.z * w.z - 2.0 * u * (w.z * ab.z) + u * u * (ab.z * ab.z);
  }

  /** Over [0, 1] the parabola u^2 L - 2 u p (L > 0) is smallest at its
      vertex p / L clamped to the interval. */
  lemma ClampedVertexIsMinimum(L: real, p: real, s: real)
    requires L > 0.0 && 0.0 <= s <= 1.0
    ensures var t := Clamp01(p / L);
            t * t * L - 2.0 * t * p <= s * s * L - 2.0 * s * p
  {
    var t0 := p / L;
    var t := Clamp01(t0);
    assert p == t0 * L;
    assert t * t * L - 2.0 * t * p == L * ((t - t0) * (t - t0) - t0 * t0);
    assert s * s * L - 2.0 * s * p == L * ((s - t0) * (s - t0) - t0 * t0);
    if t0 < 0.0 {
      SquareMonotone(t0 - t, t0 - s);
    } else if t0 > 1.0 {
      SquareMonotone(t0 - t, t0 - s);
    } else {
      assert t == t0;
    }
    assert (t - t0) * (t - t0) <= (s - t0) * (s - t0);
    assert L * ((s - t0) * (s - t0) - (t - t0) * (t - t0)) >= 0.0;
  }

  /** Squares grow with the distance from zero. */
  lemma SquareMonotone(x: real, y: real)
    requires x < 0.0 ==> y <= x
    requires x >= 0.0 ==> y >= x
    ensures x * x <= y * y
  {
    if x >= 0.0 {
      assert x * x <= x * y <= y * y;
    } else {
      assert x * x <= x * y <= y * y;
    }
  }

  // ---------------------------------------------------------------------
  // Contact filtering
  // ---------------------------------------------------------------------

  /** A candidate contact: point, unit normal, penetration depth, material
      restitution and friction, and the velocity of the touched surface. */
  datatype Contact = Contact(
    point: Vec3,
    normal: Vec3,
    penetration: real,
    restitution: real,
    friction: real,
    velocity: Vec3)

  /** The first element with the greatest score: the strict comparison of
      the scan keeps the earliest of equal scores. */
  method FirstMax<T>(xs: seq<T>, score: T -> real) returns (k: nat)
    requires |xs| > 0
    ensures k < |xs|
    ensures forall j :: 0 <= j < |xs| ==> score(xs[j]) <= score(xs[k])
    ensures forall j :: 0 <= j < k ==> score(xs[j]) < score(xs[k])
  {
    k := 0;
    var i := 1;
    while i < |xs|
      invariant 1 <= i <= |xs|
      invariant k < i
      invariant forall j :: 0 <= j < i ==> score(xs[j]) <= score(xs[k])
      invariant forall j :: 0 <= j < k ==> score(xs[j]) < score(xs[k])
    {
      if score(xs[i]) > score(xs[k]) {
        k := i;
      }
      i := i + 1;
    }
  }

  function Depth(c: Contact): real {
    c.penetration
  }

  /** Contact filtering of `AdvancePhysics`: `isColliding` records whether
      any candidate was found; more than one candidate is reduced to the
      first deepest, and the up-alignment pass over the remaining single
      contact keeps it. */
  method FilterContacts(cs: seq<Contact>, up: Vec3) returns (isColliding: bool, kept: seq<Contact>)
    ensures isColliding <==> |cs| > 0
    ensures |kept| <= 1
    ensures |kept| == 1 <==> |cs| > 0
    ensures |cs| > 0 ==> exists k :: 0 <= k < |cs| && kept[0] == cs[k]
                                     && (forall j :: 0 <= j < k ==> cs[j].penetration < cs[k].penetration)
    ensures |cs| > 0 ==> forall j :: 0 <= j < |cs| ==> cs[j].penetration <= kept[0].penetration
  {
    isColliding := |cs| > 0;
    kept := cs;
    ghost var chosen := 0;
    if |kept| > 1 {
      var deepest := FirstMax(kept, Depth);
      chosen := deepest;
      kept := [kept[deepest]];
    }
    if |kept| > 0 {
      var best := FirstMax(kept, (c: Contact) => Dot(c.normal, up));
      assert best == 0;
      kept := [kept[best]];
    }
  }

  // ---------------------------------------------------------------------
  // Cached mesh transform
  // ---------------------------------------------------------------------

  datatype Quat = Quat(x: real, y: real, z: real, w: real)

  /** A collider's current world transform: position, rotation, lossy scale
      and the two matrices the engine derives from them. */
  datatype WorldTransform<M> = WorldTransform(position: Vec3, rotation: Quat, scale: Vec3, localToWorld: M, worldToLocal: M)

  /** The cached part of `MeshData`. */
  datatype MeshCache<M> = MeshCache(localToWorld: M, worldToLocal: M, lastPosition: Vec3, lastRotation: Quat, lastScale: Vec3)

  predicate Unchanged<M>(c: MeshCache<M>, t: WorldTransform<M>) {
    t.position == c.lastPosition && t.rotation == c.lastRotation && t.scale == c.lastScale
  }

  /** `UpdateMeshTransform`: the matrices are re-read only when position,
      rotation or scale moved; afterwards the cache records the current
      transform. */
  function UpdateMeshTransform<M>(c: MeshCache<M>, t: WorldTransform<M>): (r: MeshCache<M>)
    ensures r.lastPosition == t.position && r.lastRotation == t.rotation && r.lastScale == t.scale
    ensures Unchanged(c, t) ==> r == c
    ensures !Unchanged(c, t) ==> r.localToWorld == t.localToWorld && r.worldToLocal == t.worldToLocal
  {
    if t.position != c.lastPosition || t.rotation != c.lastRotation || t.scale != c.lastScale then
      MeshCache(t.localToWorld, t.worldToLocal, t.position, t.rotation, t.scale)
    else
      c
  }

  /** Refreshing twice against the same transform is the same as refreshing
      once. */
  lemma UpdateMeshTransformIdempotent<M>(c: MeshCache<M>, t: WorldTransform<M>)
    ensures UpdateMeshTransform(UpdateMeshTransform(c, t), t) == UpdateMeshTransform(c, t)
  {
  }

  // ---------------------------------------------------------------------
  // Input handling
  // ---------------------------------------------------------------------

  /** The overshoot clamp of one input axis: a positive request is raised to
      the top-of-sphere speed when that is already larger, a negative one
      lowered to it. */
  function ClampAxis(move: real, top: real): (r: real)
    ensures move > 0.0 ==> r == Max(move, top)
    ensures move < 0.0 ==> r == Min(move, top)
    ensures move == 0.0 ==> r == 0.0
  {
    if top > move && move > 0.0 then top
    else if top < move && move < 0.0 then top
    else move
  }

  /** What `ComputeMoveForces` decides: no movement (zero torque and zero
      target), or the clamped roll speeds along the side and motion axes. */
  datatype MoveIntent = Idle | Moving(moveX: real, moveY: real)

  function MoveInput(inputX: real, inputY: real, maxRollVelocity: real, topX: real, topY: real): (r: MoveIntent)
    ensures r.Idle? <==> Abs(maxRollVelocity * inputY) < 0.001 && Abs(maxRollVelocity * inputX) < 0.001
    ensures r.Moving? ==> r.moveX == ClampAxis(maxRollVelocity * inputX, topX)
    ensures r.Moving? ==> r.moveY == ClampAxis(maxRollVelocity * inputY, topY)
  {
    var moveY := maxRollVelocity * inputY;
    var moveX := maxRollVelocity * inputX;
    if Abs(moveY) < 0.001 && Abs(moveX) < 0.001 then Idle
    else Moving(ClampAxis(moveX, topX), ClampAxis(moveY, topY))
  }

  /** The desired angular velocity of `ComputeMoveForces`:
      relGravity x wanted / |relGravity|^2. */
  function TargetAngularVelocity(relGravity: Vec3, wanted: Vec3): (omega: Vec3)
    requires SqrMagnitude(relGravity) != 0.0
    // the spin axis is perpendicular to gravity
    ensures Dot(omega, relGravity) == 0.0
    // scaled back by |relGravity|^2 it is relGravity x wanted
    ensures Scale(omega, SqrMagnitude(relGravity)) == Cross(relGravity, wanted)
  {
    var c := Cross(relGravity, wanted);
    CrossIsPerpendicular(relGravity, wanted);
    ScalePerpendicular(c, 1.0 / SqrMagnitude(relGravity), relGravity);
    ScaleInverse(c, SqrMagnitude(relGravity));
    Scale(c, 1.0 / SqrMagnitude(relGravity))
  }

  /** Scaling keeps a vector perpendicular to `r`. */
  lemma ScalePerpendicular(c: Vec3, k: real, r: Vec3)
    requires Dot(c, r) == 0.0
    ensures Dot(Scale(c, k), r) == 0.0
  {
    DotAddScale(Zero, c, k, r);
    assert Add(Zero, Scale(c, k)) == Scale(c, k);
  }

  /** Scaling by 1/L and then by L gives the vector back. */
  lemma ScaleInverse(c: Vec3, L: real)
    requires L != 0.0
    ensures Scale(Scale(c, 1.0 / L), L) == c
  {
    var v := Scale(Scale(c, 1.0 / L), L);
    assert v.x == c.x by {
      MulInverse(c.x, L);
    }
    assert v.y == c.y by {
      MulInverse(c.y, L);
    }
    assert v.z == c.z by {
      MulInverse(c.z, L);
    }
  }

  /** Dividing by a non-zero number and multiplying back is the identity. */
  lemma MulInverse(x: real, L: real)
    requires L != 0.0
    ensures x * (1.0 / L) * L == x
  {
    assert x * (1.0 / L) * L == x * ((1.0 / L) * L);
  }

  /** The target angular velocity makes the top of the sphere (the point at
      `relGravity` from the centre, whose velocity the input clamp measures
      as omega x relGravity) move at exactly the wanted in-plane velocity. */
  lemma TargetSpinDrivesTop(relGravity: Vec3, wanted: Vec3)
    requires SqrMagnitude(relGravity) != 0.0
    requires Dot(relGravity, wanted) == 0.0
    ensures Cross(TargetAngularVelocity(relGravity, wanted), relGravity) == wanted
    ensures Dot(TargetAngularVelocity(relGravity, wanted), relGravity) == 0.0
  {
    var r := relGravity;
    var w := wanted;
    var L := SqrMagnitude(r);
    var k := 1.0 / L;
    var c := Cross(r, w);
    TripleProduct(r, w);
    CrossScaleLeft(c, k, r);
    assert Cross(c, r) == Scale(w, L);
    assert Scale(Scale(w, L), k) == w by {
      assert L * k == 1.0;
      assert w.x * L * k == w.x * (L * k);
      assert w.y * L * k == w.y * (L * k);
      assert w.z * L * k == w.z * (L * k);
    }
    CrossIsPerpendicular(r, w);
    DotAddScale(Zero, c, k, r);
    assert Add(Zero, Scale(c, k)) == Scale(c, k);
  }

  /** (r x w) x r = w (r.r) - r (w.r). */
  lemma TripleProduct(r: Vec3, w: Vec3)
    ensures Cross(Cross(r, w), r) == Sub(Scale(w, Dot(r, r)), Scale(r, Dot(w, r)))
  {
    TripleProductComponent(r.x, r.y, r.z, w.x, w.y, w.z, Dot(r, r), Dot(w, r));
    TripleProductComponent(r.y, r.z, r.x, w.y, w.z, w.x, Dot(r, r), Dot(w, r));
    TripleProductComponent(r.z, r.x, r.y, w.z, w.x, w.y, Dot(r, r), Dot(w, r));
  }

  /** One component of the triple product; the other two follow by cycling
      the axes. */
  lemma TripleProductComponent(ra: real, rb: real, rc: real, wa: real, wb: real, wc: real, rr: real, wr: real)
    requires rr == ra * ra + rb * rb + rc * rc
    requires wr == wa * ra + wb * rb + wc * rc
    ensures (rc * wa - ra * wc) * rc - (ra * wb - rb * wa) * rb == wa * rr - ra * wr
  {
  }

  lemma CrossScaleLeft(c: Vec3, k: real, r: Vec3)
    ensures Cross(Scale(c, k), r) == Scale(Cross(c, r), k)
  {
    var lhs := Cross(Scale(c, k), r);
    var rhs := Scale(Cross(c, r), k);
    assert lhs.x == rhs.x by {
      CrossScaleComponent(c.y, r.z, c.z, r.y, k);
    }
    assert lhs.y == rhs.y by {
      CrossScaleComponent(c.z, r.x, c.x, r.z, k);
    }
    assert lhs.z == rhs.z by {
      CrossScaleComponent(c.x, r.y, c.y, r.x, k);
    }
  }

  /** One component of `CrossScaleLeft`: a common factor comes out of a
      difference of products. */
  lemma CrossScaleComponent(a: real, b: real, c: real, d: real, k: real)
    ensures a * k * b - c * k * d == (a * b - c * d) * k
  {
    assert a * k * b == (a * b) * k;
    assert c * k * d == (c * d) * k;
  }

  lemma CrossIsPerpendicular(r: Vec3, w: Vec3)
    ensures Dot(Cross(r, w), r) == 0.0
  {
    assert (r.y * w.z - r.z * w.y) * r.x + (r.z * w.x - r.x * w.z) * r.y + (r.x * w.y - r.y * w.x) * r.z == 0.0;
  }

  // ---------------------------------------------------------------------
  // Jump and bounce-floor gates
  // ---------------------------------------------------------------------

  /** The strongest-contact scan of `ApplyContactForces`: the first contact
      with the largest positive normal force -n.a, or -1 when none pushes. */
  method StrongestContact(cs: seq<Contact>, linAccel: Vec3) returns (k: int)
    ensures -1 <= k < |cs|
    ensures k == -1 <==> forall j :: 0 <= j < |cs| ==> -Dot(cs[j].normal, linAccel) <= 0.0
    ensures k >= 0 ==> -Dot(cs[k].normal, linAccel) > 0.0
    ensures k >= 0 ==> forall j :: 0 <= j < |cs| ==> -Dot(cs[j].normal, linAccel) <= -Dot(cs[k].normal, linAccel)
    ensures k >= 0 ==> forall j :: 0 <= j < k ==> -Dot(cs[j].normal, linAccel) < -Dot(cs[k].normal, linAccel)
  {
    k := -1;
    var best := 0.0;
    var i := 0;
    while i < |cs|
      invariant 0 <= i <= |cs|
      invariant -1 <= k < i
      invariant k == -1 ==> best == 0.0
      invariant k >= 0 ==> best == -Dot(cs[k].normal, linAccel) && best > 0.0
      invariant forall j :: 0 <= j < i ==> -Dot(cs[j].normal, linAccel) <= best
      invariant k >= 0 ==> forall j :: 0 <= j < k ==> -Dot(cs[j].normal, linAccel) < best
    {
      var force := -Dot(cs[i].normal, linAccel);
      if force > best {
        best := force;
        k := i;
      }
      i := i + 1;
    }
  }

  /** The outcome of the jump / bounce gate on the strongest contact. */
  datatype GateOutcome = GateOutcome(velocity: Vec3, jumped: bool, frictionApplies: bool)

  /** The jump impulse and the bounce floor of `ApplyContactForces`.
      `strongest` says whether a pushing contact exists, `n` is its unit
      normal, `surfaceVelocity` the touched surface's velocity. */
  function ContactGate(v: Vec3, n: Vec3, strongest: bool, jumpHeld: bool, bounce: real,
                       up: Vec3, jumpImpulse: real, surfaceVelocity: Vec3): (r: GateOutcome)
    requires IsUnit(n)
    ensures r.jumped <==> strongest && jumpHeld && bounce <= 0.0 && Dot(n, up) > 0.5
    ensures r.jumped ==> Dot(r.velocity, n) == jumpImpulse && Tangential(r.velocity, n) == Tangential(v, n)
    ensures r.frictionApplies <==> strongest && !r.jumped
    ensures !r.jumped && strongest && bounce > 0.0 ==>
              Dot(r.velocity, n) == Max(Dot(v, n), bounce) && Tangential(r.velocity, n) == Tangential(v, n)
    ensures !r.jumped && !(strongest && bounce > 0.0) ==> r.velocity == v
  {
    if strongest && jumpHeld && bounce <= 0.0 && Dot(n, up) > 0.5 then
      var v1 := Sub(v, Scale(n, Dot(surfaceVelocity, n)));
      var v2 := Sub(v1, Scale(n, Dot(v1, n)));
      var v3 := Add(v2, Scale(n, jumpImpulse));
      JumpAlongNormal(v, n, Dot(surfaceVelocity, n), jumpImpulse);
      GateOutcome(v3, true, false)
    else if strongest && bounce > 0.0 then
      var speed := Dot(v, n);
      if speed < bounce then
        var w := Add(Sub(v, Scale(n, speed)), Scale(n, bounce));
        JumpAlongNormal(v, n, 0.0, bounce);
        GateOutcome(w, false, true)
      else
        GateOutcome(v, false, true)
    else
      GateOutcome(v, false, strongest)
  }

  /** Removing `k` along the normal, then the whole normal part, then adding
      `speed` leaves exactly `speed` along the normal and the tangential
      part as it was. */
  lemma JumpAlongNormal(v: Vec3, n: Vec3, k: real, speed: real)
    requires IsUnit(n)
    ensures var v1 := Sub(v, Scale(n, k));
            var v3 := Add(Sub(v1, Scale(n, Dot(v1, n))), Scale(n, speed));
            Dot(v3, n) == speed && Tangential(v3, n) == Tangential(v, n)
  {
    var d := Dot(v, n);
    var v1 := Sub(v, Scale(n, k));
    AlongNormal(v, n, k);
    var v2 := Sub(v1, Scale(n, d - k));
    AlongNormal(v1, n, d - k);
    var v3 := Add(v2, Scale(n, speed));
    AlongNormal(v2, n, speed);
    assert Sub(v3, Scale(n, speed)) == v2;
    SubScaleTwice(v, n, k, d - k);
    assert k + (d - k) == d;
  }

  // ---------------------------------------------------------------------
  // Velocity cancel
  // ---------------------------------------------------------------------

  /** Whether `VelocityCancel` treats the contact as an impact: bouncing is
      allowed and the ball approaches faster than the bounce threshold, or
      moves fast along the normal in world space. */
  predicate ShouldBounce(v: Vec3, c: Contact, noBounce: bool, minBounceVel: real) {
    !noBounce && (Dot(v, c.normal) < -minBounceVel || Abs(Dot(Add(v, c.velocity), c.normal)) > 3.0)
  }

  /** One pass of `VelocityCancel` over the single contact: either the
      resting lock (cancel the small inward velocity on a floor-like
      surface), or the restitution impulse of a real impact, or nothing.
      The tangential spin kick that follows a bounce is not modelled. */
  function CancelPass(v: Vec3, c: Contact, up: Vec3, noBounce: bool,
                      minBounceVel: real, bounceRestitution: real): (r: (Vec3, bool))
    requires IsUnit(c.normal)
    ensures r.1 <==> Dot(v, c.normal) < 0.0 && (ShouldBounce(v, c, noBounce, minBounceVel) || Dot(c.normal, up) > 0.7)
    ensures r.1 && !ShouldBounce(v, c, noBounce, minBounceVel) ==>
              Dot(r.0, c.normal) == 0.0 && Tangential(r.0, c.normal) == Tangential(v, c.normal)
    ensures r.1 && ShouldBounce(v, c, noBounce, minBounceVel) ==>
              Dot(r.0, c.normal) == -(bounceRestitution * c.restitution) * Dot(v, c.normal)
    ensures !r.1 ==> r.0 == v
  {
    var n := c.normal;
    var normalRelVel := Dot(v, n);
    if !ShouldBounce(v, c, noBounce, minBounceVel) && Dot(n, up) > 0.7 && normalRelVel < 0.0 then
      var w := Sub(v, Scale(n, normalRelVel));
      AlongNormal(v, n, normalRelVel);
      assert Tangential(w, n) == Tangential(v, n) by {
        assert Scale(n, 0.0) == Zero;
        assert Sub(w, Zero) == w;
      }
      (w, true)
    else if ShouldBounce(v, c, noBounce, minBounceVel) && normalRelVel < 0.0 then
      var restitution := bounceRestitution * c.restitution;
      var impulse := -(1.0 + restitution) * normalRelVel;
      var w := Add(v, Scale(n, impulse));
      AlongNormal(v, n, impulse);
      (w, true)
    else
      (v, false)
  }

  /** With a non-negative effective restitution one pass reaches a fixed
      point: afterwards the contact is neither approached nor locked again. */
  lemma CancelPassSettles(v: Vec3, c: Contact, up: Vec3, noBounce: bool, minBounceVel: real, bounceRestitution: real)
    requires IsUnit(c.normal)
    requires bounceRestitution * c.restitution >= 0.0
    ensures var w := CancelPass(v, c, up, noBounce, minBounceVel, bounceRestitution).0;
            !CancelPass(w, c, up, noBounce, minBounceVel, bounceRestitution).1
            && Dot(w, c.normal) >= Dot(v, c.normal)
  {
    var n := c.normal;
    var nr := Dot(v, n);
    var first := CancelPass(v, c, up, noBounce, minBounceVel, bounceRestitution);
    var w := first.0;
    if !first.1 {
      assert w == v;
    } else if !ShouldBounce(v, c, noBounce, minBounceVel) {
      assert Dot(w, n) == 0.0 && nr < 0.0;
    } else {
      var e := bounceRestitution * c.restitution;
      assert Dot(w, n) == -e * nr;
      NegatedProductNonNegative(e, nr);
    }
  }

  /** A non-negative factor times a negative one, negated, is
      non-negative. */
  lemma NegatedProductNonNegative(e: real, x: real)
    requires e >= 0.0 && x < 0.0
    ensures -e * x >= 0.0
  {
  }

  /** `VelocityCancel` over the filtered contact list (at most one contact):
      up to six passes, stopping after the first pass that changes nothing
      (the first pass always continues). */
  method VelocityCancel(v: Vec3, cs: seq<Contact>, up: Vec3, noBounce: bool,
                        minBounceVel: real, bounceRestitution: real) returns (r: Vec3, passes: nat)
    requires |cs| <= 1
    requires |cs| == 1 ==> IsUnit(cs[0].normal)
    ensures 1 <= passes <= 6
    ensures |cs| == 0 ==> r == v
    ensures |cs| == 1 && bounceRestitution * cs[0].restitution >= 0.0 ==>
              && passes <= 2
              && !CancelPass(r, cs[0], up, noBounce, minBounceVel, bounceRestitution).1
              && Dot(r, cs[0].normal) >= Dot(v, cs[0].normal)
    ensures |cs| == 1 && noBounce && Dot(cs[0].normal, up) > 0.7 ==> Dot(r, cs[0].normal) >= 0.0
    ensures |cs| == 1 && noBounce && Dot(cs[0].normal, up) <= 0.7 ==> r == v
  {
    r := v;
    var firstPass := true;
    var iter := 0;
    passes := 0;
    while iter < 6
      invariant 0 <= iter <= 6
      invariant passes == iter
      invariant firstPass <==> iter == 0
      invariant |cs| == 0 ==> r == v
      invariant |cs| == 1 && bounceRestitution * cs[0].restitution >= 0.0 ==>
                  && iter <= 1
                  && (iter == 1 ==> !CancelPass(r, cs[0], up, noBounce, minBounceVel, bounceRestitution).1)
                  && Dot(r, cs[0].normal) >= Dot(v, cs[0].normal)
      invariant |cs| == 1 && noBounce && Dot(cs[0].normal, up) > 0.7 && iter >= 1 ==> Dot(r, cs[0].normal) >= 0.0
      invariant |cs| == 1 && noBounce && Dot(cs[0].normal, up) <= 0.7 ==> r == v
    {
      var anyChange := false;
      if |cs| == 1 {
        var c := cs[0];
        var step := CancelPass(r, c, up, noBounce, minBounceVel, bounceRestitution);
        if bounceRestitution * c.restitution >= 0.0 {
          CancelPassSettles(r, c, up, noBounce, minBounceVel, bounceRestitution);
        }
        r := step.0;
        anyChange := step.1;
      }
      passes := passes + 1;
      if !anyChange && !firstPass {
        break;
      }
      firstPass := false;
      iter := iter + 1;
    }
  }

  // ---------------------------------------------------------------------
  // Integration guard
  // ---------------------------------------------------------------------

  /** The pose after `UpdateIntegration`: the position always moves by
      velocity * dt; the orientation is replaced by `spun` (the axis-angle
      composition, not modelled) only when the spin exceeds 1e-7. */
  function Integrate<Q>(pos: Vec3, rot: Q, vel: Vec3, angSpeed: real, dt: real, spun: Q): (r: (Vec3, Q))
    ensures Sub(r.0, pos) == Scale(vel, dt)
    ensures angSpeed <= 0.0000001 ==> r.1 == rot
    ensures angSpeed > 0.0000001 ==> r.1 == spun
  {
    var p := Add(pos, Scale(vel, dt));
    assert Sub(p, pos) == Scale(vel, dt);
    if angSpeed <= 0.0000001 then (p, rot) else (p, spun)
  }

  /** Two steps below the spin guard compose into one: the ball moves by
      velocity * (dt1 + dt2) and keeps its orientation, whatever rotations
      were offered. */
  lemma {:induction false} IntegrateTwice<Q>(pos: Vec3, rot: Q, vel: Vec3, angSpeed: real, dt1: real, dt2: real, spun1: Q, spun2: Q)
    requires angSpeed <= 0.0000001
    ensures var first := Integrate(pos, rot, vel, angSpeed, dt1, spun1);
            var second := Integrate(first.0, first.1, vel, angSpeed, dt2, spun2);
            second == (Add(pos, Scale(vel, dt1 + dt2)), rot)
  {
    var first := Integrate(pos, rot, vel, angSpeed, dt1, spun1);
    var second := Integrate(first.0, first.1, vel, angSpeed, dt2, spun2);
    var target := Add(pos, Scale(vel, dt1 + dt2));
    assert first.0 == Add(pos, Scale(vel, dt1)) by {
      SubToAdd(first.0, pos, Scale(vel, dt1));
    }
    assert second.0 == Add(first.0, Scale(vel, dt2)) by {
      SubToAdd(second.0, first.0, Scale(vel, dt2));
    }
    assert second.0.x == target.x by {
      StepsAdd(pos.x, vel.x, dt1, dt2);
    }
    assert second.0.y == target.y by {
      StepsAdd(pos.y, vel.y, dt1, dt2);
    }
    assert second.0.z == target.z by {
      StepsAdd(pos.z, vel.z, dt1, dt2);
    }
  }

  /** A difference read back as a sum. */
  lemma SubToAdd(a: Vec3, b: Vec3, d: Vec3)
    requires Sub(a, b) == d
    ensures a == Add(b, d)
  {
  }

  /** One coordinate of two consecutive steps. */
  lemma StepsAdd(p: real, v: real, dt1: real, dt2: real)
    ensures p + v * dt1 + v * dt2 == p + v * (dt1 + dt2)
  {
  }
}

=== FILE: moving_platform.dfy ===
/** The path timing of a moving platform (`MovingPlatform`): the segment
    timing tables built at initialisation, the segment lookup, the trigger
    API and the per-tick time/index state machine. Positions are exact real
    vectors; the Catmull-Rom resampling and the cosine easing are not modelled
    (easing is an opaque parameter, the spline samples are an input). */
module MovingPlatform {
  import opened Wrappers
  import opened Vectors

  datatype Smoothing = Linear | Accelerate | Spline
  datatype Mode = Constant | Triggered

  /** Left-to-right sum, the order in which the initialisation loop adds. */
  function Sum(s: seq<real>): real {
    if |s| == 0 then 0.0 else Sum(s[..|s| - 1]) + s[|s| - 1]
  }

  /** The cached inverse duration of a segment: zero-length (or negative)
      segments get 0 instead of a division by zero. */
  function InvDuration(dt: real): (r: real)
    ensures dt > 0.0 ==> r * dt == 1.0 && r > 0.0
    ensures dt <= 0.0 ==> r == 0.0
  {
    if dt > 0.0 then 1.0 / dt else 0.0
  }

  /** The timing tables: segment start times, inverse durations, the sum of
      all durations and the sum of all but the last. */
  datatype Timing = Timing(starts: seq<real>, invDurations: seq<real>, totalTime: real, maxReachable: real)

  /** `tm` is the timing table of the duration list `d`, stated by reference
      to `Sum` rather than to the loop that builds it. */
  ghost predicate TimingOf(d: seq<real>, tm: Timing) {
    && |tm.starts| == |d|
    && |tm.invDurations| == |d|
    && (forall i :: 0 <= i < |d| ==> tm.starts[i] == Sum(d[..i]))
    && (forall i :: 0 <= i < |d| ==> tm.invDurations[i] == InvDuration(d[i]))
    && tm.totalTime == Sum(d)
    && tm.maxReachable == (if |d| == 0 then 0.0 else Sum(d[..|d| - 1]))
  }

  lemma SumSnoc(d: seq<real>, i: int)
    requires 0 <= i < |d|
    ensures Sum(d[..i + 1]) == Sum(d[..i]) + d[i]
  {
    assert d[..i + 1][..i] == d[..i];
  }

  /** The timing-cache loop of `InitMovingPlatform` (both the spline and the
      marker branch run the same loop). */
  method BuildTiming(d: seq<real>) returns (tm: Timing)
    ensures TimingOf(d, tm)
    ensures |d| > 0 ==> tm.starts[0] == 0.0
    ensures forall i :: 0 <= i < |d| - 1 ==> tm.starts[i + 1] == tm.starts[i] + d[i]
    ensures |d| > 0 ==> tm.totalTime == tm.starts[|d| - 1] + d[|d| - 1]
  {
    var starts: seq<real> := [];
    var inv: seq<real> := [];
    var total := 0.0;
    var maxR := 0.0;
    var i := 0;
    while i < |d|
      invariant 0 <= i <= |d|
      invariant |starts| == i && |inv| == i
      invariant forall k :: 0 <= k < i ==> starts[k] == Sum(d[..k])
      invariant forall k :: 0 <= k < i ==> inv[k] == InvDuration(d[k])
      invariant total == Sum(d[..i])
      invariant |d| == 0 ==> maxR == 0.0
      invariant |d| > 0 ==> maxR == Sum(d[..if i < |d| then i else |d| - 1])
    {
      starts := starts + [total];
      var dt := d[i];
      inv := inv + [if dt > 0.0 then 1.0 / dt else 0.0];
      SumSnoc(d, i);
      total := total + dt;
      if i < |d| - 1 {
        maxR := maxR + dt;
      }
      i := i + 1;
    }
    assert d[..|d|] == d;
    tm := Timing(starts, inv, total, maxR);
    forall i | 0 <= i < |d| - 1
      ensures tm.starts[i + 1] == tm.starts[i] + d[i]
    {
      SumSnoc(d, i);
    }
    if |d| > 0 {
      SumSnoc(d, |d| - 1);
    }
  }

  /** The marker branch forces the last marker's duration to zero. */
  function ForceLastZero(secs: seq<real>): (r: seq<real>)
    requires |secs| > 0
    ensures |r| == |secs| && r[|r| - 1] == 0.0
    ensures forall i :: 0 <= i < |secs| - 1 ==> r[i] == secs[i]
  {
    secs[..|secs| - 1] + [0.0]
  }

  /** With the last duration forced to zero, the furthest reachable time is
      the total path time. */
  lemma {:induction false} ForcedMaxReachableIsTotal(secs: seq<real>, tm: Timing)
    requires |secs| > 0
    requires TimingOf(ForceLastZero(secs), tm)
    ensures tm.maxReachable == tm.totalTime
  {
    var d := ForceLastZero(secs);
    SumSnoc(d, |d| - 1);
    assert d[..|d|] == d;
  }

  /** `GeneratePositions` (marker branch): every waypoint relative to the
      first marker. */
  function GeneratePositions(markers: seq<Vec3>): (r: seq<Vec3>)
    requires |markers| > 0
    ensures |r| == |markers| && r[0] == Zero
    // adding the first marker back gives each marker
    ensures forall i :: 0 <= i < |markers| ==> Add(r[i], markers[0]) == markers[i]
  {
    seq(|markers|, i requires 0 <= i < |markers| => Sub(markers[i], markers[0]))
  }

  function Translate(markers: seq<Vec3>, v: Vec3): (r: seq<Vec3>)
    ensures |r| == |markers|
  {
    seq(|markers|, i requires 0 <= i < |markers| => Add(markers[i], v))
  }

  /** Waypoints are stored relative to the first marker, so moving every
      marker by the same offset leaves the path unchanged. */
  lemma GeneratePositionsTranslationInvariant(markers: seq<Vec3>, v: Vec3)
    requires |markers| > 0
    ensures GeneratePositions(Translate(markers, v)) == GeneratePositions(markers)
  {
    var a := GeneratePositions(Translate(markers, v));
    var b := GeneratePositions(markers);
    forall i | 0 <= i < |markers|
      ensures a[i] == b[i]
    {
    }
  }

  /** `FindSegmentIndex` from position `i` on: the first `j >= i` whose
      successor start lies after `t`, or `|starts| - 2` when none does. */
  function FindFrom(starts: seq<real>, t: real, i: nat): (r: int)
    ensures i < |starts| - 1 ==> i <= r <= |starts| - 2
    ensures i >= |starts| - 1 ==> r == |starts| - 2
    ensures forall j :: i < j <= r ==> starts[j] <= t
    ensures (exists k :: i < k < |starts| && t < starts[k]) ==> t < starts[r + 1]
    // when no later start lies after `t`, the scan falls through to the last segment
    ensures (forall k :: i < k < |starts| ==> starts[k] <= t) ==> r == |starts| - 2
    decreases |starts| - i
  {
    if i < |starts| - 1 then
      if t < starts[i + 1] then i else FindFrom(starts, t, i + 1)
    else
      |starts| - 2
  }

  /** The segment lookup: for two or more entries the result is a valid
      segment, every earlier segment has already ended at `t`, and for
      `start[0] <= t < start[last]` the segment contains `t`; with `t` at or
      past every later start it is the last segment, `count - 2`. With fewer than
      two entries it yields `count - 2`, a negative index. */
  function FindSegmentIndex(starts: seq<real>, t: real): (r: int)
    ensures |starts| < 2 ==> r == |starts| - 2
    ensures |starts| >= 2 ==> 0 <= r <= |starts| - 2
    ensures forall j :: 0 < j <= r ==> starts[j] <= t
    ensures (exists k :: 0 < k < |starts| && t < starts[k]) ==> t < starts[r + 1]
    ensures (forall k :: 0 < k < |starts| ==> starts[k] <= t) ==> r == |starts| - 2
    ensures |starts| >= 2 && starts[0] <= t < starts[|starts| - 1] ==> starts[r] <= t < starts[r + 1]
  {
    var r := FindFrom(starts, t, 0);
    if |starts| >= 2 && starts[0] <= t < starts[|starts| - 1] then
      assert 0 < |starts| - 1 < |starts| && t < starts[|starts| - 1];
      assert r > 0 ==> starts[r] <= t;
      r
    else
      r
  }

  /** `ClampListPos`: a neighbour index of the spline sampler; one before
      the first marker is the last, anything past the end is the first. */
  function ClampListPos(pos: int, count: nat): (r: int)
    ensures pos < 0 ==> r == count - 1
    ensures pos >= count ==> r == 0
    ensures count > 0 && pos <= count ==> 0 <= r < count
  {
    if pos < 0 then count - 1
    else if pos >= count then 0
    else pos
  }

  /** The neighbours the sampler asks for (`pos - 1` and `pos + 1` of a
      marker) wrap around the marker list exactly as modular indexing does;
      the second successor `pos + 2` of the last marker gives the first
      marker rather than the second. */
  lemma ClampListPosWraps(pos: int, count: nat)
    requires 0 <= pos < count
    ensures ClampListPos(pos - 1, count) == (pos - 1) % count
    ensures ClampListPos(pos + 1, count) == (pos + 1) % count
    ensures ClampListPos(pos, count) == pos
    ensures pos + 2 < count ==> ClampListPos(pos + 2, count) == pos + 2
    ensures pos == count - 1 ==> ClampListPos(pos + 2, count) == 0
  {
    if pos == 0 {
      assert (pos - 1) % count == count - 1;
    } else {
      assert (pos - 1) % count == pos - 1;
    }
    if pos + 1 == count {
      assert (pos + 1) % count == 0;
    } else {
      assert (pos + 1) % count == pos + 1;
    }
  }

  /** A platform: its configuration (mode, durations, waypoints, tables) and
      its running state (time, target, segment index and end, last
      position, published velocity). */
  datatype Platform = Platform(
    smoothing: Smoothing,
    mode: Mode,
    durations: seq<real>,
    positions: seq<Vec3>,
    timing: Timing,
    initialPosition: real,
    basePos: Vec3,
    initialIndex: int,
    initialSegmentEnd: real,
    time: real,
    targetTime: real,
    index: int,
    segmentEnd: real,
    previousPosition: Vec3,
    position: Vec3,
    velocity: Vec3)

  /** The platform invariant: at least two waypoints, the timing tables
      describe the durations, the segment index addresses a real segment, and
      (marker branch) the last duration is zero and the cached segment end is
      the end of the current segment. */
  ghost predicate Valid(p: Platform) {
    && |p.positions| >= 2
    && |p.durations| == |p.positions|
    && TimingOf(p.durations, p.timing)
    && 0 <= p.index <= |p.positions| - 2
    && 0 <= p.initialIndex <= |p.positions| - 2
    && (p.smoothing != Spline ==>
          && p.durations[|p.durations| - 1] == 0.0
          && p.segmentEnd == p.timing.starts[p.index] + p.durations[p.index]
          && p.initialSegmentEnd == p.timing.starts[p.initialIndex] + p.durations[p.initialIndex])
  }

  /** `InitMovingPlatform`. `points` are the marker positions, or, for a
      spline platform, the already resampled spline points; `secs` their
      `secondsToNext`. An empty marker list fails in `GeneratePositions`; a
      single marker makes the segment index -1 and fails on the table
      lookup. */
  method Init(smoothing: Smoothing, mode: Mode, points: seq<Vec3>, secs: seq<real>,
              initialPosition: real, basePos: Vec3) returns (r: Option<Platform>)
    requires |points| == |secs|
    ensures r.None? <==> |points| < 2
    ensures r.Some? ==> Valid(r.value)
    ensures r.Some? ==> r.value.time == Clamp(initialPosition, 0.0, r.value.timing.maxReachable)
    ensures r.Some? ==> r.value.targetTime == r.value.time
    ensures r.Some? ==> r.value.velocity == Zero && r.value.previousPosition == basePos
    ensures r.Some? && smoothing != Spline ==> r.value.timing.maxReachable == r.value.timing.totalTime
    ensures r.Some? ==> r.value.timing.starts[0] == 0.0
    ensures r.Some? ==> r.value.index == FindSegmentIndex(r.value.timing.starts, r.value.time)
    ensures r.Some? && smoothing != Spline ==> InitialState(r.value)
  {
    if |points| < 2 {
      return None;
    }
    var d := if smoothing == Spline then secs else ForceLastZero(secs);
    var tm := BuildTiming(d);
    var positions := GeneratePositions(points);
    var time := Clamp(initialPosition, 0.0, tm.maxReachable);
    var index := FindSegmentIndex(tm.starts, time);
    if smoothing == Spline {
      // the spline branch returns before caching the segment end or the
      // initial index, which keep their default value 0
      r := Some(Platform(smoothing, mode, d, positions, tm, initialPosition, basePos,
                         0, 0.0, time, time, index, 0.0, basePos, basePos, Zero));
    } else {
      var segEnd := tm.starts[index] + d[index];
      ForcedMaxReachableIsTotal(secs, tm);
      r := Some(Platform(smoothing, mode, d, positions, tm, initialPosition, basePos,
                         index, segEnd, time, time, index, segEnd, basePos, basePos, Zero));
    }
  }

  /** `GoToTime`: a triggered platform's target is clamped to the reachable
      range; a constant platform stores it unchanged. */
  function GoToTime(p: Platform, t: real): (r: Platform)
    ensures p.mode == Triggered && p.timing.maxReachable >= 0.0 ==> 0.0 <= r.targetTime <= p.timing.maxReachable
    ensures p.mode == Triggered && 0.0 <= t <= p.timing.maxReachable ==> r.targetTime == t
    ensures p.mode == Constant ==> r.targetTime == t
    ensures r == p.(targetTime := r.targetTime)
  {
    if p.mode == Triggered then p.(targetTime := Clamp(t, 0.0, p.timing.maxReachable))
    else p.(targetTime := t)
  }

  /** `Mathf.MoveTowards`: step from `cur` toward `target` by at most
      `maxDelta` without passing it. */
  function MoveTowards(cur: real, target: real, maxDelta: real): (r: real)
    requires maxDelta >= 0.0
    ensures Abs(r - cur) <= maxDelta
    ensures (cur <= r <= target) || (target <= r <= cur)
    ensures r == target <==> Abs(target - cur) <= maxDelta
    ensures r != target ==> Abs(r - cur) == maxDelta
  {
    if Abs(target - cur) <= maxDelta then target
    else if target - cur >= 0.0 then cur + maxDelta
    else cur - maxDelta
  }

  /** The time after the advance step of one tick, before the loop check. */
  function AdvanceTime(p: Platform, dt: real): real
    requires dt >= 0.0
  {
    if p.mode == Triggered then MoveTowards(p.time, p.targetTime, dt) else p.time + dt
  }

  /** The time after one tick: a constant platform loops to 0 past the
      total time. */
  function StepTime(p: Platform, dt: real): real
    requires dt >= 0.0
  {
    var t1 := AdvanceTime(p, dt);
    if p.mode == Constant && t1 > p.timing.totalTime then 0.0 else t1
  }

  /** One `FixedUpdate` of a platform; `ease` is the cosine ease used by
      `Accelerate` smoothing. */
  function Tick(p: Platform, dt: real, ease: real -> real): (r: Platform)
    requires Valid(p)
    requires dt > 0.0
    // the index always addresses a segment, so the safety guard never fires
    ensures Valid(r)
    // a triggered platform at its target publishes zero velocity and holds
    ensures p.mode == Triggered && p.time == p.targetTime ==> r == p.(velocity := Zero)
    // otherwise it steps toward the target by at most dt, never past it
    ensures p.mode == Triggered && p.time != p.targetTime ==>
              && ((p.time <= r.time <= p.targetTime) || (p.targetTime <= r.time <= p.time))
              && Abs(r.time - p.time) <= dt
              && (r.time == p.targetTime <==> Abs(p.targetTime - p.time) <= dt)
    // a constant platform runs forward and loops to 0 past the total time
    ensures p.mode == Constant ==> r.time == (if p.time + dt > p.timing.totalTime then 0.0 else p.time + dt)
    ensures (p.mode == Constant && p.time + dt > p.timing.totalTime && p.smoothing != Spline
             && p.durations[0] >= 0.0) ==> r.index == 0
    // the marker branch advances at most one segment per tick, only below n-2
    ensures p.smoothing != Spline && r.time != 0.0 ==> p.index <= r.index <= p.index + 1
    ensures p.smoothing != Spline && r.index == p.index + 1 ==> p.index < |p.positions| - 2
    // the spline branch looks the segment up afresh
    ensures (p.smoothing == Spline && !(p.mode == Triggered && p.time == p.targetTime))
              ==> r.index == FindSegmentIndex(p.timing.starts, r.time)
    // every moving tick interpolates and publishes displacement / dt
    ensures !(p.mode == Triggered && p.time == p.targetTime) ==>
              && r.previousPosition == r.position
              && r.velocity == Scale(Sub(r.position, p.previousPosition), 1.0 / dt)
    // the configuration never changes
    ensures SameConfig(r, p)
  {
    if p.mode == Triggered && p.time == p.targetTime then
      p.(velocity := Zero)
    else if p.smoothing == Spline then
      SplineStep(p, dt)
    else
      MarkerStep(p, dt, ease)
  }

  /** Two platforms share their configuration (everything but the running
      state). */
  ghost predicate SameConfig(p: Platform, q: Platform) {
    && p.smoothing == q.smoothing && p.mode == q.mode
    && p.durations == q.durations && p.positions == q.positions && p.timing == q.timing
    && p.initialPosition == q.initialPosition && p.basePos == q.basePos
    && p.initialIndex == q.initialIndex && p.initialSegmentEnd == q.initialSegmentEnd
  }

  /** A triggered platform whose time and target lie in the reachable range
      keeps them there: targets are clamped and `MoveTowards` never passes
      the target. */
  lemma TriggeredStaysInRange(p: Platform, dt: real, ease: real -> real, goal: real)
    requires Valid(p) && dt > 0.0 && p.mode == Triggered
    requires 0.0 <= p.time <= p.timing.maxReachable
    requires 0.0 <= p.targetTime <= p.timing.maxReachable
    ensures var q := Tick(GoToTime(p, goal), dt, ease);
            0.0 <= q.time <= q.timing.maxReachable && 0.0 <= q.targetTime <= q.timing.maxReachable
  {
  }

  /** The spline branch: the segment is looked up afresh every tick. */
  function SplineStep(p: Platform, dt: real): (r: Platform)
    requires Valid(p)
    requires p.smoothing == Spline
    requires dt > 0.0
    ensures Valid(r) && SameConfig(r, p)
    ensures r.time == StepTime(p, dt)
    ensures r.index == FindSegmentIndex(p.timing.starts, r.time)
    ensures r.previousPosition == r.position
    ensures r.velocity == Scale(Sub(r.position, p.previousPosition), 1.0 / dt)
  {
    var time := StepTime(p, dt);
    var index := FindSegmentIndex(p.timing.starts, time);
    if index >= |p.positions| - 1 then
      p.(time := time, index := index)
    else
      var u := (time - p.timing.starts[index]) * p.timing.invDurations[index];
      var newPos := Add(p.basePos, LerpUnclamped(p.positions[index], p.positions[index + 1], u));
      p.(time := time, index := index, previousPosition := newPos, position := newPos,
         velocity := Scale(Sub(newPos, p.previousPosition), 1.0 / dt))
  }

  /** The marker branch: loop back to the start, then advance the cached
      segment by at most one per tick. */
  function MarkerStep(p: Platform, dt: real, ease: real -> real): (r: Platform)
    requires Valid(p)
    requires p.smoothing != Spline
    requires dt > 0.0
    ensures Valid(r) && SameConfig(r, p)
    ensures r.time == StepTime(p, dt)
    ensures p.mode == Constant && AdvanceTime(p, dt) > p.timing.totalTime && p.durations[0] >= 0.0 ==> r.index == 0
    ensures r.time != 0.0 ==> p.index <= r.index <= p.index + 1
    ensures r.index == p.index + 1 ==> p.index < |p.positions| - 2
    ensures r.previousPosition == r.position
    ensures r.velocity == Scale(Sub(r.position, p.previousPosition), 1.0 / dt)
  {
    var n := |p.positions|;
    var t1 := AdvanceTime(p, dt);
    var wrap := p.mode == Constant && t1 > p.timing.totalTime;
    var time := StepTime(p, dt);
    var index0 := if wrap then 0 else p.index;
    var end0 := if wrap then p.timing.starts[0] + p.durations[0] else p.segmentEnd;
    var advance := index0 < n - 2 && time > end0;
    var index := if advance then index0 + 1 else index0;
    var segEnd := if advance then end0 + p.durations[index] else end0;
    if advance then
      SumSnoc(p.durations, index0);
      PlaceAt(p, time, index, segEnd, dt, ease)
    else
      PlaceAt(p, time, index, segEnd, dt, ease)
  }

  /** The tail of the marker branch: the safety guard, then interpolation
      and velocity tracking. */
  function PlaceAt(p: Platform, time: real, index: int, segEnd: real, dt: real, ease: real -> real): (r: Platform)
    requires Valid(p)
    requires p.smoothing != Spline
    requires 0 <= index <= |p.positions| - 2
    requires segEnd == p.timing.starts[index] + p.durations[index]
    requires dt > 0.0
    ensures Valid(r) && SameConfig(r, p)
    ensures r.time == time && r.index == index && r.segmentEnd == segEnd
    ensures r.previousPosition == r.position
    ensures r.velocity == Scale(Sub(r.position, p.previousPosition), 1.0 / dt)
  {
    if index >= |p.positions| - 1 then
      p.(time := time, index := index, segmentEnd := segEnd, velocity := Zero)
    else
      var u0 := (time - p.timing.starts[index]) * p.timing.invDurations[index];
      var u := if p.smoothing == Accelerate then ease(u0) else u0;
      var newPos := Add(p.basePos, LerpUnclamped(p.positions[index], p.positions[index + 1], u));
      p.(time := time, index := index, segmentEnd := segEnd, previousPosition := newPos,
         position := newPos, velocity := Scale(Sub(newPos, p.previousPosition), 1.0 / dt))
  }

  /** The running state `InitMovingPlatform` leaves a marker platform in. */
  ghost predicate InitialState(p: Platform) {
    && p.time == Clamp(p.initialPosition, 0.0, p.timing.maxReachable)
    && p.targetTime == p.time
    && p.index == p.initialIndex
    && p.segmentEnd == p.initialSegmentEnd
    && p.previousPosition == p.basePos
    && p.position == p.basePos
    && p.velocity == Zero
  }

  /** `ResetMP` as written: the time goes back to the raw `initialPosition`,
      although initialisation clamped it. */
  function ResetAsWritten(p: Platform): (r: Platform)
    ensures SameConfig(r, p)
    ensures r.time == p.initialPosition && r.targetTime == r.time
    ensures r.index == p.initialIndex && r.velocity == Zero
  {
    p.(index := p.initialIndex, time := p.initialPosition, targetTime := p.initialPosition,
       segmentEnd := p.initialSegmentEnd, previousPosition := p.basePos, position := p.basePos,
       velocity := Zero)
  }

  /** A reset platform should be in exactly the state initialisation left it
      in; as written it is not when `initialPosition` lies beyond the path:
      two waypoints 2 s apart, initial position 5 s. */
  lemma ResetAsWrittenMissesInitialState()
    ensures exists p :: Valid(p) && InitialState(p) && p.mode == Triggered
                        && ResetAsWritten(p) != p
                        && ResetAsWritten(p).time > p.timing.maxReachable
  {
    var d := [2.0, 0.0];
    assert d[..0] == [] && d[..1] == [2.0] && d[..2] == d;
    assert Sum([2.0]) == 2.0;
    assert Sum(d) == 2.0;
    var tm := Timing([0.0, 2.0], [0.5, 0.0], 2.0, 2.0);
    assert TimingOf(d, tm);
    var p := Platform(Linear, Triggered, d, [Zero, Vec3(1.0, 0.0, 0.0)], tm, 5.0, Zero,
                      0, 2.0, 2.0, 2.0, 0, 2.0, Zero, Zero, Zero);
    assert Valid(p) && InitialState(p);
    assert ResetAsWritten(p).time == 5.0;
  }

  /** `ResetMP` with the initial time clamped as initialisation does. */
  function Reset(p: Platform): (r: Platform)
    ensures SameConfig(r, p)
    ensures Valid(p) ==> Valid(r)
  {
    var time := Clamp(p.initialPosition, 0.0, p.timing.maxReachable);
    p.(index := p.initialIndex, time := time, targetTime := time,
       segmentEnd := p.initialSegmentEnd, previousPosition := p.basePos, position := p.basePos,
       velocity := Zero)
  }

  /** Whatever ticks and triggers happened since, the corrected reset puts a
      platform back into the state initialisation produced. */
  lemma ResetRestoresInitialState(p0: Platform, p: Platform)
    requires InitialState(p0)
    requires SameConfig(p, p0)
    ensures Reset(p) == p0
  {
  }
}

=== FILE: powerups.dfy ===
/** A power-up item on the map: picked up by the marble while active,
    then hidden until its respawn time has passed. The clock is a
    parameter (`now`), and the per-type `UsePowerup` overrides are outside
    this model: a pickup only reports whether it would call them. */
module Powerups {

  datatype PowerupType =
    | None
    | SuperJump
    | SuperSpeed
    | SuperBounce
    | ShockAbsorber
    | MegaMarble
    | MiniMarble
    | TimeTravel
    | AntiGravity
    | Gyrocopter

  /** The item's state; `shown` stands for the child objects' visibility. */
  datatype Item = Item(
    kind: PowerupType,
    name: string,
    autoUse: bool,
    respawnTime: real,
    isActive: bool,
    timeDeactivated: real,
    bottomTextMsg: string,
    shown: bool)

  const DefaultRespawnTime: real := 7.0

  const PickupPrefix: string := "You picked up a "

  /** `Activate`: the item is live and visible again. */
  function Activate(item: Item): (r: Item)
    ensures r.isActive && r.shown
    ensures r.(isActive := item.isActive, shown := item.shown) == item
  {
    item.(isActive := true, shown := true)
  }

  /** `Deactivate`: the item is hidden and remembers when; every type but
      time travel sets the pickup message. */
  function Deactivate(item: Item, now: real): (r: Item)
    ensures !r.isActive && !r.shown && r.timeDeactivated == now
    ensures item.kind != TimeTravel ==> r.bottomTextMsg == PickupPrefix + item.name
    ensures item.kind == TimeTravel ==> r.bottomTextMsg == item.bottomTextMsg
    ensures r.kind == item.kind && r.name == item.name && r.autoUse == item.autoUse && r.respawnTime == item.respawnTime
  {
    item.(isActive := false, timeDeactivated := now, shown := false,
          bottomTextMsg := if item.kind != TimeTravel then PickupPrefix + item.name else item.bottomTextMsg)
  }

  /** The outcome of a trigger contact: the new item state and whether the
      type's `UsePowerup` runs. */
  datatype Pickup = Pickup(item: Item, used: bool)

  /** `OnTriggerStay`: only a marble touching an active item picks it up;
      the power-up is used at once exactly when the item is auto-use. */
  function OnTriggerStay(item: Item, isMarble: bool, now: real): (r: Pickup)
    ensures r.item.isActive ==> r.item == item && !r.used
    ensures !(isMarble && item.isActive) ==> r == Pickup(item, false)
    ensures isMarble && item.isActive ==> r.item == Deactivate(item, now) && r.used == item.autoUse
  {
    if isMarble && item.isActive then Pickup(Deactivate(item, now), item.autoUse)
    else Pickup(item, false)
  }

  /** The respawn check of `FixedUpdate`: an inactive item comes back once
      `respawnTime` has elapsed since it was taken. */
  function RespawnCheck(item: Item, now: real): (r: Item)
    ensures r.isActive <==> item.isActive || now - item.timeDeactivated >= item.respawnTime
    ensures !item.isActive && now - item.timeDeactivated >= item.respawnTime ==> r == Activate(item)
    ensures item.isActive || now - item.timeDeactivated < item.respawnTime ==> r == item
  {
    if now - item.timeDeactivated >= item.respawnTime && !item.isActive then Activate(item) else item
  }

  /** The pickup/respawn cycle: a picked-up item cannot be picked up again
      before its respawn time, and is active again from then on. */
  lemma PickupCycle(item: Item, t: real, later: real)
    requires item.isActive
    ensures var taken := OnTriggerStay(item, true, t).item;
            && !taken.isActive
            && (later - t < item.respawnTime ==>
                  RespawnCheck(taken, later) == taken && OnTriggerStay(taken, true, later) == Pickup(taken, false))
            && (later - t >= item.respawnTime ==>
                  RespawnCheck(taken, later).isActive && OnTriggerStay(RespawnCheck(taken, later), true, later).item.timeDeactivated == later)
  {
  }
}

=== FILE: vectors.dfy ===
/** Three-component real vectors: the exact-arithmetic stand-in for Unity's
    `Vector3`. Only the operations whose result is a polynomial in the
    components are defined; lengths (square roots) are never computed here. */
module Vectors {

  datatype Vec3 = Vec3(x: real, y: real, z: real)

  const Zero := Vec3(0.0, 0.0, 0.0)

  function Add(a: Vec3, b: Vec3): Vec3 {
    Vec3(a.x + b.x, a.y + b.y, a.z + b.z)
  }

  function Sub(a: Vec3, b: Vec3): Vec3 {
    Vec3(a.x - b.x, a.y - b.y, a.z - b.z)
  }

  function Scale(a: Vec3, k: real): Vec3 {
    Vec3(a.x * k, a.y * k, a.z * k)
  }

  function Dot(a: Vec3, b: Vec3): real {
    a.x * b.x + a.y * b.y + a.z * b.z
  }

  function Cross(a: Vec3, b: Vec3): Vec3 {
    Vec3(a.y * b.z - a.z * b.y, a.z * b.x - a.x * b.z, a.x * b.y - a.y * b.x)
  }

  /** Squared length, Unity's `sqrMagnitude`. */
  function SqrMagnitude(a: Vec3): real {
    Dot(a, a)
  }

  /** Unity's `Vector3.LerpUnclamped`: a + (b - a) * t for any t. */
  function LerpUnclamped(a: Vec3, b: Vec3, t: real): Vec3 {
    Add(a, Scale(Sub(b, a), t))
  }

  /** The part of `v` perpendicular to the unit vector `n`. */
  function Tangential(v: Vec3, n: Vec3): Vec3 {
    Sub(v, Scale(n, Dot(v, n)))
  }

  ghost predicate IsUnit(n: Vec3) {
    Dot(n, n) == 1.0
  }

  /** `Mathf.Abs`. */
  function Abs(x: real): real {
    if x < 0.0 then -x else x
  }

  /** Real maximum and clamp as Unity's Mathf defines them. */
  function Max(a: real, b: real): real {
    if a >= b then a else b
  }

  function Min(a: real, b: real): real {
    if a <= b then a else b
  }

  function Max3(a: real, b: real, c: real): real {
    Max(Max(a, b), c)
  }

  /** `Mathf.Clamp(value, min, max)`: the lower bound is tested first. */
  function Clamp(value: real, lo: real, hi: real): (r: real)
    ensures lo <= hi ==> lo <= r <= hi
    ensures lo <= value <= hi ==> r == value
  {
    if value < lo then lo else if value > hi then hi else value
  }

  // Algebra the solver does not find unaided: each lemma distributes one
  // product over the three components.

  lemma DotAddScale(a: Vec3, b: Vec3, k: real, c: Vec3)
    ensures Dot(Add(a, Scale(b, k)), c) == Dot(a, c) + k * Dot(b, c)
    ensures Dot(Sub(a, Scale(b, k)), c) == Dot(a, c) - k * Dot(b, c)
  {
    assert (a.x + b.x * k) * c.x == a.x * c.x + k * (b.x * c.x);
    assert (a.y + b.y * k) * c.y == a.y * c.y + k * (b.y * c.y);
    assert (a.z + b.z * k) * c.z == a.z * c.z + k * (b.z * c.z);
    assert (a.x - b.x * k) * c.x == a.x * c.x - k * (b.x * c.x);
    assert (a.y - b.y * k) * c.y == a.y * c.y - k * (b.y * c.y);
    assert (a.z - b.z * k) * c.z == a.z * c.z - k * (b.z * c.z);
  }

  /** The part of `v` along the unit normal `n` after adding `k` along it. */
  lemma AlongNormal(v: Vec3, n: Vec3, k: real)
    requires IsUnit(n)
    ensures Dot(Add(v, Scale(n, k)), n) == Dot(v, n) + k
    ensures Dot(Sub(v, Scale(n, k)), n) == Dot(v, n) - k
  {
    DotAddScale(v, n, k, n);
  }

  /** Removing `a` and then `b` along `n` removes `a + b`. */
  lemma SubScaleTwice(v: Vec3, n: Vec3, a: real, b: real)
    ensures Sub(Sub(v, Scale(n, a)), Scale(n, b)) == Sub(v, Scale(n, a + b))
  {
    assert n.x * (a + b) == n.x * a + n.x * b;
    assert n.y * (a + b) == n.y * a + n.y * b;
    assert n.z * (a + b) == n.z * a + n.z * b;
  }

  lemma SqrMagnitudeNonNegative(a: Vec3)
    ensures SqrMagnitude(a) >= 0.0
  {
    assert a.x * a.x >= 0.0 && a.y * a.y >= 0.0 && a.z * a.z >= 0.0;
  }
}

=== FILE: wrappers.dfy ===
/** Failure-carrying values used where the original code returns null or
    throws: `None` / `Failure` stand for the null result or the exception. */
module Wrappers {

  datatype Option<+T> = None | Some(value: T) {

    /** The value, or a default when None. */
    function GetOr(default: T): T {
      match this
      case Some(v) => v
      case None => default
    }
  }

  /** The kinds of runtime failure the modelled code can raise. */
  datatype Error =
    | IndexOutOfRange
    | NullReference
    | InvalidOperation
    | Format
    | Argument(message: string)

  datatype Result<+R> = Success(value: R) | Failure(error: Error)
}
